=== FILE: README.md ===
# expo-tunnelkit, modelled in Dafny

expo-tunnelkit is an Expo module that lets a React Native app configure and
drive an OpenVPN tunnel through TunnelKit on iOS. This project models four
parts of it:

- **the native parameter store** (`ios/ExpoTunnelkitModule.swift`):
  - the state behind `setParam` and the closed list of parameter keys;
  - how each value string is parsed, and the fields it derives (the
    endpoint list from the socket type and port, the TLS wrap from its
    strategy, key and direction);
  - `setup`, `setCredentials`, the configuration import (`configFromString`
    and `configFromUrl`) and `build`;
  - the view `getCurrentConfig` reports;
  - the provider configuration `makeProtocol` produces.
- **the connection controller**: the status mapping, `connect` (guards,
  reload, dispatch on status), `configureVPN`, `reloadCurrentManager`,
  `disconnect`, the status-change handler, `getVpnStatus` and
  `getDataCount`.
- **the JavaScript facade** (`src/index.ts`): the identifier defaults of
  `setup`, the value encoding and unknown-key error of `setParam`, and the
  clean-up after a failed `connect`.
- **the Expo config plugin** (`plugin/src/index.ts`): the three entitlement
  upserts, the `{{GROUP_NAME}}` substitution in the extension's sources, and
  the Podfile transform.

Everything the module hands to the operating system or to TunnelKit is a
parameter:
- the preferences load and save replies;
- the tunnel start and stop errors;
- the protocol generator;
- the JSON, URL and number decoders;
- the `.ovpn` parser.

Operations are pure functions from one state to the next, together with the
list of system effects they request.

Files:
- `base.dfy`: `Option` and `Result`.
- `text.dfy`: substring search, JavaScript `split`/`join`, global
  replacement, leading whitespace.
- `decimal.dfy`: Swift `Int(_:)`-style numerals with a width check.
- `status.dfy`: the platform and readable connection statuses.
- `session.dfy`: the OpenVPN session builder and its value tables.
- `keys.dfy`: the parameter keys.
- `params.dfy`: the store and `setParam`.
- `param_laws.dfy`: per-key laws.
- `report.dfy`: `getCurrentConfig`.
- `provisioning.dfy`: `makeProtocol`.
- `controller.dfy`: the connection controller.
- `facade.dfy`: the JavaScript facade.
- `plugin.dfy`: the config plugin.

## Model

| member | source | states |
|---|---|---|
| Status.ToReadable | ios/ExpoTunnelkitModule.swift:17-37 | Every platform status is reported as a readable status other than `None`. It reads as `Unknown` exactly when it is not one of the six known platform values. |
| Status.ToReadableInjective | ios/ExpoTunnelkitModule.swift:17-37 | Distinct known platform statuses are reported distinctly. |
| Status.RawValueRoundTrip | ios/ExpoTunnelkitModule.swift:6-15 | The raw string of each readable status is parsed back to that status. |
| Status.ParseRawOnlyNames | ios/ExpoTunnelkitModule.swift:6-15 | Only the raw strings of the readable statuses are parsed as a status. |
| Session.NameTablesRoundTrip | ios/ExpoTunnelkitModule.swift:289-351 | Each accepted spelling of a cipher, digest, compression framing, compression algorithm, wrap strategy, key direction, socket type or boolean parses to its own value. |
| Session.ParsedAreNames | ios/ExpoTunnelkitModule.swift:289-351 | Any string these tables accept is the spelling of the value it parses to. |
| Keys.Canonical | ios/ExpoTunnelkitModule.swift:269-535 | Swift's `switch` on strings matches up to canonical equivalence: the folded string keeps the length and changes exactly the KELVIN SIGN characters, into `K`. |
| Keys.CanonicalWithoutKelvin | ios/ExpoTunnelkitModule.swift:269-535 | A string without a KELVIN SIGN is its own canonical form. |
| Keys.ParseKey | ios/ExpoTunnelkitModule.swift:269-535 | The key a string selects has the string's canonical form as its name. |
| Keys.LookupRoundTrip | ios/ExpoTunnelkitModule.swift:269-535 | Every key's name is found by the name lookup, and no name contains a KELVIN SIGN. |
| Keys.KelvinSpellingSelects | ios/ExpoTunnelkitModule.swift:269-535 | `KeepAliveTimeout` spelled with a KELVIN SIGN selects the `KeepAliveTimeout` key. |
| Keys.KeyRoundTrip | ios/ExpoTunnelkitModule.swift:269-535 | Every parameter key's name selects that key. |
| Keys.KeyNameInjective | ios/ExpoTunnelkitModule.swift:269-535 | No two parameter keys share a name. |
| Keys.UnknownKeyIffNoName | ios/ExpoTunnelkitModule.swift:531-532 | A string selects no key exactly when its canonical form is no key's name. |
| Decimal.ParseInRange | ios/ExpoTunnelkitModule.swift:400-413 | A value is produced exactly when the string is a numeral whose value lies in the width's range, and that value is what the numeral spells. |
| Decimal.ParseShow | ios/ExpoTunnelkitModule.swift:448-450 | Parsing the decimal rendering of any in-range number gives back that number. |
| Decimal.OutOfRangeExamples | ios/ExpoTunnelkitModule.swift:400-413 | At the 16-bit bound, 65535 and `-0` are accepted, while 65536, `-1` and a numeral with a leading space are refused. |
| Params.ApplyKey | ios/ExpoTunnelkitModule.swift:269-535 | The switch case of a known key refuses only a JSON value that does not decode, and only for the JSON keys. |
| Params.SetParam | ios/ExpoTunnelkitModule.swift:269-535 | `setParam` refuses an unknown key (returns false) exactly when the string's canonical form is no parameter's name. A known key writes that key's update. A JSON decode failure throws, and only JSON keys can throw. |
| Params.DecodeFailureOnlyForJson | ios/ExpoTunnelkitModule.swift:451-484 | Only the JSON-valued keys can refuse a value. No key is reported as unknown. |
| Params.SetParamFrame | ios/ExpoTunnelkitModule.swift:269-535 | An accepted `setParam` changes no field outside its own key's field and that key's derived field. |
| Params.Setup | ios/ExpoTunnelkitModule.swift:252-261 | `setup` stores both identifiers and changes no other field of the store. |
| Params.SetCredentials | ios/ExpoTunnelkitModule.swift:263-267 | `setCredentials` stores both credentials and changes no other field of the store. |
| Params.Import | ios/ExpoTunnelkitModule.swift:192-221 | An import makes the parsed configuration both the session builder and the built session. |
| Params.Build | ios/ExpoTunnelkitModule.swift:579-582 | `build` makes the current builder the built session and changes no other field of the store. |
| Text.SwiftPieces | ios/ExpoTunnelkitModule.swift:563 | Splitting a Swift string at `"\n"` cuts at every line feed that does not follow a carriage return, since CR LF is one `Character`. Joining the pieces with line feeds gives back the string, no piece holds such a line feed, and no piece but the last ends in a carriage return. |
| Text.SwiftPiecesWithoutReturns | ios/ExpoTunnelkitModule.swift:563 | Without carriage returns, this is a plain split at every line feed. |
| Text.CrLfKeptTogether | ios/ExpoTunnelkitModule.swift:563 | `"a\r\nb"` stays one line, and `"a\nb"` becomes two. |
| Text.SwiftLines | ios/ExpoTunnelkitModule.swift:563 | The lines handed to the parser are non-empty pieces of the split. None of them holds a line break. |
| Params.ConfigFromString | ios/ExpoTunnelkitModule.swift:561-577 | The import succeeds exactly when the parser accepts the non-empty lines, split with CR LF kept inside a line. It then imports the parsed configuration. A parse error is rejected with `Error parsing configuration: ` and the parser's description. |
| Params.ConfigFromUrl | ios/ExpoTunnelkitModule.swift:537-559 | A string that is no URL is refused with `Invalid URL`. Otherwise the import succeeds exactly when the configuration at the URL parses. A parse error is rejected with `Error parsing configuration: ` and the parser's description. |
| ParamLaws.CipherValue | ios/ExpoTunnelkitModule.swift:289-307 | `CipherAlgorithm` is never refused. The stored cipher is exactly the one the string spells, or none. |
| ParamLaws.DigestValue | ios/ExpoTunnelkitModule.swift:309-323 | `DigestAlgorithm` stores exactly the digest the string spells, or none. |
| ParamLaws.CompressionValues | ios/ExpoTunnelkitModule.swift:325-351 | The two compression keys store exactly the value the string spells, or none. |
| ParamLaws.UnknownCipherClears | ios/ExpoTunnelkitModule.swift:289-307 | An unknown cipher spelling clears the cipher and changes nothing else. |
| ParamLaws.SessionFlagValues | ios/ExpoTunnelkitModule.swift:415-444 | `ChecksEKU`, `RandomizeEndpoint` and `UsesPIAPatches` store the boolean `true`/`false` spells. On any other spelling they leave the store as it was. |
| ParamLaws.PrefersResolvedValue | ios/ExpoTunnelkitModule.swift:487-496 | `PrefersResolvedAddresses` follows the same rule, in the provider settings. |
| ParamLaws.DebugFlagValues | ios/ExpoTunnelkitModule.swift:505-527 | `Debug` and `MasksPrivateData` follow the same rule. |
| ParamLaws.ShadowValues | ios/ExpoTunnelkitModule.swift:362-413 | A known TLS-wrap strategy or socket type replaces the stored one; an unknown spelling keeps it. |
| ParamLaws.DirectionValue | ios/ExpoTunnelkitModule.swift:377-387 | The stored key direction is exactly the one the string spells; an unknown spelling clears it. |
| ParamLaws.SecurityLevelValue | ios/ExpoTunnelkitModule.swift:388-390 | `TLSSecurityLevel` stores the 64-bit number spelled, and 0 for anything else. |
| ParamLaws.IntervalValue | ios/ExpoTunnelkitModule.swift:528-529 | `DataCountInterval` stores the 64-bit number spelled, and 1000 for anything else. |
| ParamLaws.PortValue | ios/ExpoTunnelkitModule.swift:411-414 | `Port` stores a 16-bit unsigned number; anything else clears it. |
| ParamLaws.PeerIdValue | ios/ExpoTunnelkitModule.swift:448-450 | `PeerID` stores a 32-bit unsigned number; anything else clears it. |
| ParamLaws.MtuValue | ios/ExpoTunnelkitModule.swift:501-504 | `MTU` stores a 64-bit number; anything else clears it. |
| ParamLaws.AddressSettingsValues | ios/ExpoTunnelkitModule.swift:451-458 | The IPv4 and IPv6 settings are refused exactly when their JSON does not decode. Otherwise they hold the decoded value. |
| ParamLaws.ProxyValues | ios/ExpoTunnelkitModule.swift:467-474 | The HTTP and HTTPS proxies follow the same rule. |
| ParamLaws.RoutingPoliciesValue | ios/ExpoTunnelkitModule.swift:482-486 | The routing policies follow the same rule. |
| ParamLaws.ServerListValues | ios/ExpoTunnelkitModule.swift:459-466 | The DNS servers and search domains follow the same rule. |
| ParamLaws.DomainListValues | ios/ExpoTunnelkitModule.swift:478-500 | The proxy bypass domains and the resolved addresses follow the same rule. |
| ParamLaws.UrlValue | ios/ExpoTunnelkitModule.swift:475-477 | The auto-configuration URL is never refused. It holds what the URL constructor makes of the value, or nothing. |
| ParamLaws.TimingValues | ios/ExpoTunnelkitModule.swift:391-399 | The three timing keys are never refused. They hold what the number conversion makes of the value, or nothing. |
| ParamLaws.EndpointRebuilt | ios/ExpoTunnelkitModule.swift:69-74 | After `SocketType` or `Port`, the endpoint list is the single (socket type, port) pair when both are known. Otherwise it is unchanged. |
| ParamLaws.TlsWrapRebuilt | ios/ExpoTunnelkitModule.swift:59-64 | After any TLS-wrap key, the wrap is rebuilt from strategy, key and direction when the first two are known. Otherwise it is unchanged. |
| ParamLaws.ImportFrame | ios/ExpoTunnelkitModule.swift:192-221 | An import changes only the session fields and the built session. What it writes does not depend on the prior store. |
| ParamLaws.LaterSetParamWins | ios/ExpoTunnelkitModule.swift:269-535 | From any two stores, the same decisive `setParam` succeeds on both or on neither. On success it leaves the same value in its key's field. |
| ParamLaws.ImportOverridden | ios/ExpoTunnelkitModule.swift:192-221 | A parameter whose own field is a session field and whose value alone decides that field, set after an import, replaces the imported value. |
| ParamLaws.EndpointAfterImport | ios/ExpoTunnelkitModule.swift:66-73 | After an import, `SocketType` or `Port` replaces the imported endpoint list exactly when both the socket type and the port are then set. Otherwise the imported list stays, as it does for a `Port` set while no socket type is known. |
| ParamLaws.TlsWrapAfterImport | ios/ExpoTunnelkitModule.swift:55-64 | After an import, the three TLS-wrap keys replace the imported wrap exactly when both the key data and the strategy are then set. Otherwise the imported wrap stays, as it does for a direction set while either is missing. |
| Report.Reading | ios/ExpoTunnelkitModule.swift:672-702 | A key without a source field in the builder has no reading. |
| Report.CollectHoldsReadings | ios/ExpoTunnelkitModule.swift:669-704 | The assembled dictionary holds a key exactly when its reading is present, with that reading's value. It holds no other keys. |
| Report.SourcedAreReported | ios/ExpoTunnelkitModule.swift:669-704 | Every field `getCurrentConfig` reads is under a reported key. |
| Report.UnsourcedUnread | ios/ExpoTunnelkitModule.swift:669-704 | A key without a source field is never reported. |
| Report.CurrentConfig | ios/ExpoTunnelkitModule.swift:669-704 | The report holds exactly the keys whose source field is set, each with that field's value. |
| Report.ReadingFromSource | ios/ExpoTunnelkitModule.swift:669-704 | Two stores that agree on a key's source field report that key identically. |
| Report.SetParamReportFrame | ios/ExpoTunnelkitModule.swift:669-704 | After an accepted `setParam`, every reported entry outside the key's written fields is as before. |
| Report.ReportsTextWritten | ios/ExpoTunnelkitModule.swift:672-679 | The hostname, certificates, key and auth token set through `setParam` are reported as the text given. |
| Report.ReportsCipherWritten | ios/ExpoTunnelkitModule.swift:673 | A cipher that was set is reported under its own spelling. |
| Report.ReportsEndpointWritten | ios/ExpoTunnelkitModule.swift:687-688 | Once socket type and port are both known, the report carries exactly those two values. |
| Provisioning.ConfigurationOf | ios/ExpoTunnelkitModule.swift:86-121 | The provider configuration carries a fresh build of the session builder, not the stored built session. An unset MTU, address preference or debug switch becomes 1250, false or false; every other setting is passed on as is. |
| Provisioning.CredentialsOf | ios/ExpoTunnelkitModule.swift:95 | Unset credentials are handed over as empty strings. |
| Provisioning.MakeProtocol | ios/ExpoTunnelkitModule.swift:86-121 | Nothing happens without an app group and a tunnel identifier. Otherwise the interval is published to the group's shared defaults and the configuration is kept. A protocol is returned exactly when TunnelKit accepts the request, and the request carries the store's identifiers, credentials and configuration. |
| Provisioning.ProvisionedMtu | ios/ExpoTunnelkitModule.swift:501-504 | The MTU provisioned after `setParam("MTU", v)` is the 64-bit number `v` spells, and 1250 otherwise. |
| Provisioning.ProvisionedDebug | ios/ExpoTunnelkitModule.swift:505-514 | The provisioned debug switch is the flag spelled, or the previous one for any other spelling. |
| Provisioning.ProvisionedCredentials | ios/ExpoTunnelkitModule.swift:263-267 | The credentials `setCredentials` stores are the ones provisioned. |
| Provisioning.SetupEnablesProvisioning | ios/ExpoTunnelkitModule.swift:252-261 | After `setup`, provisioning always publishes the interval and keeps a configuration for those identifiers. |
| Controller.Provision | ios/ExpoTunnelkitModule.swift:86-121 | The `makeProtocol` closure leaves the store, status and current manager alone. It publishes the interval exactly when both identifiers are set, and then keeps the builder's provider configuration; otherwise the kept configuration is as before. A returned protocol is addressed to the tunnel identifier. |
| Controller.Configured | ios/ExpoTunnelkitModule.swift:134-138 | The manager `configureVPN` saves is the adopted one, enabled, with its protocol replaced only when provisioning generated one. No other property of the manager changes. |
| Controller.ProvisionedManagerServes | ios/ExpoTunnelkitModule.swift:123-174 | After provisioning, the saved manager is enabled, carries the generated protocol and serves the tunnel identifier, so the next reload adopts it when it is listed before any other manager serving the identifier. |
| Controller.UnprovisionedKeepsProtocol | ios/ExpoTunnelkitModule.swift:134-137 | Without a protocol to install, the saved manager is the adopted one, only enabled. |
| Controller.FirstServing | ios/ExpoTunnelkitModule.swift:159-174 | The position found is the first manager whose provider bundle is the tunnel identifier. There is none exactly when no manager serves it. |
| Controller.Adopted | ios/ExpoTunnelkitModule.swift:152-180 | The reloaded manager is the first one in the list serving the tunnel identifier, or a fresh manager when none does or no identifier is set. |
| Controller.Reload | ios/ExpoTunnelkitModule.swift:152-180 | A reload loads the preferences once. A failure changes nothing and is reported; a success adopts the manager and its status. |
| Controller.ConfigureVPN | ios/ExpoTunnelkitModule.swift:123-150 | Configuring always loads first, and a failed load stops there with its error. Otherwise exactly one manager is saved: the adopted one, enabled, carrying the generated protocol when provisioning produced one and its own protocol otherwise. The call succeeds exactly when load, save and reload all succeed. It never starts or stops the tunnel. |
| Controller.Disconnect | ios/ExpoTunnelkitModule.swift:182-190 | The private disconnect never starts the tunnel. It stops it exactly when there is a current manager. |
| Controller.Dispatch | ios/ExpoTunnelkitModule.swift:610-652 | `Invalid` and `Disconnected` provision and start; `Connected` and `Connecting` toggle off; every other status does nothing. |
| Controller.Prepare | ios/ExpoTunnelkitModule.swift:655-661 | The manager is reloaded only when the status is `Invalid`, and a reload error is ignored. |
| Controller.ProvisionAndStartStep | ios/ExpoTunnelkitModule.swift:611-646 | The provisioning branch always settles. It resolves exactly when the tunnel is started without error. |
| Controller.Connect | ios/ExpoTunnelkitModule.swift:588-662 | `connect` never changes the parameter store. Its guards and its dispatch on the status are stated by `Controller.ConnectGuards` and `Controller.ConnectDispatch`. |
| Controller.ConnectGuards | ios/ExpoTunnelkitModule.swift:589-607 | `connect` rejects with no effect exactly when credentials, hostname or identifiers are missing, with the matching error. |
| Controller.ReloadOnlyWhenInvalid | ios/ExpoTunnelkitModule.swift:655-661 | Only an `Invalid` status is reloaded before dispatch. A failed reload leaves it `Invalid`. |
| Controller.ConnectDispatch | ios/ExpoTunnelkitModule.swift:609-653 | Past the guards: `Invalid` or `Disconnected` configures and starts; `Connected` or `Connecting` disconnects and leaves the promise unsettled; any other status does nothing. |
| Controller.DisconnectCall | ios/ExpoTunnelkitModule.swift:664-667 | The exported `disconnect` resolves at once. It stops the tunnel exactly when there is a current manager. |
| Controller.StatusChanged | ios/ExpoTunnelkitModule.swift:223-232 | Without a current manager, `Unknown` is emitted and nothing changes. Otherwise the new status is stored and its readable form emitted, never `None`. |
| Controller.VpnStatus | ios/ExpoTunnelkitModule.swift:584-586 | The string returned parses back to the readable form of the last known status. |
| Controller.DataCountOf | ios/ExpoTunnelkitModule.swift:706-731 | With no app group or no kept configuration, the call fails as not established. Without counters it fails as no data count. Otherwise it returns the counters and the interval. |
| Controller.InitialConsistent | ios/ExpoTunnelkitModule.swift:40-57 | The initial state has no manager and status `Invalid`. |
| Controller.OperationsKeepConsistent | ios/ExpoTunnelkitModule.swift:123-232 | Reload, configure, disconnect, connect and the status handler keep the status `Invalid` whenever there is no current manager. |
| Controller.ConfigureKeepsConsistent | ios/ExpoTunnelkitModule.swift:123-150 | Configuring keeps that invariant. A successful configure leaves a current manager. |
| Controller.DataCountNeedsProvisioning | ios/ExpoTunnelkitModule.swift:609-653 | Counters are not established initially. They are once `connect` has provisioned. |
| Facade.DefaultsRelated | src/index.ts:33-47 | The default app group is `group.` followed by the default tunnel identifier. |
| Facade.Bundle | src/index.ts:34-36 | The configured bundle identifier wins unless it is `null` or `undefined`. Then the manifest's is read, and reading it throws exactly when there is no manifest or no `ios` section. |
| Facade.SetupIdentifiers | src/index.ts:33-47 | `setup` throws the lookup's `TypeError` whenever the bundle lookup fails, whatever the options. It throws its own error exactly when the lookup succeeds and an identifier is given as the empty string. Otherwise each identifier is the option given or its default. |
| Facade.Setup | src/index.ts:33-47 | The native `setup` receives the identifiers exactly when the facade does not throw. |
| Facade.SetupWithoutOptions | src/index.ts:33-47 | Without options the native module gets the two defaults of the bundle identifier found, and `setup` throws when none can be read. |
| Facade.ExplicitOptionsStillLookUp | src/index.ts:33-47 | Even with both identifiers given, `setup` throws when there is neither a configured bundle identifier nor a manifest. |
| Facade.Encode | src/index.ts:71-83 | Objects become their JSON text and booleans their name. Every other value passes unchanged. |
| Facade.SetParam | src/index.ts:71-83 | `Unknown parameter: <key>` is thrown exactly when the argument converts and the key is no parameter's name. A value the bridge cannot convert throws the conversion error. Otherwise the facade succeeds exactly when the native `setParam` does, with its result. The native exception is rethrown exactly when the native `setParam` fails to decode the value. |
| Facade.BooleanParamStored | src/index.ts:71-83 | A boolean passed for a boolean key is stored as that boolean. |
| Facade.StringParamUnchanged | src/index.ts:71-83 | A string value reaches the native module unchanged. |
| Facade.Connect | src/index.ts:126-148 | A rejected native `connect` is followed by a `disconnect`, and the original outcome is kept. |
| Facade.FailedConnectDisconnects | src/index.ts:126-148 | A `connect` refused for a missing username rethrows that refusal after a disconnect. The disconnect stops the tunnel exactly when there is a manager. |
| Entitlements.Upsert | plugin/src/index.ts:16-27 | After an upsert the key holds an array. The old array is kept as a prefix and the entry is present, added once if missing. Other keys are untouched. |
| Entitlements.UpsertAddsOneCopy | plugin/src/index.ts:32-44 | After an upsert the entry occurs in the array at least once and at most once more than before. |
| Entitlements.UpsertIdempotent | plugin/src/index.ts:49-61 | Upserting the same entry twice is upserting it once. |
| Entitlements.AppGroupMatchesSetupDefault | plugin/src/index.ts:32-44 | With a bundle identifier, the app group entitlement is the facade's default app group. |
| Entitlements.AppGroupWithoutBundle | plugin/src/index.ts:32-44 | Without a bundle identifier, the entitlement (empty text) differs from the facade's default (`undefined`). |
| Entitlements.KeysDistinct | plugin/src/index.ts:16-61 | The three entitlement keys are distinct. |
| Entitlements.WithCapabilities | plugin/src/index.ts:260-268 | The composed plugins add the three keys, each holding its entry, and leave every other key alone. |
| Entitlements.WithCapabilitiesIdempotent | plugin/src/index.ts:260-268 | Applying the capabilities twice gives the same entitlements as once. |
| Placeholder.FillGroupName | plugin/src/index.ts:84-89 | A file without the placeholder is returned unchanged. |
| Placeholder.PlaceholderBorderFree | plugin/src/index.ts:84-89 | No proper prefix of `{{GROUP_NAME}}` is also its suffix, so two matches never overlap. |
| Placeholder.FillReplacesEach | plugin/src/index.ts:84-89 | Every placeholder is replaced by the app group and the text between them is kept. |
| Placeholder.FillWithoutPlaceholder | plugin/src/index.ts:84-89 | A file without the placeholder is unchanged. |
| Podfile.SnippetFirstLine | plugin/src/index.ts:129-132 | The first line of the target block is `target 'TunnelKitNetworkExtension' do`. |
| Podfile.FirstContaining | plugin/src/index.ts:139 | The index found is the first line containing the needle. There is none exactly when no line contains it. |
| Podfile.InsertionPoint | plugin/src/index.ts:139-153 | The pod line goes at the first `use_react_native!` line at or after the first main-target line. There is no place exactly when either is missing. |
| Podfile.InsertedLines | plugin/src/index.ts:154-163 | One line is inserted at the insertion point, indented like the line it precedes. Every other line is kept in order. |
| Podfile.AppendSnippet | plugin/src/index.ts:166-171 | The target block is appended as its own lines unless its first line is already present. |
| Podfile.AppendSnippetKeeps | plugin/src/index.ts:166-171 | After appending, the block's first line is present and everything present before remains. |
| Podfile.InsertedLinesContainPodLine | plugin/src/index.ts:158-163 | After insertion the joined contents contain the pod line. |
| Podfile.Transform | plugin/src/index.ts:137-171 | Without the pod line and a place for it, the contents are unchanged. Contents holding both the pod line and the target block are also unchanged. |
| Podfile.TransformEffect | plugin/src/index.ts:137-171 | Without the pod line and a place for it, the contents are unchanged. A changed result contains the pod line and the target block. Contents with both are untouched. |
| Podfile.TransformIdempotent | plugin/src/index.ts:137-171 | Transforming twice is transforming once. |

## Left out

- ParamLaws.ImportOverridden: it covers only keys whose own field is a
  session field. The comment at src/index.ts:61 promises that any
  parameter set after an import overrides the imported one. The code
  does not do this for `Port`, `SocketType`, `TLSWrapStrategy`,
  `TLSWrapKeyData` and `TLSWrapKeyDirection`. These keys write the
  module's own inputs, which the import leaves alone. The endpoint list
  and the TLS wrap are rebuilt only once both paired inputs are set
  (ios/ExpoTunnelkitModule.swift:59-73). The model follows the code, and
  `EndpointAfterImport` and `TlsWrapAfterImport` state exactly when the
  imported value stays.
- Placeholder.FillGroupName: the replacement text is inserted literally.
  JavaScript's `replace` would interpret `$&`, `$$`, `` $` `` and `$'` in
  it, but a bundle identifier cannot contain `$`.
- Controller.FirstServing: bundle identifiers are compared code point by
  code point. Swift's `==` compares them up to canonical equivalence, so
  the model misses a match between two differently normalised spellings.
  Bundle identifiers are reverse-DNS names, where this does not arise.
- Keys.Canonical: only the KELVIN SIGN is folded, which is enough for the
  key names. It is the only character outside ASCII whose canonical
  decomposition is an ASCII letter, so it is the only other way to spell
  a key name.

- I/O of every kind is left out. This covers notifications, the logger
  (`displayLog`, ios/ExpoTunnelkitModule.swift:234-246), `console.error`,
  reading and writing files, and the Expo mod pipeline itself.
- The system's answers are parameters of each operation: preference
  loading and saving, tunnel start and stop, and TunnelKit's protocol
  generation.
- The `.ovpn` parser, `JSONDecoder`, `URL(string:)` and `Double(_:)` are
  parameters, so parsing an OpenVPN file is not modelled.
- Double-valued settings are opaque values, and no floating-point
  arithmetic is modelled.
- TunnelKit's enums are reported as model values, not as TunnelKit's raw
  encodings.
- The Expo bridge's conversion of a non-string JavaScript value to a Swift
  string is a parameter that may refuse.
- `withNetworkExtensionFiles` is left out except for its placeholder
  substitution. Copying the extension's files and adding the Xcode target
  (`withXcodeProjectTarget`) are file and project I/O.
- `getModulePath` (plugin/src/index.ts:272-287) is left out. The pod path
  is a parameter of the Podfile transform.
- plugin/src/constants.ts is not part of this model. Its extension target
  name is taken to be the `TunnelKitNetworkExtension` of src/index.ts:13.
- Facade.Connect: the wait for the `Connected` event raced against a timer
  (src/index.ts:130-142) is not modelled. The timer's executor names its
  first parameter `reject`, which is really `resolve`, so the timer
  resolves rather than rejects. The model only covers the clean-up after
  the native `connect` rejects.
- The wait for `Disconnected` in the facade's `disconnect`
  (src/index.ts:156-172) is not modelled, for the same reason.
- Controller.Connect: the toggle branch stops the tunnel and never
  settles the promise. The model reports this as `Unsettled` rather than
  as any timeout.
- The facade's pass-through calls (`setCredentials`, `configFromUrl`,
  `configFromString`, `getConnectionStatus`, `getCurrentConfig`,
  `getDataCount`) and `addVpnStatusListener` are not modelled separately.
  They forward to the native functions modelled above, or subscribe to the
  events `Controller.StatusChanged` emits.

=== FILE: base.dfy ===
/** Optional values and success-or-error results, used for Swift optionals,
    thrown errors and rejected promises throughout the model. */
module Base {

  /** Swift `T?` / JavaScript `T | undefined`. */
  datatype Option<+T> = None | Some(value: T) {

    /** The wrapped value, or `default` when absent (Swift's `??`). */
    function OrElse(default: T): T {
      match this
      case Some(v) => v
      case None => default
    }
  }

  /** A value, or the error a call threw or rejected with. */
  datatype Result<+T, +E> = Ok(value: T) | Err(error: E)
}

=== FILE: controller.dfy ===
/** Connection control: finding the tunnel's manager in the system
    preferences, configuring and saving it, `connect`, `disconnect`, the
    status-change handler, `getVpnStatus` and `getDataCount`.

    The system calls are not modelled; each one's reply is an input
    (`Platform`), and what the module asks of the system is recorded, in
    order, as a trace of effects. */
module Controller {
  import opened Base
  import opened Session
  import opened Status
  import opened Provisioning

  /** A tunnel configuration in the system preferences. `protocol` is its
      tunnel-provider protocol, `None` when it has none (or one of another
      kind); `status` is the status of its connection. */
  datatype Manager = Manager(protocol: Option<ProtocolRequest>, enabled: bool, status: PlatformStatus)

  /** A manager created afresh: no protocol, not enabled, status `Invalid`. */
  const FreshManager := Manager(None, false, Invalid)

  /** The module's state: the parameter store, the last known status, the
      current manager and the provider configuration of the last
      provisioning. */
  datatype State = State(
    store: Store,
    status: PlatformStatus,
    current: Option<Manager>,
    providerConfiguration: Option<ProviderConfiguration>)

  const InitialState := State(InitialStore, Invalid, None, None)

  /** What the module asks of the system. */
  datatype Effect =
    | LoadPreferences
    | SavePreferences(manager: Manager)
    | WriteShared(write: SharedWrite)
    | StartTunnel
    | StopTunnel
    | Emit(status: Readable)

  /** The reply to loading the preferences. */
  datatype LoadReply = Loaded(managers: seq<Manager>) | LoadFailed(error: string)

  /** The system's replies, one per call site: the reload `connect` does
      first, the reload before configuring, saving, the reload after saving,
      TunnelKit's protocol generation, whether the manager's connection is a
      tunnel-provider session, and starting the tunnel. */
  datatype Platform = Platform(
    initialLoad: LoadReply,
    configureLoad: LoadReply,
    save: Option<string>,
    savedLoad: LoadReply,
    generates: ProtocolRequest -> bool,
    tunnelSession: bool,
    start: Option<string>)

  /** A step of the module: the new state, the effects in order, and the
      error handed to the completion handler, if any. */
  datatype Step = Step(state: State, effects: seq<Effect>, error: Option<string>)

  /** Why a promise is rejected. */
  datatype Failure =
    | MissingParameters
    | MissingIdentifiers
    | ConfigureError(error: string)
    | NoTunnelSession
    | StartError(error: string)
    | NotEstablished
    | NoDataCount

  /** The description of the exception each failure is rejected with. */
  function Description(f: Failure): string {
    match f
    case MissingParameters => "Missing required VPN parameters (username, password, or hostname)."
    case MissingIdentifiers => "AppGroup and TunnelIdentifier must be set"
    case ConfigureError(e) => "configure error: " + e
    case NoTunnelSession => "Failed to get session"
    case StartError(e) => "Error starting tunnel: " + e
    case NotEstablished => "Connection is not established"
    case NoDataCount => "Failed to get data count"
  }

  /** The settlement of a JavaScript promise. `Unsettled` is a promise the
      module never resolves nor rejects. */
  datatype Outcome = Resolved | Rejected(failure: Failure) | Unsettled

  /** The status is only ever known through a manager: without one it is
      `Invalid`. */
  predicate Consistent(st: State) {
    st.current.None? ==> st.status == Invalid
  }

  // ---------------------------------------------------------------------------
  // Finding the manager

  /** A manager whose tunnel-provider protocol names the given bundle. */
  predicate Serves(m: Manager, bundle: string) {
    m.protocol.Some? && m.protocol.value.bundleIdentifier == bundle
  }

  /** The position of the first manager serving `bundle`, if any. */
  function FirstServing(ms: seq<Manager>, bundle: string): (r: Option<nat>)
    ensures r.Some? ==> r.value < |ms| && Serves(ms[r.value], bundle)
    ensures r.Some? ==> forall j :: 0 <= j < r.value ==> !Serves(ms[j], bundle)
    ensures r.None? <==> forall j :: 0 <= j < |ms| ==> !Serves(ms[j], bundle)
    decreases |ms|
  {
    if |ms| == 0 then None
    else if Serves(ms[0], bundle) then Some(0)
    else match FirstServing(ms[1..], bundle)
      case Some(i) => Some(i + 1)
      case None => None
  }

  /** The manager `reloadCurrentManager` adopts: the first one serving the
      tunnel identifier, or a fresh one when none does or no identifier is
      set. */
  function Adopted(ms: seq<Manager>, tunnelIdentifier: Option<string>): (m: Manager)
    ensures tunnelIdentifier.None? ==> m == FreshManager
    ensures tunnelIdentifier.Some? ==>
      (exists j :: 0 <= j < |ms| && Serves(ms[j], tunnelIdentifier.value)) ==> m in ms && Serves(m, tunnelIdentifier.value)
    ensures tunnelIdentifier.Some? ==>
      (forall j :: 0 <= j < |ms| ==> !Serves(ms[j], tunnelIdentifier.value)) ==> m == FreshManager
    ensures tunnelIdentifier.Some? && (exists j :: 0 <= j < |ms| && Serves(ms[j], tunnelIdentifier.value)) ==>
      exists i :: 0 <= i < |ms| && m == ms[i] && Serves(ms[i], tunnelIdentifier.value)
        && forall j :: 0 <= j < i ==> !Serves(ms[j], tunnelIdentifier.value)
  {
    match tunnelIdentifier
    case None => FreshManager
    case Some(bundle) =>
      match FirstServing(ms, bundle)
      case Some(i) => ms[i]
      case None => FreshManager
  }

  /** `reloadCurrentManager`: on success the adopted manager becomes
      current and its status the module's; on failure nothing changes. */
  function Reload(st: State, reply: LoadReply): (r: Step)
    ensures r.effects == [LoadPreferences]
    ensures r.error.None? <==> reply.Loaded?
    ensures reply.LoadFailed? ==> r.state == st && r.error == Some(reply.error)
    ensures reply.Loaded? ==>
      && r.state.current == Some(Adopted(reply.managers, st.store.tunnelIdentifier))
      && r.state.status == r.state.current.value.status
      && r.state.store == st.store && r.state.providerConfiguration == st.providerConfiguration
  {
    match reply
    case LoadFailed(e) => Step(st, [LoadPreferences], Some(e))
    case Loaded(ms) =>
      var m := Adopted(ms, st.store.tunnelIdentifier);
      Step(st.(current := Some(m), status := m.status), [LoadPreferences], None)
  }

  // ---------------------------------------------------------------------------
  // Configuring

  /** The `makeProtocol` closure run inside `configureVPN`, with its writes
      to the module: it keeps the provider configuration and publishes the
      interval. */
  function Provision(st: State, generates: ProtocolRequest -> bool): (r: (State, seq<Effect>, Option<ProtocolRequest>))
    ensures r.0.store == st.store && r.0.status == st.status && r.0.current == st.current
    ensures r.1 == [] <==> st.store.appGroup.None? || st.store.tunnelIdentifier.None?
    ensures r.0.providerConfiguration ==
      if r.1 == [] then st.providerConfiguration else Some(ConfigurationOf(st.store))
    ensures r.2.Some? ==> r.1 != [] && r.2.value.bundleIdentifier == st.store.tunnelIdentifier.value
  {
    var p := MakeProtocol(st.store, generates);
    var st' := if p.configuration.Some? then st.(providerConfiguration := p.configuration) else st;
    var effects := if p.shared.Some? then [WriteShared(p.shared.value)] else [];
    (st', effects, p.protocol)
  }

  /** The manager `configureVPN` saves: the one the reload adopts, with the
      protocol `makeProtocol` generates when provisioning and generation
      succeed (its own protocol otherwise), enabled. */
  function Configured(st: State, provision: bool, p: Platform): (m: Manager)
    requires p.configureLoad.Loaded?
    ensures m.enabled
    ensures var adopted := Adopted(p.configureLoad.managers, st.store.tunnelIdentifier);
      && m.(protocol := adopted.protocol, enabled := adopted.enabled) == adopted
      && (!provision ==> m.protocol == adopted.protocol)
    ensures provision && MakeProtocol(st.store, p.generates).protocol.Some? ==>
      m.protocol == MakeProtocol(st.store, p.generates).protocol
  {
    var adopted := Adopted(p.configureLoad.managers, st.store.tunnelIdentifier);
    var generated := if provision then MakeProtocol(st.store, p.generates).protocol else None;
    adopted.(protocol := if generated.Some? then generated else adopted.protocol, enabled := true)
  }

  /** A provisioning configure that TunnelKit accepts saves an enabled
      manager carrying the generated protocol, so it serves the tunnel
      identifier and the next reload adopts it when the preferences list
      it first. */
  lemma ProvisionedManagerServes(st: State, p: Platform, others: seq<Manager>)
    requires p.configureLoad.Loaded?
    requires st.store.appGroup.Some? && st.store.tunnelIdentifier.Some?
    requires p.generates(ProtocolRequest(st.store.tunnelIdentifier.value, st.store.appGroup.value,
                                         CredentialsOf(st.store), ConfigurationOf(st.store)))
    ensures var m := Configured(st, true, p);
      && m.enabled
      && m.protocol == Some(ProtocolRequest(st.store.tunnelIdentifier.value, st.store.appGroup.value,
                                            CredentialsOf(st.store), ConfigurationOf(st.store)))
      && Serves(m, st.store.tunnelIdentifier.value)
      && Adopted([m] + others, st.store.tunnelIdentifier) == m
  {
    var m := Configured(st, true, p);
    assert Serves(m, st.store.tunnelIdentifier.value);
    assert FirstServing([m] + others, st.store.tunnelIdentifier.value) == Some(0);
  }

  /** A configure without provisioning (as `disconnect` does) saves the
      adopted manager with its own protocol, only enabled. */
  lemma UnprovisionedKeepsProtocol(st: State, p: Platform)
    requires p.configureLoad.Loaded?
    ensures Configured(st, false, p) == Adopted(p.configureLoad.managers, st.store.tunnelIdentifier).(enabled := true)
  {
  }

  /** `configureVPN`: reload; give the current manager the protocol the
      closure returns (when it returns one) and enable it; save; reload
      again. The first error ends the step and is its error. With
      `provision` the closure is `makeProtocol`, otherwise it returns
      nothing. */
  function ConfigureVPN(st: State, provision: bool, p: Platform): (r: Step)
    ensures |r.effects| > 0 && r.effects[0] == LoadPreferences
    ensures p.configureLoad.LoadFailed? ==> r == Step(st, [LoadPreferences], Some(p.configureLoad.error))
    ensures p.configureLoad.Loaded? ==> SavePreferences(Configured(st, provision, p)) in r.effects
    ensures p.configureLoad.Loaded? ==> forall m :: SavePreferences(m) in r.effects ==> m == Configured(st, provision, p)
    ensures r.error.None? <==> p.configureLoad.Loaded? && p.save.None? && p.savedLoad.Loaded?
    ensures StartTunnel !in r.effects && StopTunnel !in r.effects
    ensures r.state.store == st.store
  {
    var first := Reload(st, p.configureLoad);
    if first.error.Some? then first
    else
      var (st1, written, protocol) :=
        if provision then Provision(first.state, p.generates) else (first.state, [], None);
      var m := st1.current.value;
      var saved := m.(protocol := if protocol.Some? then protocol else m.protocol, enabled := true);
      var st2 := st1.(current := Some(saved));
      var effects := first.effects + written + [SavePreferences(saved)];
      assert SavePreferences(saved) in effects;
      if p.save.Some? then Step(st2, effects, p.save)
      else
        var second := Reload(st2, p.savedLoad);
        assert SavePreferences(saved) in effects + second.effects;
        Step(second.state, effects + second.effects, second.error)
  }

  /** The private `disconnect`: configure without a new protocol, then, in
      the completion handler and whatever its error, stop the current
      manager's tunnel if there is a current manager. */
  function Disconnect(st: State, p: Platform): (r: Step)
    ensures StartTunnel !in r.effects
    ensures StopTunnel in r.effects <==> r.state.current.Some?
    ensures r.state.store == st.store
  {
    var c := ConfigureVPN(st, false, p);
    Step(c.state, c.effects + (if c.state.current.Some? then [StopTunnel] else []), None)
  }

  // ---------------------------------------------------------------------------
  // connect

  /** What `connect` does on a status: provision and start, toggle the
      connection off, or nothing. */
  datatype Action = ProvisionAndStart | Toggle | Idle

  function Dispatch(status: PlatformStatus): (a: Action)
    ensures a == ProvisionAndStart <==> status == Invalid || status == Disconnected
    ensures a == Toggle <==> status == Connected || status == Connecting
  {
    match status
    case Invalid => ProvisionAndStart
    case Disconnected => ProvisionAndStart
    case Connected => Toggle
    case Connecting => Toggle
    case _ => Idle
  }

  /** The first part of `connect` past its guards: the manager is reloaded
      only when the status is `Invalid`, and a reload error is ignored. */
  function Prepare(st: State, p: Platform): (r: Step)
    ensures st.status != Invalid ==> r == Step(st, [], None)
    ensures st.status == Invalid ==> r.effects == [LoadPreferences] && r.error.None?
    ensures r.state.store == st.store
  {
    if st.status == Invalid then Reload(st, p.initialLoad).(error := None) else Step(st, [], None)
  }

  /** The provisioning branch: configure with `makeProtocol`; a configure
      error rejects; a connection that is not a tunnel-provider session
      rejects; otherwise the tunnel is started, and the start's error
      rejects. */
  function ProvisionAndStartStep(st: State, p: Platform): (r: (Step, Outcome))
    ensures r.1 != Unsettled
    ensures var c := ConfigureVPN(st, true, p);
      && (c.error.Some? ==> r.1 == Rejected(ConfigureError(c.error.value)) && StartTunnel !in r.0.effects)
      && (c.error.None? && !p.tunnelSession ==> r.1 == Rejected(NoTunnelSession) && StartTunnel !in r.0.effects)
      && (c.error.None? && p.tunnelSession ==> r.0.effects == c.effects + [StartTunnel])
      && r.0.state == c.state
    ensures r.1 == Resolved <==> StartTunnel in r.0.effects && p.start.None?
  {
    var c := ConfigureVPN(st, true, p);
    if c.error.Some? then (c, Rejected(ConfigureError(c.error.value)))
    else if !p.tunnelSession then (c, Rejected(NoTunnelSession))
    else
      var started := Step(c.state, c.effects + [StartTunnel], None);
      match p.start
      case Some(e) => (started, Rejected(StartError(e)))
      case None => (started, Resolved)
  }

  /** `connect`: the two guards, then the (possibly reloaded) status
      decides. Only the provisioning branch settles the promise. */
  function Connect(st: State, p: Platform): (r: (Step, Outcome))
    ensures r.0.state.store == st.store
  {
    var s := st.store;
    if s.username.None? || s.password.None? || s.session.hostname.None? then
      (Step(st, [], None), Rejected(MissingParameters))
    else if s.appGroup.None? || s.tunnelIdentifier.None? then
      (Step(st, [], None), Rejected(MissingIdentifiers))
    else
      var pre := Prepare(st, p);
      match Dispatch(pre.state.status)
      case ProvisionAndStart =>
        var (step, outcome) := ProvisionAndStartStep(pre.state, p);
        (Step(step.state, pre.effects + step.effects, None), outcome)
      case Toggle =>
        var d := Disconnect(pre.state, p);
        (Step(d.state, pre.effects + d.effects, None), Unsettled)
      case Idle => (pre, Unsettled)
  }

  /** The status `connect` dispatches on. */
  function DispatchStatus(st: State, p: Platform): PlatformStatus {
    Prepare(st, p).state.status
  }

  /** `connect` rejects without any effect exactly when a required
      parameter is missing: first the credentials and host, then the
      identifiers. */
  lemma ConnectGuards(st: State, p: Platform)
    ensures var s := st.store;
      var missing := s.username.None? || s.password.None? || s.session.hostname.None?;
      && (Connect(st, p).1 == Rejected(MissingParameters) <==> missing)
      && (Connect(st, p).1 == Rejected(MissingIdentifiers) <==>
            !missing && (s.appGroup.None? || s.tunnelIdentifier.None?))
      && (missing || s.appGroup.None? || s.tunnelIdentifier.None? ==> Connect(st, p).0 == Step(st, [], None))
  {
  }

  /** Past the guards, the status is reloaded first only when it is
      `Invalid`; on any other status `connect` acts on the status it has. */
  lemma ReloadOnlyWhenInvalid(st: State, p: Platform)
    ensures st.status != Invalid ==> DispatchStatus(st, p) == st.status
    ensures st.status == Invalid && p.initialLoad.Loaded? ==>
      DispatchStatus(st, p) == Adopted(p.initialLoad.managers, st.store.tunnelIdentifier).status
    ensures st.status == Invalid && p.initialLoad.LoadFailed? ==> DispatchStatus(st, p) == Invalid
  {
  }

  /** Past the guards: an `Invalid` or `Disconnected` status configures and
      then starts, and a configure error rejects without starting; a
      `Connected` or `Connecting` status disconnects and leaves the promise
      unsettled; any other status does nothing at all. */
  lemma ConnectDispatch(st: State, p: Platform)
    requires st.store.username.Some? && st.store.password.Some? && st.store.session.hostname.Some?
    requires st.store.appGroup.Some? && st.store.tunnelIdentifier.Some?
    ensures var (step, outcome) := Connect(st, p);
      var pre := Prepare(st, p);
      match Dispatch(DispatchStatus(st, p))
      case ProvisionAndStart =>
        var c := ConfigureVPN(pre.state, true, p);
        && outcome != Unsettled
        && (c.error.Some? ==> outcome == Rejected(ConfigureError(c.error.value)) && StartTunnel !in step.effects)
        && (StartTunnel in step.effects <==> c.error.None? && p.tunnelSession)
        && (outcome == Resolved <==> c.error.None? && p.tunnelSession && p.start.None?)
        && StopTunnel !in step.effects
      case Toggle =>
        && outcome == Unsettled
        && StartTunnel !in step.effects
        && step.effects == pre.effects + Disconnect(pre.state, p).effects
      case Idle =>
        && outcome == Unsettled
        && step.effects == pre.effects
        && step.state == pre.state
  {
    var pre := Prepare(st, p);
    match Dispatch(pre.state.status)
    case ProvisionAndStart =>
      var c := ConfigureVPN(pre.state, true, p);
      var (inner, _) := ProvisionAndStartStep(pre.state, p);
      assert StartTunnel !in pre.effects && StopTunnel !in pre.effects;
      if c.error.None? && p.tunnelSession {
        assert inner.effects == c.effects + [StartTunnel];
        assert StopTunnel !in inner.effects;
      }
    case Toggle =>
      assert StartTunnel !in pre.effects;
    case Idle =>
  }

  /** `disconnect` as JavaScript sees it: it stops the tunnel in the
      background and resolves at once. */
  function DisconnectCall(st: State, p: Platform): (r: (Step, Outcome))
    ensures r.1 == Resolved
    ensures StopTunnel in r.0.effects <==> r.0.state.current.Some?
  {
    (Disconnect(st, p), Resolved)
  }

  // ---------------------------------------------------------------------------
  // Status reporting

  /** The status-change handler, given the status of the current manager's
      connection. Without a current manager it emits `Unknown` and keeps the
      status; otherwise it stores and emits the new status. */
  function StatusChanged(st: State, observed: PlatformStatus): (r: (State, Effect))
    ensures st.current.None? ==> r.0 == st && r.1 == Emit(UnknownStatus)
    ensures st.current.Some? ==> r.0.status == observed && r.1 == Emit(ToReadable(observed))
    ensures r.1 != Emit(NoneStatus)
  {
    match st.current
    case None => (st, Emit(UnknownStatus))
    case Some(m) => (st.(status := observed, current := Some(m.(status := observed))), Emit(ToReadable(observed)))
  }

  /** `getVpnStatus`: the raw name of the last known status. */
  function VpnStatus(st: State): (r: string)
    ensures ParseRaw(r) == Some(ToReadable(st.status))
    ensures st.status.IsKnown() ==> r != RawValue(UnknownStatus)
  {
    RawValueRoundTrip(ToReadable(st.status));
    RawValueRoundTrip(UnknownStatus);
    RawValue(ToReadable(st.status))
  }

  // ---------------------------------------------------------------------------
  // Data counters

  datatype DataCount = DataCount(dataIn: nat, dataOut: nat, interval: int)

  /** `getDataCount`, given the counters TunnelKit reads from the app
      group (`None` when it has none). Without an app group or a provider
      configuration there is no connection; without counters the read
      failed. */
  function DataCountOf(st: State, counters: Option<(nat, nat)>): (r: Result<DataCount, Failure>)
    ensures r == Err(NotEstablished) <==> st.store.appGroup.None? || st.providerConfiguration.None?
    ensures r == Err(NoDataCount) <==>
      st.store.appGroup.Some? && st.providerConfiguration.Some? && counters.None?
    ensures r.Ok? <==> st.store.appGroup.Some? && st.providerConfiguration.Some? && counters.Some?
    ensures r.Ok? ==> r.value == DataCount(counters.value.0, counters.value.1, st.store.dataCountInterval)
  {
    if st.store.appGroup.None? || st.providerConfiguration.None? then Err(NotEstablished)
    else match counters
      case None => Err(NoDataCount)
      case Some((dataIn, dataOut)) => Ok(DataCount(dataIn, dataOut, st.store.dataCountInterval))
  }

  // ---------------------------------------------------------------------------
  // The status invariant

  lemma InitialConsistent()
    ensures Consistent(InitialState)
  {
  }

  /** Every operation keeps the status tied to the current manager. */
  lemma {:induction false} OperationsKeepConsistent(st: State, p: Platform, observed: PlatformStatus)
    requires Consistent(st)
    ensures Consistent(Reload(st, p.initialLoad).state)
    ensures Consistent(ConfigureVPN(st, true, p).state)
    ensures Consistent(ConfigureVPN(st, false, p).state)
    ensures Consistent(Disconnect(st, p).state)
    ensures Consistent(Connect(st, p).0.state)
    ensures Consistent(StatusChanged(st, observed).0)
  {
    ConfigureKeepsConsistent(st, true, p);
    ConfigureKeepsConsistent(st, false, p);
    var pre := Prepare(st, p);
    assert Consistent(pre.state);
    ConfigureKeepsConsistent(pre.state, true, p);
    ConfigureKeepsConsistent(pre.state, false, p);
  }

  lemma ConfigureKeepsConsistent(st: State, provision: bool, p: Platform)
    requires Consistent(st)
    ensures Consistent(ConfigureVPN(st, provision, p).state)
    ensures ConfigureVPN(st, provision, p).error.None? ==> ConfigureVPN(st, provision, p).state.current.Some?
  {
  }

  /** Counters are never available before a provisioning has kept a
      provider configuration; a `connect` that reaches the save step keeps
      one. */
  lemma DataCountNeedsProvisioning(st: State, p: Platform, counters: Option<(nat, nat)>)
    requires st.store.username.Some? && st.store.password.Some? && st.store.session.hostname.Some?
    requires st.store.appGroup.Some? && st.store.tunnelIdentifier.Some?
    requires Dispatch(DispatchStatus(st, p)) == ProvisionAndStart && p.configureLoad.Loaded?
    ensures DataCountOf(InitialState, counters) == Err(NotEstablished)
    ensures DataCountOf(Connect(st, p).0.state, counters) != Err(NotEstablished)
  {
  }
}

=== FILE: decimal.dfy ===
/** Swift's failable integer initialisers `Int(_:)`, `UInt16(_:)` and
    `UInt32(_:)` on a `String`: an optional `+` or `-` followed by one or
    more ASCII decimal digits, nothing else (no blanks), and a value that
    fits the target width. Unsigned types accept `-0`, because the standard
    library subtracts each digit for a minus sign and only fails on
    overflow. */
module Decimal {
  import opened Base

  const Int64Min: int := -0x8000_0000_0000_0000
  const Int64Max: int := 0x7FFF_FFFF_FFFF_FFFF
  const UInt16Max: int := 0xFFFF
  const UInt32Max: int := 0xFFFF_FFFF

  predicate IsDigit(c: char) {
    '0' <= c <= '9'
  }

  predicate AllDigits(s: string) {
    forall k :: 0 <= k < |s| ==> IsDigit(s[k])
  }

  function DigitValue(c: char): nat
    requires IsDigit(c)
  {
    (c as int) - ('0' as int)
  }

  /** The value of a run of decimal digits, most significant first. */
  function DigitsValue(ds: string): nat
    requires AllDigits(ds)
    decreases |ds|
  {
    if |ds| == 0 then 0
    else DigitsValue(ds[..|ds| - 1]) * 10 + DigitValue(ds[|ds| - 1])
  }

  /** A numeral as Swift reads it: an optional sign, then at least one digit. */
  predicate IsNumeral(s: string) {
    if |s| > 0 && (s[0] == '+' || s[0] == '-') then |s| > 1 && AllDigits(s[1..])
    else |s| > 0 && AllDigits(s)
  }

  /** The mathematical value of a numeral, before any width check. */
  function ParseInteger(s: string): Option<int> {
    if |s| > 0 && (s[0] == '+' || s[0] == '-') then
      if |s| > 1 && AllDigits(s[1..]) then
        var magnitude: int := DigitsValue(s[1..]);
        Some(if s[0] == '-' then -magnitude else magnitude)
      else None
    else if |s| > 0 && AllDigits(s) then Some(DigitsValue(s))
    else None
  }

  /** A numeral whose value lies in `lo..hi`; anything else is `nil`. */
  function ParseInRange(s: string, lo: int, hi: int): (r: Option<int>)
    ensures r.Some? <==> IsNumeral(s) && lo <= ParseInteger(s).value <= hi
    ensures r.Some? ==> lo <= r.value <= hi && ParseInteger(s) == r
  {
    match ParseInteger(s)
    case Some(n) => if lo <= n <= hi then Some(n) else None
    case None => None
  }

  /** Swift `Int(s)` (64-bit). */
  function ParseInt(s: string): Option<int> {
    ParseInRange(s, Int64Min, Int64Max)
  }

  /** Swift `UInt16(s)`. */
  function ParseUInt16(s: string): Option<int> {
    ParseInRange(s, 0, UInt16Max)
  }

  /** Swift `UInt32(s)`. */
  function ParseUInt32(s: string): Option<int> {
    ParseInRange(s, 0, UInt32Max)
  }

  // ---------------------------------------------------------------------------
  // Rendering, the partner of parsing

  function DigitChar(d: nat): (c: char)
    requires d < 10
    ensures IsDigit(c) && DigitValue(c) == d
  {
    ('0' as int + d) as char
  }

  /** The shortest decimal numeral of `n`. */
  function ShowNat(n: nat): (s: string)
    ensures |s| > 0 && AllDigits(s)
  {
    if n < 10 then [DigitChar(n)] else ShowNat(n / 10) + [DigitChar(n % 10)]
  }

  function ShowInt(n: int): string {
    if n < 0 then "-" + ShowNat(-n) else ShowNat(n)
  }

  lemma {:induction false} DigitsOfShowNat(n: nat)
    ensures DigitsValue(ShowNat(n)) == n
  {
    if n >= 10 {
      var s := ShowNat(n);
      assert s[..|s| - 1] == ShowNat(n / 10);
      DigitsOfShowNat(n / 10);
    }
  }

  /** Parsing inverts rendering for every value of the target width. */
  lemma ParseShow(n: int, lo: int, hi: int)
    requires lo <= n <= hi
    ensures ParseInRange(ShowInt(n), lo, hi) == Some(n)
  {
    DigitsOfShowNat(if n < 0 then -n else n);
    if n < 0 {
      assert ShowInt(n)[1..] == ShowNat(-n);
    }
  }

  /** The range check is what turns a well-formed numeral into `nil`. */
  lemma OutOfRangeExamples()
    ensures ParseUInt16("65535") == Some(65535)
    ensures ParseUInt16("65536") == None
    ensures ParseUInt16("-0") == Some(0)
    ensures ParseUInt16("-1") == None
    ensures ParseInt(" 1") == None
  {
    assert "65535"[..4] == "6553" && "6553"[..3] == "655" && "655"[..2] == "65" && "65"[..1] == "6";
    assert "65536"[..4] == "6553";
    assert DigitsValue("6553") == 6553;
    assert DigitsValue("65535") == 65535;
    assert DigitsValue("65536") == 65536;
    assert "-0"[1..] == "0" && "-1"[1..] == "1";
    assert DigitsValue("0") == 0 && DigitsValue("1") == 1;
    assert !IsDigit(' ');
  }
}

=== FILE: facade.dfy ===
/** The JavaScript facade over the native module: identifier defaults in
    `setup`, value encoding and the unknown-key error in `setParam`, and the
    clean-up `connect` does when it fails. */
module Facade {
  import opened Base
  import opened Session
  import Keys
  import Params
  import Controller
  import ParamLaws

  /** The extension target every default identifier is derived from. */
  const ExtensionTarget: string := "TunnelKitNetworkExtension"

  /** A JavaScript value that is a string, `undefined` or `null`. */
  datatype Nullable = Defined(text: string) | Undefined | Null

  /** The text a JavaScript template literal makes of such a value. */
  function Interpolated(v: Nullable): string {
    match v
    case Defined(s) => s
    case Undefined => "undefined"
    case Null => "null"
  }

  /** The default app group: `group.<bundle>.TunnelKitNetworkExtension`. */
  function DefaultAppGroup(bundle: Nullable): string {
    "group." + Interpolated(bundle) + "." + ExtensionTarget
  }

  /** The default tunnel identifier: `<bundle>.TunnelKitNetworkExtension`. */
  function DefaultTunnelIdentifier(bundle: Nullable): string {
    Interpolated(bundle) + "." + ExtensionTarget
  }

  /** The default app group is the default tunnel identifier with `group.`
      in front. */
  lemma DefaultsRelated(bundle: Nullable)
    ensures DefaultAppGroup(bundle) == "group." + DefaultTunnelIdentifier(bundle)
  {
    var b := Interpolated(bundle);
    calc {
      DefaultAppGroup(bundle);
      ("group." + b + ".") + ExtensionTarget;
      { assert "group." + b + "." == "group." + (b + "."); }
      ("group." + (b + ".")) + ExtensionTarget;
    }
  }

  /** What the app's legacy manifest offers: no manifest at all (`null`),
      a manifest without an `ios` section, or the section's bundle
      identifier. */
  datatype Manifest = NoManifest | NoIosSection | IosSection(bundleIdentifier: Nullable)

  /** The `TypeError` JavaScript throws on reading a property of `null` or
      `undefined`. */
  const TypeErrorMessage: string := "TypeError"

  /** The bundle identifier `setup` works from: the configured one
      (`expoConfig?.ios?.bundleIdentifier`) unless it is nullish, else the
      manifest's, read without optional chaining, so that a missing
      manifest or `ios` section throws (`None`). */
  function Bundle(configured: Nullable, manifest: Manifest): (r: Option<Nullable>)
    ensures configured.Defined? ==> r == Some(configured)
    ensures !configured.Defined? ==> (r.None? <==> !manifest.IosSection?)
    ensures !configured.Defined? && manifest.IosSection? ==> r == Some(manifest.bundleIdentifier)
  {
    match configured
    case Defined(_) => Some(configured)
    case _ =>
      match manifest
      case IosSection(b) => Some(b)
      case _ => None
  }

  /** The options of `setup`; an absent option is `undefined` or `null`. */
  datatype SetupOptions = SetupOptions(appGroup: Option<string>, tunnelIdentifier: Option<string>)

  const SetupErrorMessage: string := "appGroup and tunnelIdentifier must be provided or set in app.json"

  /** The identifiers `setup` hands to the native module: each option when
      given, its default otherwise. The bundle identifier is looked up
      first, whatever the options, so a failed lookup throws its
      `TypeError` even when both options are given. The facade's own error
      is thrown only for an empty identifier, which only an explicit empty
      option can produce, since the defaults are never empty. */
  function SetupIdentifiers(options: SetupOptions, configured: Nullable, manifest: Manifest)
    : (r: Result<(string, string), string>)
    ensures Bundle(configured, manifest).None? ==> r == Err(TypeErrorMessage)
    ensures r == Err(SetupErrorMessage) <==>
      Bundle(configured, manifest).Some? && (options.appGroup == Some("") || options.tunnelIdentifier == Some(""))
    ensures r.Ok? ==>
      && r.value.0 == (if options.appGroup.Some? then options.appGroup.value else DefaultAppGroup(Bundle(configured, manifest).value))
      && r.value.1 == (if options.tunnelIdentifier.Some? then options.tunnelIdentifier.value else DefaultTunnelIdentifier(Bundle(configured, manifest).value))
  {
    match Bundle(configured, manifest)
    case None => Err(TypeErrorMessage)
    case Some(bundle) =>
      var appGroup := options.appGroup.OrElse(DefaultAppGroup(bundle));
      var tunnelIdentifier := options.tunnelIdentifier.OrElse(DefaultTunnelIdentifier(bundle));
      assert |DefaultAppGroup(bundle)| > 0 && |DefaultTunnelIdentifier(bundle)| > 0;
      assert TypeErrorMessage != SetupErrorMessage;
      if appGroup == "" || tunnelIdentifier == "" then Err(SetupErrorMessage)
      else Ok((appGroup, tunnelIdentifier))
  }

  /** `setup`: the native module receives the identifiers unless the
      facade throws. */
  function Setup(s: Store, options: SetupOptions, configured: Nullable, manifest: Manifest): (r: Result<Store, string>)
    ensures r.Ok? <==> SetupIdentifiers(options, configured, manifest).Ok?
    ensures r.Ok? ==>
      var ids := SetupIdentifiers(options, configured, manifest).value;
      r.value == Params.Setup(s, ids.0, ids.1)
    ensures r.Err? ==> r.error == SetupIdentifiers(options, configured, manifest).error
  {
    match SetupIdentifiers(options, configured, manifest)
    case Ok((appGroup, tunnelIdentifier)) => Ok(Params.Setup(s, appGroup, tunnelIdentifier))
    case Err(e) => Err(e)
  }

  /** Without options, the native module ends up with the two defaults of
      the bundle identifier found; when none can be read, `setup` throws. */
  lemma SetupWithoutOptions(s: Store, configured: Nullable, manifest: Manifest)
    ensures Bundle(configured, manifest).None? ==>
      Setup(s, SetupOptions(None, None), configured, manifest) == Err(TypeErrorMessage)
    ensures Bundle(configured, manifest).Some? ==>
      var bundle := Bundle(configured, manifest).value;
      && Setup(s, SetupOptions(None, None), configured, manifest).Ok?
      && Setup(s, SetupOptions(None, None), configured, manifest).value.appGroup == Some("group." + DefaultTunnelIdentifier(bundle))
      && Setup(s, SetupOptions(None, None), configured, manifest).value.tunnelIdentifier == Some(DefaultTunnelIdentifier(bundle))
  {
    if Bundle(configured, manifest).Some? {
      DefaultsRelated(Bundle(configured, manifest).value);
    }
  }

  /** Explicit identifiers do not protect `setup` from the lookup: with no
      configured bundle and no manifest it throws all the same. */
  lemma ExplicitOptionsStillLookUp(s: Store, appGroup: string, tunnelIdentifier: string)
    ensures Setup(s, SetupOptions(Some(appGroup), Some(tunnelIdentifier)), Undefined, NoManifest) == Err(TypeErrorMessage)
  {
  }

  // ---------------------------------------------------------------------------
  // setParam

  /** A JavaScript value as `setParam` may receive it. `JsObject` covers
      everything `typeof` calls an object: `null`, arrays and objects. */
  datatype JsValue =
    | JsString(text: string)
    | JsNumber(number: Double)
    | JsBool(flag: bool)
    | JsObject(id: nat)
    | JsUndefined

  /** The value passed on to the native module: objects and booleans are
      JSON-encoded (`stringify` stands for `JSON.stringify` on objects; a
      boolean's JSON is its name), everything else is passed unchanged. */
  function Encode(v: JsValue, stringify: JsValue -> string): (r: JsValue)
    ensures v.JsObject? ==> r == JsString(stringify(v))
    ensures v.JsBool? ==> r == JsString(FlagName(v.flag))
    ensures !v.JsObject? && !v.JsBool? ==> r == v
  {
    match v
    case JsObject(_) => JsString(stringify(v))
    case JsBool(b) => JsString(if b then "true" else "false")
    case _ => v
  }

  /** What the facade's `setParam` throws: its own `Error`, an exception
      of the native module, or the bridge's refusal of the argument. */
  datatype Thrown =
    | UnknownParameterError(key: string)
    | NativeException
    | ArgumentConversion

  /** The message of the facade's own error. */
  function UnknownParameterMessage(key: string): string {
    "Unknown parameter: " + key
  }

  /** `setParam(key, value)`. The encoded value reaches the native
      `setParam` as a string; a value that is still not a string is
      converted by the bridge (`convert`, which may refuse). A `false` from
      the native module becomes `Unknown parameter: <key>`; a native
      exception propagates. */
  function SetParam(s: Store, key: string, value: JsValue, d: Params.Decoders,
                    stringify: JsValue -> string, convert: JsValue -> Option<string>): (r: Result<Store, Thrown>)
    ensures r == Err(UnknownParameterError(key)) <==>
      NativeArgument(value, stringify, convert).Some? && forall k :: Keys.KeyName(k) != Keys.Canonical(key)
    ensures r.Ok? ==>
      && NativeArgument(value, stringify, convert).Some?
      && Params.SetParam(s, key, NativeArgument(value, stringify, convert).value, d) == Ok(r.value)
    ensures NativeArgument(value, stringify, convert).None? ==> r == Err(ArgumentConversion)
    ensures NativeArgument(value, stringify, convert).Some? ==>
      (r.Ok? <==> Params.SetParam(s, key, NativeArgument(value, stringify, convert).value, d).Ok?)
    ensures r == Err(NativeException) <==>
      && NativeArgument(value, stringify, convert).Some?
      && Params.SetParam(s, key, NativeArgument(value, stringify, convert).value, d) == Err(Params.DecodeFailure)
  {
    match NativeArgument(value, stringify, convert)
    case None => Err(ArgumentConversion)
    case Some(text) =>
      match Params.SetParam(s, key, text, d)
      case Ok(t) => Ok(t)
      case Err(UnknownParameter) => Err(UnknownParameterError(key))
      case Err(DecodeFailure) => Err(NativeException)
  }

  /** The string the native `setParam` receives, if the bridge can make one. */
  function NativeArgument(value: JsValue, stringify: JsValue -> string, convert: JsValue -> Option<string>): Option<string> {
    match Encode(value, stringify)
    case JsString(text) => Some(text)
    case other => convert(other)
  }

  /** A boolean passed to `setParam` reaches the store as that boolean: its
      JSON text is exactly the spelling the boolean keys accept. */
  lemma BooleanParamStored(s: Store, b: bool, d: Params.Decoders,
                           stringify: JsValue -> string, convert: JsValue -> Option<string>)
    ensures var r := SetParam(s, Keys.KeyName(Keys.ChecksEKU), JsBool(b), d, stringify, convert);
      r.Ok? && r.value.session.checksEKU == Some(b)
  {
    assert NativeArgument(JsBool(b), stringify, convert) == Some(FlagName(b));
    Keys.KeyRoundTrip(Keys.ChecksEKU);
    ParamLaws.SessionFlagValues(s, FlagName(b), d);
  }

  /** A string value is passed to the native module unchanged. */
  lemma StringParamUnchanged(value: string, stringify: JsValue -> string, convert: JsValue -> Option<string>)
    ensures NativeArgument(JsString(value), stringify, convert) == Some(value)
  {
  }

  // ---------------------------------------------------------------------------
  // connect

  /** The facade's `connect`, after the native `connect` settles: if it
      rejects, a best-effort `disconnect` is issued (its own outcome
      ignored) and the original failure is rethrown; if it resolves, so
      does the facade (waiting for the `Connected` event is not modelled). */
  function Connect(st: Controller.State, p: Controller.Platform, q: Controller.Platform)
    : (r: (Controller.State, seq<Controller.Effect>, Controller.Outcome))
    ensures var (step, outcome) := Controller.Connect(st, p);
      && r.2 == outcome
      && (outcome.Rejected? ==>
            var d := Controller.DisconnectCall(step.state, q).0;
            r.0 == d.state && r.1 == step.effects + d.effects)
      && (!outcome.Rejected? ==> r.0 == step.state && r.1 == step.effects)
  {
    var (step, outcome) := Controller.Connect(st, p);
    if outcome.Rejected? then
      var (d, _) := Controller.DisconnectCall(step.state, q);
      (d.state, step.effects + d.effects, outcome)
    else (step.state, step.effects, outcome)
  }

  /** A `connect` refused for missing parameters still asks the system to
      disconnect, and rethrows the refusal. */
  lemma FailedConnectDisconnects(st: Controller.State, p: Controller.Platform, q: Controller.Platform)
    requires st.store.username.None?
    ensures var r := Connect(st, p, q);
      && r.2 == Controller.Rejected(Controller.MissingParameters)
      && r.1 == Controller.Disconnect(st, q).effects
      && (Controller.StopTunnel in r.1 <==> r.0.current.Some?)
  {
  }
}

=== FILE: keys.dfy ===
/** The closed set of parameter names `setParam` recognises, as a datatype
    with its spelling and the reverse lookup. */
module Keys {
  import opened Base

  datatype Key =
    | Username | Password | AppGroup | TunnelIdentifier
    | Hostname | CipherAlgorithm | DigestAlgorithm | CompressionFraming
    | CompressionAlgorithm | CA | ClientCertificate | ClientKey
    | TLSWrapStrategy | TLSWrapKeyData | TLSWrapKeyDirection | TLSSecurityLevel
    | KeepAliveInterval | KeepAliveTimeout | RenegotiatesAfter | SocketType
    | Port | ChecksEKU | RandomizeEndpoint | UsesPIAPatches
    | AuthToken | PeerID | IPv4Settings | IPv6Settings
    | DNSServers | SearchDomains | HTTPProxy | HTTPSProxy
    | ProxyAutoConfigurationURL | ProxyBypassDomains | RoutingPolicies | PrefersResolvedAddresses
    | ResolvedAddresses | MTU | Debug | DebugLogFormat
    | MasksPrivateData | DataCountInterval

  /** The string a caller passes to select the parameter. */
  function KeyName(k: Key): string {
    match k
    case Username => "Username"
    case Password => "Password"
    case AppGroup => "AppGroup"
    case TunnelIdentifier => "TunnelIdentifier"
    case Hostname => "Hostname"
    case CipherAlgorithm => "CipherAlgorithm"
    case DigestAlgorithm => "DigestAlgorithm"
    case CompressionFraming => "CompressionFraming"
    case CompressionAlgorithm => "CompressionAlgorithm"
    case CA => "CA"
    case ClientCertificate => "ClientCertificate"
    case ClientKey => "ClientKey"
    case TLSWrapStrategy => "TLSWrapStrategy"
    case TLSWrapKeyData => "TLSWrapKeyData"
    case TLSWrapKeyDirection => "TLSWrapKeyDirection"
    case TLSSecurityLevel => "TLSSecurityLevel"
    case KeepAliveInterval => "KeepAliveInterval"
    case KeepAliveTimeout => "KeepAliveTimeout"
    case RenegotiatesAfter => "RenegotiatesAfter"
    case SocketType => "SocketType"
    case Port => "Port"
    case ChecksEKU => "ChecksEKU"
    case RandomizeEndpoint => "RandomizeEndpoint"
    case UsesPIAPatches => "UsesPIAPatches"
    case AuthToken => "AuthToken"
    case PeerID => "PeerID"
    case IPv4Settings => "IPv4Settings"
    case IPv6Settings => "IPv6Settings"
    case DNSServers => "DNSServers"
    case SearchDomains => "SearchDomains"
    case HTTPProxy => "HTTPProxy"
    case HTTPSProxy => "HTTPSProxy"
    case ProxyAutoConfigurationURL => "ProxyAutoConfigurationURL"
    case ProxyBypassDomains => "ProxyBypassDomains"
    case RoutingPolicies => "RoutingPolicies"
    case PrefersResolvedAddresses => "PrefersResolvedAddresses"
    case ResolvedAddresses => "ResolvedAddresses"
    case MTU => "MTU"
    case Debug => "Debug"
    case DebugLogFormat => "DebugLogFormat"
    case MasksPrivateData => "MasksPrivateData"
    case DataCountInterval => "DataCountInterval"
  }

  /** KELVIN SIGN, canonically equivalent to the letter `K`. */
  const KelvinSign: char := '\U{212A}'

  /** A character as Swift's string comparison sees it next to a parameter
      name. Swift compares strings by canonical equivalence; the names are
      made of ASCII letters and digits, and the only character other than
      themselves canonically equivalent to one of those is KELVIN SIGN,
      equivalent to `K`. */
  function Folded(c: char): (d: char)
    ensures d == c <==> c != KelvinSign
  {
    if c == KelvinSign then 'K' else c
  }

  /** `s` with every KELVIN SIGN read as `K`. */
  function Canonical(s: string): (r: string)
    ensures |r| == |s|
    ensures forall i :: 0 <= i < |s| ==> r[i] == Folded(s[i])
  {
    seq(|s|, i requires 0 <= i < |s| => Folded(s[i]))
  }

  /** Text without KELVIN SIGN is its own canonical form. */
  lemma CanonicalWithoutKelvin(s: string)
    requires KelvinSign !in s
    ensures Canonical(s) == s
  {
    forall i | 0 <= i < |s|
      ensures Canonical(s)[i] == s[i]
    {
      assert s[i] in s;
    }
  }

  /** The `switch key` of `setParam`: the parameter whose name `s` is
      canonically equivalent to, if any. */
  function ParseKey(s: string): (r: Option<Key>)
    ensures r.Some? ==> KeyName(r.value) == Canonical(s)
  {
    LookupName(Canonical(s))
  }

  /** The parameter whose name is exactly `s`, if any. */
  function LookupName(s: string): (r: Option<Key>)
    ensures r.Some? ==> KeyName(r.value) == s
  {
    match Candidate(s)
    case Some(k) => if KeyName(k) == s then Some(k) else None
    case None => None
  }

  /** The only parameter whose name `s` could be, found from the length of
      `s` and one or two distinguishing characters; `ParseKey` then compares
      the whole name. Together they are the same lookup as comparing `s`
      with every name in turn. */
  function Candidate(s: string): Option<Key> {
    match |s|
    case 2 =>
      Some(CA)
    case 3 =>
      Some(MTU)
    case 4 =>
      Some(Port)
    case 5 =>
      Some(Debug)
    case 6 =>
      Some(PeerID)
    case 8 =>
      if s[0] == 'U' then
        Some(Username)
      else if s[0] == 'P' then
        Some(Password)
      else if s[0] == 'A' then
        Some(AppGroup)
      else if s[0] == 'H' then
        Some(Hostname)
      else None
    case 9 =>
      if s[0] == 'C' then
        if s[1] == 'l' then
          Some(ClientKey)
        else if s[1] == 'h' then
          Some(ChecksEKU)
        else None
      else if s[0] == 'A' then
        Some(AuthToken)
      else if s[0] == 'H' then
        Some(HTTPProxy)
      else None
    case 10 =>
      if s[0] == 'S' then
        Some(SocketType)
      else if s[0] == 'D' then
        Some(DNSServers)
      else if s[0] == 'H' then
        Some(HTTPSProxy)
      else None
    case 12 =>
      if s[3] == '4' then
        Some(IPv4Settings)
      else if s[3] == '6' then
        Some(IPv6Settings)
      else None
    case 13 =>
      Some(SearchDomains)
    case 14 =>
      if s[0] == 'T' then
        Some(TLSWrapKeyData)
      else if s[0] == 'U' then
        Some(UsesPIAPatches)
      else if s[0] == 'D' then
        Some(DebugLogFormat)
      else None
    case 15 =>
      if s[0] == 'C' then
        Some(CipherAlgorithm)
      else if s[0] == 'D' then
        Some(DigestAlgorithm)
      else if s[0] == 'T' then
        Some(TLSWrapStrategy)
      else if s[0] == 'R' then
        Some(RoutingPolicies)
      else None
    case 16 =>
      if s[0] == 'T' then
        if s[1] == 'u' then
          Some(TunnelIdentifier)
        else if s[1] == 'L' then
          Some(TLSSecurityLevel)
        else None
      else if s[0] == 'K' then
        Some(KeepAliveTimeout)
      else if s[0] == 'M' then
        Some(MasksPrivateData)
      else None
    case 17 =>
      if s[0] == 'C' then
        Some(ClientCertificate)
      else if s[0] == 'K' then
        Some(KeepAliveInterval)
      else if s[0] == 'R' then
        if s[1] == 'e' then
          if s[2] == 'n' then
            Some(RenegotiatesAfter)
          else if s[2] == 's' then
            Some(ResolvedAddresses)
          else None
        else if s[1] == 'a' then
          Some(RandomizeEndpoint)
        else None
      else if s[0] == 'D' then
        Some(DataCountInterval)
      else None
    case 18 =>
      if s[0] == 'C' then
        Some(CompressionFraming)
      else if s[0] == 'P' then
        Some(ProxyBypassDomains)
      else None
    case 19 =>
      Some(TLSWrapKeyDirection)
    case 20 =>
      Some(CompressionAlgorithm)
    case 24 =>
      Some(PrefersResolvedAddresses)
    case 25 =>
      Some(ProxyAutoConfigurationURL)
    case _ => None
  }

  /** Every parameter's name is read back as that parameter. */
  lemma KeyRoundTrip(k: Key)
    ensures ParseKey(KeyName(k)) == Some(k)
  {
    LookupRoundTrip(k);
    CanonicalWithoutKelvin(KeyName(k));
  }

  /** Every parameter's exact name is looked up as that parameter, and no
      name holds a KELVIN SIGN (they are all ASCII). */
  lemma {:induction false} LookupRoundTrip(k: Key)
    ensures LookupName(KeyName(k)) == Some(k)
    ensures KelvinSign !in KeyName(k)
  {
    match k
    case Username => CandidatesOfNames1(); NamesWithoutKelvin1();
    case Password => CandidatesOfNames1(); NamesWithoutKelvin1();
    case AppGroup => CandidatesOfNames1(); NamesWithoutKelvin1();
    case TunnelIdentifier => CandidatesOfNames2(); NamesWithoutKelvin2();
    case Hostname => CandidatesOfNames2(); NamesWithoutKelvin2();
    case CipherAlgorithm => CandidatesOfNames2(); NamesWithoutKelvin2();
    case DigestAlgorithm => CandidatesOfNames3(); NamesWithoutKelvin3();
    case CompressionFraming => CandidatesOfNames3(); NamesWithoutKelvin3();
    case CompressionAlgorithm => CandidatesOfNames3(); NamesWithoutKelvin3();
    case CA => CandidatesOfNames4(); NamesWithoutKelvin4();
    case ClientCertificate => CandidatesOfNames4(); NamesWithoutKelvin4();
    case ClientKey => CandidatesOfNames4(); NamesWithoutKelvin4();
    case TLSWrapStrategy => CandidatesOfNames5(); NamesWithoutKelvin5();
    case TLSWrapKeyData => CandidatesOfNames5(); NamesWithoutKelvin5();
    case TLSWrapKeyDirection => CandidatesOfNames5(); NamesWithoutKelvin5();
    case TLSSecurityLevel => CandidatesOfNames6(); NamesWithoutKelvin6();
    case KeepAliveInterval => CandidatesOfNames6(); NamesWithoutKelvin6();
    case KeepAliveTimeout => CandidatesOfNames6(); NamesWithoutKelvin6();
    case RenegotiatesAfter => CandidatesOfNames7(); NamesWithoutKelvin7();
    case SocketType => CandidatesOfNames7(); NamesWithoutKelvin7();
    case Port => CandidatesOfNames7(); NamesWithoutKelvin7();
    case ChecksEKU => CandidatesOfNames8(); NamesWithoutKelvin8();
    case RandomizeEndpoint => CandidatesOfNames8(); NamesWithoutKelvin8();
    case UsesPIAPatches => CandidatesOfNames8(); NamesWithoutKelvin8();
    case AuthToken => CandidatesOfNames9(); NamesWithoutKelvin9();
    case PeerID => CandidatesOfNames9(); NamesWithoutKelvin9();
    case IPv4Settings => CandidatesOfNames9(); NamesWithoutKelvin9();
    case IPv6Settings => CandidatesOfNames10(); NamesWithoutKelvin10();
    case DNSServers => CandidatesOfNames10(); NamesWithoutKelvin10();
    case SearchDomains => CandidatesOfNames10(); NamesWithoutKelvin10();
    case HTTPProxy => CandidatesOfNames11(); NamesWithoutKelvin11();
    case HTTPSProxy => CandidatesOfNames11(); NamesWithoutKelvin11();
    case ProxyAutoConfigurationURL => CandidatesOfNames11(); NamesWithoutKelvin11();
    case ProxyBypassDomains => CandidatesOfNames12(); NamesWithoutKelvin12();
    case RoutingPolicies => CandidatesOfNames12(); NamesWithoutKelvin12();
    case PrefersResolvedAddresses => CandidatesOfNames12(); NamesWithoutKelvin12();
    case ResolvedAddresses => CandidatesOfNames13(); NamesWithoutKelvin13();
    case MTU => CandidatesOfNames13(); NamesWithoutKelvin13();
    case Debug => CandidatesOfNames13(); NamesWithoutKelvin13();
    case DebugLogFormat => CandidatesOfNames14(); NamesWithoutKelvin14();
    case MasksPrivateData => CandidatesOfNames14(); NamesWithoutKelvin14();
    case DataCountInterval => CandidatesOfNames14(); NamesWithoutKelvin14();
  }

  /** No two parameters share a name. */
  lemma KeyNameInjective()
    ensures forall a: Key, b: Key :: KeyName(a) == KeyName(b) ==> a == b
  {
    forall a: Key, b: Key | KeyName(a) == KeyName(b)
      ensures a == b
    {
      KeyRoundTrip(a);
      KeyRoundTrip(b);
    }
  }

  // The candidate of each name, and the absence of KELVIN SIGN from it, a few
  // names at a time to keep each proof small.

  lemma CandidatesOfNames1()
    ensures Candidate(KeyName(Username)) == Some(Username)
    ensures Candidate(KeyName(Password)) == Some(Password)
    ensures Candidate(KeyName(AppGroup)) == Some(AppGroup)
  {
  }

  lemma NamesWithoutKelvin1()
    ensures KelvinSign !in "Username"
    ensures KelvinSign !in "Password"
    ensures KelvinSign !in "AppGroup"
  {
  }

  lemma CandidatesOfNames2()
    ensures Candidate(KeyName(TunnelIdentifier)) == Some(TunnelIdentifier)
    ensures Candidate(KeyName(Hostname)) == Some(Hostname)
    ensures Candidate(KeyName(CipherAlgorithm)) == Some(CipherAlgorithm)
  {
  }

  lemma NamesWithoutKelvin2()
    ensures KelvinSign !in "TunnelIdentifier"
    ensures KelvinSign !in "Hostname"
    ensures KelvinSign !in "CipherAlgorithm"
  {
  }

  lemma CandidatesOfNames3()
    ensures Candidate(KeyName(DigestAlgorithm)) == Some(DigestAlgorithm)
    ensures Candidate(KeyName(CompressionFraming)) == Some(CompressionFraming)
    ensures Candidate(KeyName(CompressionAlgorithm)) == Some(CompressionAlgorithm)
  {
  }

  lemma NamesWithoutKelvin3()
    ensures KelvinSign !in "DigestAlgorithm"
    ensures KelvinSign !in "CompressionFraming"
    ensures KelvinSign !in "CompressionAlgorithm"
  {
  }

  lemma CandidatesOfNames4()
    ensures Candidate(KeyName(CA)) == Some(CA)
    ensures Candidate(KeyName(ClientCertificate)) == Some(ClientCertificate)
    ensures Candidate(KeyName(ClientKey)) == Some(ClientKey)
  {
  }

  lemma NamesWithoutKelvin4()
    ensures KelvinSign !in "CA"
    ensures KelvinSign !in "ClientCertificate"
    ensures KelvinSign !in "ClientKey"
  {
  }

  lemma CandidatesOfNames5()
    ensures Candidate(KeyName(TLSWrapStrategy)) == Some(TLSWrapStrategy)
    ensures Candidate(KeyName(TLSWrapKeyData)) == Some(TLSWrapKeyData)
    ensures Candidate(KeyName(TLSWrapKeyDirection)) == Some(TLSWrapKeyDirection)
  {
  }

  lemma NamesWithoutKelvin5()
    ensures KelvinSign !in "TLSWrapStrategy"
    ensures KelvinSign !in "TLSWrapKeyData"
    ensures KelvinSign !in "TLSWrapKeyDirection"
  {
  }

  lemma CandidatesOfNames6()
    ensures Candidate(KeyName(TLSSecurityLevel)) == Some(TLSSecurityLevel)
    ensures Candidate(KeyName(KeepAliveInterval)) == Some(KeepAliveInterval)
    ensures Candidate(KeyName(KeepAliveTimeout)) == Some(KeepAliveTimeout)
  {
  }

  lemma NamesWithoutKelvin6()
    ensures KelvinSign !in "TLSSecurityLevel"
    ensures KelvinSign !in "KeepAliveInterval"
    ensures KelvinSign !in "KeepAliveTimeout"
  {
  }

  lemma CandidatesOfNames7()
    ensures Candidate(KeyName(RenegotiatesAfter)) == Some(RenegotiatesAfter)
    ensures Candidate(KeyName(SocketType)) == Some(SocketType)
    ensures Candidate(KeyName(Port)) == Some(Port)
  {
  }

  lemma NamesWithoutKelvin7()
    ensures KelvinSign !in "RenegotiatesAfter"
    ensures KelvinSign !in "SocketType"
    ensures KelvinSign !in "Port"
  {
  }

  lemma CandidatesOfNames8()
    ensures Candidate(KeyName(ChecksEKU)) == Some(ChecksEKU)
    ensures Candidate(KeyName(RandomizeEndpoint)) == Some(RandomizeEndpoint)
    ensures Candidate(KeyName(UsesPIAPatches)) == Some(UsesPIAPatches)
  {
  }

  lemma NamesWithoutKelvin8()
    ensures KelvinSign !in "ChecksEKU"
    ensures KelvinSign !in "RandomizeEndpoint"
    ensures KelvinSign !in "UsesPIAPatches"
  {
  }

  lemma CandidatesOfNames9()
    ensures Candidate(KeyName(AuthToken)) == Some(AuthToken)
    ensures Candidate(KeyName(PeerID)) == Some(PeerID)
    ensures Candidate(KeyName(IPv4Settings)) == Some(IPv4Settings)
  {
  }

  lemma NamesWithoutKelvin9()
    ensures KelvinSign !in "AuthToken"
    ensures KelvinSign !in "PeerID"
    ensures KelvinSign !in "IPv4Settings"
  {
  }

  lemma CandidatesOfNames10()
    ensures Candidate(KeyName(IPv6Settings)) == Some(IPv6Settings)
    ensures Candidate(KeyName(DNSServers)) == Some(DNSServers)
    ensures Candidate(KeyName(SearchDomains)) == Some(SearchDomains)
  {
  }

  lemma NamesWithoutKelvin10()
    ensures KelvinSign !in "IPv6Settings"
    ensures KelvinSign !in "DNSServers"
    ensures KelvinSign !in "SearchDomains"
  {
  }

  lemma CandidatesOfNames11()
    ensures Candidate(KeyName(HTTPProxy)) == Some(HTTPProxy)
    ensures Candidate(KeyName(HTTPSProxy)) == Some(HTTPSProxy)
    ensures Candidate(KeyName(ProxyAutoConfigurationURL)) == Some(ProxyAutoConfigurationURL)
  {
  }

  lemma NamesWithoutKelvin11()
    ensures KelvinSign !in "HTTPProxy"
    ensures KelvinSign !in "HTTPSProxy"
    ensures KelvinSign !in "ProxyAutoConfigurationURL"
  {
  }

  lemma CandidatesOfNames12()
    ensures Candidate(KeyName(ProxyBypassDomains)) == Some(ProxyBypassDomains)
    ensures Candidate(KeyName(RoutingPolicies)) == Some(RoutingPolicies)
    ensures Candidate(KeyName(PrefersResolvedAddresses)) == Some(PrefersResolvedAddresses)
  {
  }

  lemma NamesWithoutKelvin12()
    ensures KelvinSign !in "ProxyBypassDomains"
    ensures KelvinSign !in "RoutingPolicies"
    ensures KelvinSign !in "PrefersResolvedAddresses"
  {
  }

  lemma CandidatesOfNames13()
    ensures Candidate(KeyName(ResolvedAddresses)) == Some(ResolvedAddresses)
    ensures Candidate(KeyName(MTU)) == Some(MTU)
    ensures Candidate(KeyName(Debug)) == Some(Debug)
  {
  }

  lemma NamesWithoutKelvin13()
    ensures KelvinSign !in "ResolvedAddresses"
    ensures KelvinSign !in "MTU"
    ensures KelvinSign !in "Debug"
  {
  }

  lemma CandidatesOfNames14()
    ensures Candidate(KeyName(DebugLogFormat)) == Some(DebugLogFormat)
    ensures Candidate(KeyName(MasksPrivateData)) == Some(MasksPrivateData)
    ensures Candidate(KeyName(DataCountInterval)) == Some(DataCountInterval)
  {
  }

  lemma NamesWithoutKelvin14()
    ensures KelvinSign !in "DebugLogFormat"
    ensures KelvinSign !in "MasksPrivateData"
    ensures KelvinSign !in "DataCountInterval"
  {
  }

  /** The strings no parameter answers to are exactly those not
      canonically equivalent to the name of any parameter. */
  lemma UnknownKeyIffNoName(s: string)
    ensures ParseKey(s).None? <==> forall k :: KeyName(k) != Canonical(s)
  {
    if ParseKey(s).None? {
      forall k ensures KeyName(k) != Canonical(s) {
        LookupRoundTrip(k);
      }
    }
  }

  /** A name spelled with KELVIN SIGN for `K` selects the parameter, as
      Swift's `==` does. */
  lemma KelvinSpellingSelects()
    ensures ParseKey([KelvinSign] + "eepAliveTimeout") == Some(KeepAliveTimeout)
  {
    assert Canonical([KelvinSign] + "eepAliveTimeout") == KeyName(KeepAliveTimeout);
    LookupRoundTrip(KeepAliveTimeout);
  }
}

=== FILE: param_laws.dfy ===
/** What each group of `setParam` keys does with its value: the enumerated
    keys, the keys that keep their field on an unknown spelling, the numeric
    fallbacks, the JSON keys, the derived fields, and the import that a
    later `setParam` overrides. */
module ParamLaws {
  import opened Base
  import opened Decimal
  import opened Session
  import opened Params
  import Keys

  // ---------------------------------------------------------------------------
  // Enumerated values: an unknown spelling clears the field

  /** `CipherAlgorithm` stores exactly the cipher the string spells, and
      clears the cipher when it spells none. */
  lemma CipherValue(s: Store, v: string, d: Decoders)
    ensures ApplyKey(s, Keys.CipherAlgorithm, v, d).Ok?
    ensures forall x :: ApplyKey(s, Keys.CipherAlgorithm, v, d).value.session.cipher == Some(x) <==> CipherName(x) == v
  {
    forall x: Cipher { NameTablesRoundTrip(x, Sha1, FramingDisabled, AlgorithmDisabled, Auth, DirectionZero, Tcp, true); }
    ParsedAreNames(v);
  }

  /** `DigestAlgorithm` stores exactly the digest the string spells, and
      clears the digest when it spells none. */
  lemma DigestValue(s: Store, v: string, d: Decoders)
    ensures ApplyKey(s, Keys.DigestAlgorithm, v, d).Ok?
    ensures forall x :: ApplyKey(s, Keys.DigestAlgorithm, v, d).value.session.digest == Some(x) <==> DigestName(x) == v
  {
    forall x: Digest { NameTablesRoundTrip(Aes128Cbc, x, FramingDisabled, AlgorithmDisabled, Auth, DirectionZero, Tcp, true); }
    ParsedAreNames(v);
  }

  /** `CompressionFraming` and `CompressionAlgorithm` store exactly the
      value the string spells, and clear their field when it spells none. */
  lemma CompressionValues(s: Store, v: string, d: Decoders)
    ensures ApplyKey(s, Keys.CompressionFraming, v, d).Ok?
    ensures ApplyKey(s, Keys.CompressionAlgorithm, v, d).Ok?
    ensures forall x :: ApplyKey(s, Keys.CompressionFraming, v, d).value.session.compressionFraming == Some(x) <==> FramingName(x) == v
    ensures forall x :: ApplyKey(s, Keys.CompressionAlgorithm, v, d).value.session.compressionAlgorithm == Some(x) <==> AlgorithmName(x) == v
  {
    forall x: CompressionFraming { NameTablesRoundTrip(Aes128Cbc, Sha1, x, AlgorithmDisabled, Auth, DirectionZero, Tcp, true); }
    forall x: CompressionAlgorithm { NameTablesRoundTrip(Aes128Cbc, Sha1, FramingDisabled, x, Auth, DirectionZero, Tcp, true); }
    ParsedAreNames(v);
  }

  /** An unknown spelling of a cipher is not ignored: it removes the cipher
      set before, and only that. */
  lemma UnknownCipherClears(s: Store, v: string, d: Decoders)
    requires forall x :: CipherName(x) != v
    ensures ApplyKey(s, Keys.CipherAlgorithm, v, d) == Ok(s.(session := s.session.(cipher := None)))
  {
    CipherValue(s, v, d);
  }

  // ---------------------------------------------------------------------------
  // Boolean keys and the shadow inputs: an unknown spelling changes nothing

  /** The boolean keys of the session builder store the value `v` spells,
      and leave the store exactly as it was when `v` spells neither. */
  lemma SessionFlagValues(s: Store, v: string, d: Decoders)
    ensures ApplyKey(s, Keys.ChecksEKU, v, d).Ok?
    ensures ApplyKey(s, Keys.RandomizeEndpoint, v, d).Ok?
    ensures ApplyKey(s, Keys.UsesPIAPatches, v, d).Ok?
    ensures forall b :: FlagName(b) == v ==>
      && ApplyKey(s, Keys.ChecksEKU, v, d).value.session.checksEKU == Some(b)
      && ApplyKey(s, Keys.RandomizeEndpoint, v, d).value.session.randomizeEndpoint == Some(b)
      && ApplyKey(s, Keys.UsesPIAPatches, v, d).value.session.usesPIAPatches == Some(b)
    ensures (forall b :: FlagName(b) != v) ==>
      && ApplyKey(s, Keys.ChecksEKU, v, d) == Ok(s)
      && ApplyKey(s, Keys.RandomizeEndpoint, v, d) == Ok(s)
      && ApplyKey(s, Keys.UsesPIAPatches, v, d) == Ok(s)
  {
    NameTablesRoundTrip(Aes128Cbc, Sha1, FramingDisabled, AlgorithmDisabled, Auth, DirectionZero, Tcp, true);
    NameTablesRoundTrip(Aes128Cbc, Sha1, FramingDisabled, AlgorithmDisabled, Auth, DirectionZero, Tcp, false);
    ParsedAreNames(v);
  }

  /** `PrefersResolvedAddresses` behaves as the boolean keys of the session do. */
  lemma PrefersResolvedValue(s: Store, v: string, d: Decoders)
    ensures ApplyKey(s, Keys.PrefersResolvedAddresses, v, d).Ok?
    ensures forall b :: FlagName(b) == v ==>
      && ApplyKey(s, Keys.PrefersResolvedAddresses, v, d).value.providerSettings.prefersResolvedAddresses == Some(b)
    ensures (forall b :: FlagName(b) != v) ==>
      && ApplyKey(s, Keys.PrefersResolvedAddresses, v, d) == Ok(s)
  {
    NameTablesRoundTrip(Aes128Cbc, Sha1, FramingDisabled, AlgorithmDisabled, Auth, DirectionZero, Tcp, true);
    NameTablesRoundTrip(Aes128Cbc, Sha1, FramingDisabled, AlgorithmDisabled, Auth, DirectionZero, Tcp, false);
    ParsedAreNames(v);
  }

  /** So do the two boolean debugging keys. */
  lemma DebugFlagValues(s: Store, v: string, d: Decoders)
    ensures ApplyKey(s, Keys.Debug, v, d).Ok?
    ensures ApplyKey(s, Keys.MasksPrivateData, v, d).Ok?
    ensures forall b :: FlagName(b) == v ==>
      && ApplyKey(s, Keys.Debug, v, d).value.providerSettings.shouldDebug == Some(b)
      && ApplyKey(s, Keys.MasksPrivateData, v, d).value.providerSettings.masksPrivateData == Some(b)
    ensures (forall b :: FlagName(b) != v) ==>
      && ApplyKey(s, Keys.Debug, v, d) == Ok(s)
      && ApplyKey(s, Keys.MasksPrivateData, v, d) == Ok(s)
  {
    NameTablesRoundTrip(Aes128Cbc, Sha1, FramingDisabled, AlgorithmDisabled, Auth, DirectionZero, Tcp, true);
    NameTablesRoundTrip(Aes128Cbc, Sha1, FramingDisabled, AlgorithmDisabled, Auth, DirectionZero, Tcp, false);
    ParsedAreNames(v);
  }

  /** An unknown TLS-wrap strategy or socket type keeps the one set before;
      a known one replaces it. */
  lemma ShadowValues(s: Store, v: string, d: Decoders)
    ensures ApplyKey(s, Keys.TLSWrapStrategy, v, d).Ok?
    ensures ApplyKey(s, Keys.SocketType, v, d).Ok?
    ensures forall x :: StrategyName(x) == v ==> ApplyKey(s, Keys.TLSWrapStrategy, v, d).value.tlsWrapStrategy == Some(x)
    ensures forall x :: SocketTypeName(x) == v ==> ApplyKey(s, Keys.SocketType, v, d).value.socketType == Some(x)
    ensures (forall x :: StrategyName(x) != v) ==> ApplyKey(s, Keys.TLSWrapStrategy, v, d).value.tlsWrapStrategy == s.tlsWrapStrategy
    ensures (forall x :: SocketTypeName(x) != v) ==> ApplyKey(s, Keys.SocketType, v, d).value.socketType == s.socketType
  {
    NameTablesRoundTrip(Aes128Cbc, Sha1, FramingDisabled, AlgorithmDisabled, Auth, DirectionZero, Tcp, true);
    NameTablesRoundTrip(Aes128Cbc, Sha1, FramingDisabled, AlgorithmDisabled, Crypt, DirectionZero, Udp, true);
    ParsedAreNames(v);
  }

  /** An unknown key direction is not kept: it clears the direction. */
  lemma DirectionValue(s: Store, v: string, d: Decoders)
    ensures ApplyKey(s, Keys.TLSWrapKeyDirection, v, d).Ok?
    ensures forall x :: ApplyKey(s, Keys.TLSWrapKeyDirection, v, d).value.tlsWrapKeyDirection == Some(x) <==> DirectionName(x) == v
  {
    NameTablesRoundTrip(Aes128Cbc, Sha1, FramingDisabled, AlgorithmDisabled, Auth, DirectionZero, Tcp, true);
    NameTablesRoundTrip(Aes128Cbc, Sha1, FramingDisabled, AlgorithmDisabled, Auth, DirectionOne, Tcp, true);
    ParsedAreNames(v);
  }

  // ---------------------------------------------------------------------------
  // Numeric fallbacks

  /** A numeral whose value lies in `lo..hi`. */
  predicate FitsIn(v: string, lo: int, hi: int) {
    IsNumeral(v) && lo <= ParseInteger(v).value <= hi
  }

  /** `TLSSecurityLevel` takes a 64-bit numeral, and 0 for anything else. */
  lemma SecurityLevelValue(s: Store, v: string, d: Decoders)
    ensures ApplyKey(s, Keys.TLSSecurityLevel, v, d).Ok?
    ensures ApplyKey(s, Keys.TLSSecurityLevel, v, d).value.session.tlsSecurityLevel ==
      Some(if FitsIn(v, Int64Min, Int64Max) then ParseInteger(v).value else 0)
  {
  }

  /** `DataCountInterval` takes a 64-bit numeral, and 1000 for anything else. */
  lemma IntervalValue(s: Store, v: string, d: Decoders)
    ensures ApplyKey(s, Keys.DataCountInterval, v, d).Ok?
    ensures ApplyKey(s, Keys.DataCountInterval, v, d).value.dataCountInterval ==
      if FitsIn(v, Int64Min, Int64Max) then ParseInteger(v).value else DefaultDataCountInterval
  {
  }

  /** `Port` takes a 16-bit unsigned numeral; anything else clears it. */
  lemma PortValue(s: Store, v: string, d: Decoders)
    ensures ApplyKey(s, Keys.Port, v, d).Ok?
    ensures ApplyKey(s, Keys.Port, v, d).value.port ==
      if FitsIn(v, 0, UInt16Max) then Some(ParseInteger(v).value) else None
  {
  }

  /** `PeerID` takes a 32-bit unsigned numeral; anything else clears it. */
  lemma PeerIdValue(s: Store, v: string, d: Decoders)
    ensures ApplyKey(s, Keys.PeerID, v, d).Ok?
    ensures ApplyKey(s, Keys.PeerID, v, d).value.session.peerId ==
      if FitsIn(v, 0, UInt32Max) then Some(ParseInteger(v).value) else None
  {
  }

  /** `MTU` takes a 64-bit numeral; anything else clears it. */
  lemma MtuValue(s: Store, v: string, d: Decoders)
    ensures ApplyKey(s, Keys.MTU, v, d).Ok?
    ensures ApplyKey(s, Keys.MTU, v, d).value.providerSettings.mtu ==
      if FitsIn(v, Int64Min, Int64Max) then Some(ParseInteger(v).value) else None
  {
  }

  // ---------------------------------------------------------------------------
  // JSON values

  /** The address settings are refused exactly when their JSON does not decode, and otherwise hold the decoded value. */
  lemma AddressSettingsValues(s: Store, v: string, d: Decoders)
    ensures ApplyKey(s, Keys.IPv4Settings, v, d).Err? <==> d.ipv4(v).None?
    ensures ApplyKey(s, Keys.IPv6Settings, v, d).Err? <==> d.ipv6(v).None?
    ensures ApplyKey(s, Keys.IPv4Settings, v, d).Ok? ==> ApplyKey(s, Keys.IPv4Settings, v, d).value.session.ipv4 == d.ipv4(v)
    ensures ApplyKey(s, Keys.IPv6Settings, v, d).Ok? ==> ApplyKey(s, Keys.IPv6Settings, v, d).value.session.ipv6 == d.ipv6(v)
  {
  }

  /** So are the two proxies. */
  lemma ProxyValues(s: Store, v: string, d: Decoders)
    ensures ApplyKey(s, Keys.HTTPProxy, v, d).Err? <==> d.proxy(v).None?
    ensures ApplyKey(s, Keys.HTTPSProxy, v, d).Err? <==> d.proxy(v).None?
    ensures ApplyKey(s, Keys.HTTPProxy, v, d).Ok? ==> ApplyKey(s, Keys.HTTPProxy, v, d).value.session.httpProxy == d.proxy(v)
    ensures ApplyKey(s, Keys.HTTPSProxy, v, d).Ok? ==> ApplyKey(s, Keys.HTTPSProxy, v, d).value.session.httpsProxy == d.proxy(v)
  {
  }

  /** So are the routing policies. */
  lemma RoutingPoliciesValue(s: Store, v: string, d: Decoders)
    ensures ApplyKey(s, Keys.RoutingPolicies, v, d).Err? <==> d.policies(v).None?
    ensures ApplyKey(s, Keys.RoutingPolicies, v, d).Ok? ==> ApplyKey(s, Keys.RoutingPolicies, v, d).value.session.routingPolicies == d.policies(v)
  {
  }

  /** So are the DNS servers and search domains, lists of strings. */
  lemma ServerListValues(s: Store, v: string, d: Decoders)
    ensures ApplyKey(s, Keys.DNSServers, v, d).Err? <==> d.strings(v).None?
    ensures ApplyKey(s, Keys.SearchDomains, v, d).Err? <==> d.strings(v).None?
    ensures ApplyKey(s, Keys.DNSServers, v, d).Ok? ==> ApplyKey(s, Keys.DNSServers, v, d).value.session.dnsServers == d.strings(v)
    ensures ApplyKey(s, Keys.SearchDomains, v, d).Ok? ==> ApplyKey(s, Keys.SearchDomains, v, d).value.session.searchDomains == d.strings(v)
  {
  }

  /** So are the proxy bypass domains and the resolved addresses. */
  lemma DomainListValues(s: Store, v: string, d: Decoders)
    ensures ApplyKey(s, Keys.ProxyBypassDomains, v, d).Err? <==> d.strings(v).None?
    ensures ApplyKey(s, Keys.ResolvedAddresses, v, d).Err? <==> d.strings(v).None?
    ensures ApplyKey(s, Keys.ProxyBypassDomains, v, d).Ok? ==> ApplyKey(s, Keys.ProxyBypassDomains, v, d).value.session.proxyBypassDomains == d.strings(v)
    ensures ApplyKey(s, Keys.ResolvedAddresses, v, d).Ok? ==> ApplyKey(s, Keys.ResolvedAddresses, v, d).value.providerSettings.resolvedAddresses == d.strings(v)
  {
  }

  /** The proxy auto-configuration URL is whatever `URL(string:)` makes of
      the value, cleared when it makes nothing; it is never refused. */
  lemma UrlValue(s: Store, v: string, d: Decoders)
    ensures ApplyKey(s, Keys.ProxyAutoConfigurationURL, v, d).Ok?
    ensures ApplyKey(s, Keys.ProxyAutoConfigurationURL, v, d).value.session.proxyAutoConfigurationURL == d.url(v)
  {
  }

  /** The three timing keys are whatever `Double(_:)` makes of the value,
      cleared when it makes nothing; they are never refused. */
  lemma TimingValues(s: Store, v: string, d: Decoders)
    ensures ApplyKey(s, Keys.KeepAliveInterval, v, d).Ok?
    ensures ApplyKey(s, Keys.KeepAliveTimeout, v, d).Ok?
    ensures ApplyKey(s, Keys.RenegotiatesAfter, v, d).Ok?
    ensures ApplyKey(s, Keys.KeepAliveInterval, v, d).value.session.keepAliveInterval == d.double(v)
    ensures ApplyKey(s, Keys.KeepAliveTimeout, v, d).value.session.keepAliveTimeout == d.double(v)
    ensures ApplyKey(s, Keys.RenegotiatesAfter, v, d).value.session.renegotiatesAfter == d.double(v)
  {
  }

  // ---------------------------------------------------------------------------
  // Derived fields

  /** After `SocketType` or `Port`, the endpoint list is the single pair of
      the two shadow inputs when both are known, and is otherwise left as it
      was (an unparsable port clears the port but not the endpoint). */
  lemma EndpointRebuilt(s: Store, k: Keys.Key, v: string, d: Decoders)
    requires k in EndpointKeys
    ensures ApplyKey(s, k, v, d).Ok?
    ensures var r := ApplyKey(s, k, v, d).value;
      if r.socketType.Some? && r.port.Some? then
        r.session.endpointProtocols == Some([EndpointProtocol(r.socketType.value, r.port.value)])
      else
        r.session.endpointProtocols == s.session.endpointProtocols
  {
  }

  /** After any of the three TLS-wrap keys, `tlsWrap` is rebuilt from the
      strategy, the key data and the (optional) direction when the first
      two are known, and is otherwise left as it was. */
  lemma TlsWrapRebuilt(s: Store, k: Keys.Key, v: string, d: Decoders)
    requires k in TlsWrapKeys
    ensures ApplyKey(s, k, v, d).Ok?
    ensures var r := ApplyKey(s, k, v, d).value;
      if r.tlsWrapStrategy.Some? && r.tlsWrapKeyData.Some? then
        r.session.tlsWrap == Some(TlsWrap(r.tlsWrapStrategy.value, StaticKey(r.tlsWrapKeyData.value, r.tlsWrapKeyDirection)))
      else
        r.session.tlsWrap == s.session.tlsWrap
  {
  }

  // ---------------------------------------------------------------------------
  // Import, and a later setParam overriding it

  /** An import writes the 28 session fields and the built session, and
      nothing else: credentials, identifiers, shadow inputs, provider
      settings and the data-count interval are untouched, while what it
      writes does not depend on what was there. */
  lemma ImportFrame(s: Store, t: Store, c: Configuration)
    ensures forall slot: Slot :: !slot.InSession() && slot != BuiltSessionSlot ==> Agree(s, Import(s, c), slot)
    ensures forall slot: Slot :: slot.InSession() || slot == BuiltSessionSlot ==> Agree(Import(s, c), Import(t, c), slot)
  {
  }

  /** A key whose value alone decides its field: an unrecognised boolean,
      TLS-wrap strategy or socket type leaves the old value instead. */
  predicate Decisive(k: Keys.Key, v: string) {
    match k
    case TLSWrapStrategy => ParseStrategy(v).Some?
    case SocketType => ParseSocketType(v).Some?
    case ChecksEKU => ParseFlag(v).Some?
    case RandomizeEndpoint => ParseFlag(v).Some?
    case UsesPIAPatches => ParseFlag(v).Some?
    case PrefersResolvedAddresses => ParseFlag(v).Some?
    case Debug => ParseFlag(v).Some?
    case MasksPrivateData => ParseFlag(v).Some?
    case _ => true
  }

  /** Whatever was in the store before, a decisive `setParam` leaves the
      same value in its key's field. */
  lemma {:induction false} LaterSetParamWins(s: Store, t: Store, k: Keys.Key, v: string, d: Decoders)
    requires Decisive(k, v)
    ensures ApplyKey(s, k, v, d).Ok? <==> ApplyKey(t, k, v, d).Ok?
    ensures ApplyKey(s, k, v, d).Ok? ==> Agree(ApplyKey(s, k, v, d).value, ApplyKey(t, k, v, d).value, Target(k))
  {
    match k
    case Username => WinsOf1(s, t, k, v, d);
    case Password => WinsOf1(s, t, k, v, d);
    case AppGroup => WinsOf1(s, t, k, v, d);
    case TunnelIdentifier => WinsOf1(s, t, k, v, d);
    case Hostname => WinsOf2(s, t, k, v, d);
    case CipherAlgorithm => WinsOf2(s, t, k, v, d);
    case DigestAlgorithm => WinsOf2(s, t, k, v, d);
    case CompressionFraming => WinsOf2(s, t, k, v, d);
    case CompressionAlgorithm => WinsOf3(s, t, k, v, d);
    case CA => WinsOf3(s, t, k, v, d);
    case ClientCertificate => WinsOf3(s, t, k, v, d);
    case ClientKey => WinsOf3(s, t, k, v, d);
    case TLSWrapStrategy => WinsOf4(s, t, k, v, d);
    case TLSWrapKeyData => WinsOf4(s, t, k, v, d);
    case TLSWrapKeyDirection => WinsOf4(s, t, k, v, d);
    case TLSSecurityLevel => WinsOf4(s, t, k, v, d);
    case KeepAliveInterval => WinsOf5(s, t, k, v, d);
    case KeepAliveTimeout => WinsOf5(s, t, k, v, d);
    case RenegotiatesAfter => WinsOf5(s, t, k, v, d);
    case SocketType => WinsOf5(s, t, k, v, d);
    case Port => WinsOf6(s, t, k, v, d);
    case ChecksEKU => WinsOf6(s, t, k, v, d);
    case RandomizeEndpoint => WinsOf6(s, t, k, v, d);
    case UsesPIAPatches => WinsOf6(s, t, k, v, d);
    case AuthToken => WinsOf7(s, t, k, v, d);
    case PeerID => WinsOf7(s, t, k, v, d);
    case IPv4Settings => WinsOf7(s, t, k, v, d);
    case IPv6Settings => WinsOf7(s, t, k, v, d);
    case DNSServers => WinsOf8(s, t, k, v, d);
    case SearchDomains => WinsOf8(s, t, k, v, d);
    case HTTPProxy => WinsOf8(s, t, k, v, d);
    case HTTPSProxy => WinsOf8(s, t, k, v, d);
    case ProxyAutoConfigurationURL => WinsOf9(s, t, k, v, d);
    case ProxyBypassDomains => WinsOf9(s, t, k, v, d);
    case RoutingPolicies => WinsOf9(s, t, k, v, d);
    case PrefersResolvedAddresses => WinsOf9(s, t, k, v, d);
    case ResolvedAddresses => WinsOf10(s, t, k, v, d);
    case MTU => WinsOf10(s, t, k, v, d);
    case Debug => WinsOf10(s, t, k, v, d);
    case DebugLogFormat => WinsOf10(s, t, k, v, d);
    case MasksPrivateData => WinsOf11(s, t, k, v, d);
    case DataCountInterval => WinsOf11(s, t, k, v, d);
  }

  /** A parameter whose own field is a session field, set after an import,
      replaces the imported value. */
  lemma ImportOverridden(s: Store, c: Configuration, k: Keys.Key, v: string, d: Decoders)
    requires Decisive(k, v) && Target(k).InSession()
    requires ApplyKey(s, k, v, d).Ok?
    ensures ApplyKey(Import(s, c), k, v, d).Ok?
    ensures Agree(ApplyKey(Import(s, c), k, v, d).value, ApplyKey(s, k, v, d).value, Target(k))
  {
    LaterSetParamWins(s, Import(s, c), k, v, d);
  }

  /** The shadow inputs do not override an import on their own. An import
      writes the endpoint list and the TLS wrap but not the socket type,
      port, strategy, key data or direction they are rebuilt from, so a
      later `SocketType` or `Port` replaces the imported endpoint list only
      once both inputs are set, and otherwise the imported list stays. */
  lemma EndpointAfterImport(s: Store, c: Configuration, k: Keys.Key, v: string, d: Decoders)
    requires k == Keys.SocketType || k == Keys.Port
    ensures ApplyKey(Import(s, c), k, v, d).Ok?
    ensures var t := ApplyKey(Import(s, c), k, v, d).value;
      && (t.socketType.Some? && t.port.Some? ==>
            t.session.endpointProtocols == Some([EndpointProtocol(t.socketType.value, t.port.value)]))
      && (t.socketType.None? || t.port.None? ==> t.session.endpointProtocols == c.endpointProtocols)
    ensures k == Keys.Port && s.socketType.None? ==>
      ApplyKey(Import(s, c), k, v, d).value.session.endpointProtocols == c.endpointProtocols
  {
  }

  /** The same holds for the TLS wrap: a later `TLSWrapStrategy`,
      `TLSWrapKeyData` or `TLSWrapKeyDirection` replaces the imported wrap
      only once both the key data and the strategy are set. */
  lemma TlsWrapAfterImport(s: Store, c: Configuration, k: Keys.Key, v: string, d: Decoders)
    requires k == Keys.TLSWrapStrategy || k == Keys.TLSWrapKeyData || k == Keys.TLSWrapKeyDirection
    ensures ApplyKey(Import(s, c), k, v, d).Ok?
    ensures var t := ApplyKey(Import(s, c), k, v, d).value;
      && (t.tlsWrapKeyData.Some? && t.tlsWrapStrategy.Some? ==>
            t.session.tlsWrap == Some(TlsWrap(t.tlsWrapStrategy.value, StaticKey(t.tlsWrapKeyData.value, t.tlsWrapKeyDirection))))
      && (t.tlsWrapKeyData.None? || t.tlsWrapStrategy.None? ==> t.session.tlsWrap == c.tlsWrap)
    ensures k == Keys.TLSWrapKeyDirection && (s.tlsWrapKeyData.None? || s.tlsWrapStrategy.None?) ==>
      ApplyKey(Import(s, c), k, v, d).value.session.tlsWrap == c.tlsWrap
  {
  }

  // The override of each key, a few keys at a time to keep each proof small.

  lemma WinsOf1(s: Store, t: Store, k: Keys.Key, v: string, d: Decoders)
    requires k == Keys.Username || k == Keys.Password || k == Keys.AppGroup || k == Keys.TunnelIdentifier
    requires Decisive(k, v)
    ensures ApplyKey(s, k, v, d).Ok? <==> ApplyKey(t, k, v, d).Ok?
    ensures ApplyKey(s, k, v, d).Ok? ==> Agree(ApplyKey(s, k, v, d).value, ApplyKey(t, k, v, d).value, Target(k))
  {
    match k
    case Username =>
    case Password =>
    case AppGroup =>
    case TunnelIdentifier =>
  }

  lemma WinsOf2(s: Store, t: Store, k: Keys.Key, v: string, d: Decoders)
    requires k == Keys.Hostname || k == Keys.CipherAlgorithm || k == Keys.DigestAlgorithm || k == Keys.CompressionFraming
    requires Decisive(k, v)
    ensures ApplyKey(s, k, v, d).Ok? <==> ApplyKey(t, k, v, d).Ok?
    ensures ApplyKey(s, k, v, d).Ok? ==> Agree(ApplyKey(s, k, v, d).value, ApplyKey(t, k, v, d).value, Target(k))
  {
    match k
    case Hostname =>
    case CipherAlgorithm =>
    case DigestAlgorithm =>
    case CompressionFraming =>
  }

  lemma WinsOf3(s: Store, t: Store, k: Keys.Key, v: string, d: Decoders)
    requires k == Keys.CompressionAlgorithm || k == Keys.CA || k == Keys.ClientCertificate || k == Keys.ClientKey
    requires Decisive(k, v)
    ensures ApplyKey(s, k, v, d).Ok? <==> ApplyKey(t, k, v, d).Ok?
    ensures ApplyKey(s, k, v, d).Ok? ==> Agree(ApplyKey(s, k, v, d).value, ApplyKey(t, k, v, d).value, Target(k))
  {
    match k
    case CompressionAlgorithm =>
    case CA =>
    case ClientCertificate =>
    case ClientKey =>
  }

  lemma WinsOf4(s: Store, t: Store, k: Keys.Key, v: string, d: Decoders)
    requires k == Keys.TLSWrapStrategy || k == Keys.TLSWrapKeyData || k == Keys.TLSWrapKeyDirection || k == Keys.TLSSecurityLevel
    requires Decisive(k, v)
    ensures ApplyKey(s, k, v, d).Ok? <==> ApplyKey(t, k, v, d).Ok?
    ensures ApplyKey(s, k, v, d).Ok? ==> Agree(ApplyKey(s, k, v, d).value, ApplyKey(t, k, v, d).value, Target(k))
  {
    match k
    case TLSWrapStrategy =>
    case TLSWrapKeyData =>
    case TLSWrapKeyDirection =>
    case TLSSecurityLevel =>
  }

  lemma WinsOf5(s: Store, t: Store, k: Keys.Key, v: string, d: Decoders)
    requires k == Keys.KeepAliveInterval || k == Keys.KeepAliveTimeout || k == Keys.RenegotiatesAfter || k == Keys.SocketType
    requires Decisive(k, v)
    ensures ApplyKey(s, k, v, d).Ok? <==> ApplyKey(t, k, v, d).Ok?
    ensures ApplyKey(s, k, v, d).Ok? ==> Agree(ApplyKey(s, k, v, d).value, ApplyKey(t, k, v, d).value, Target(k))
  {
    match k
    case KeepAliveInterval =>
    case KeepAliveTimeout =>
    case RenegotiatesAfter =>
    case SocketType =>
  }

  lemma WinsOf6(s: Store, t: Store, k: Keys.Key, v: string, d: Decoders)
    requires k == Keys.Port || k == Keys.ChecksEKU || k == Keys.RandomizeEndpoint || k == Keys.UsesPIAPatches
    requires Decisive(k, v)
    ensures ApplyKey(s, k, v, d).Ok? <==> ApplyKey(t, k, v, d).Ok?
    ensures ApplyKey(s, k, v, d).Ok? ==> Agree(ApplyKey(s, k, v, d).value, ApplyKey(t, k, v, d).value, Target(k))
  {
    match k
    case Port =>
    case ChecksEKU =>
    case RandomizeEndpoint =>
    case UsesPIAPatches =>
  }

  lemma WinsOf7(s: Store, t: Store, k: Keys.Key, v: string, d: Decoders)
    requires k == Keys.AuthToken || k == Keys.PeerID || k == Keys.IPv4Settings || k == Keys.IPv6Settings
    requires Decisive(k, v)
    ensures ApplyKey(s, k, v, d).Ok? <==> ApplyKey(t, k, v, d).Ok?
    ensures ApplyKey(s, k, v, d).Ok? ==> Agree(ApplyKey(s, k, v, d).value, ApplyKey(t, k, v, d).value, Target(k))
  {
    match k
    case AuthToken =>
    case PeerID =>
    case IPv4Settings =>
    case IPv6Settings =>
  }

  lemma WinsOf8(s: Store, t: Store, k: Keys.Key, v: string, d: Decoders)
    requires k == Keys.DNSServers || k == Keys.SearchDomains || k == Keys.HTTPProxy || k == Keys.HTTPSProxy
    requires Decisive(k, v)
    ensures ApplyKey(s, k, v, d).Ok? <==> ApplyKey(t, k, v, d).Ok?
    ensures ApplyKey(s, k, v, d).Ok? ==> Agree(ApplyKey(s, k, v, d).value, ApplyKey(t, k, v, d).value, Target(k))
  {
    match k
    case DNSServers =>
    case SearchDomains =>
    case HTTPProxy =>
    case HTTPSProxy =>
  }

  lemma WinsOf9(s: Store, t: Store, k: Keys.Key, v: string, d: Decoders)
    requires k == Keys.ProxyAutoConfigurationURL || k == Keys.ProxyBypassDomains || k == Keys.RoutingPolicies || k == Keys.PrefersResolvedAddresses
    requires Decisive(k, v)
    ensures ApplyKey(s, k, v, d).Ok? <==> ApplyKey(t, k, v, d).Ok?
    ensures ApplyKey(s, k, v, d).Ok? ==> Agree(ApplyKey(s, k, v, d).value, ApplyKey(t, k, v, d).value, Target(k))
  {
    match k
    case ProxyAutoConfigurationURL =>
    case ProxyBypassDomains =>
    case RoutingPolicies =>
    case PrefersResolvedAddresses =>
  }

  lemma WinsOf10(s: Store, t: Store, k: Keys.Key, v: string, d: Decoders)
    requires k == Keys.ResolvedAddresses || k == Keys.MTU || k == Keys.Debug || k == Keys.DebugLogFormat
    requires Decisive(k, v)
    ensures ApplyKey(s, k, v, d).Ok? <==> ApplyKey(t, k, v, d).Ok?
    ensures ApplyKey(s, k, v, d).Ok? ==> Agree(ApplyKey(s, k, v, d).value, ApplyKey(t, k, v, d).value, Target(k))
  {
    match k
    case ResolvedAddresses =>
    case MTU =>
    case Debug =>
    case DebugLogFormat =>
  }

  lemma WinsOf11(s: Store, t: Store, k: Keys.Key, v: string, d: Decoders)
    requires k == Keys.MasksPrivateData || k == Keys.DataCountInterval
    requires Decisive(k, v)
    ensures ApplyKey(s, k, v, d).Ok? <==> ApplyKey(t, k, v, d).Ok?
    ensures ApplyKey(s, k, v, d).Ok? ==> Agree(ApplyKey(s, k, v, d).value, ApplyKey(t, k, v, d).value, Target(k))
  {
    match k
    case MasksPrivateData =>
    case DataCountInterval =>
  }
}

=== FILE: params.dfy ===
/** The native parameter store: `setParam`, `setup`, `setCredentials`, the
    import of a parsed configuration and `build`, as pure functions from one
    `Store` to the next. */
module Params {
  import opened Base
  import opened Decimal
  import opened Session
  import opened Text
  import Keys

  /** The libraries `setParam` hands a value to: Foundation's `Double(_:)`
      and `URL(string:)`, and `JSONDecoder` for each decoded type. Each
      answers `None` where the library returns `nil` or throws. */
  datatype Decoders = Decoders(
    double: string -> Option<Double>,
    url: string -> Option<Url>,
    ipv4: string -> Option<IPv4Settings>,
    ipv6: string -> Option<IPv6Settings>,
    strings: string -> Option<seq<string>>,
    proxy: string -> Option<Proxy>,
    policies: string -> Option<seq<RoutingPolicy>>)

  /** Why `setParam` did not store its value: the key is not one it knows
      (it returns `false`), or a JSON value did not decode (it throws). */
  datatype Rejection = UnknownParameter | DecodeFailure

  // ---------------------------------------------------------------------------
  // Derived session fields

  /** `setTlsWrap`: once both the key data and the strategy are known, the
      builder's `tlsWrap` is rebuilt from them and the optional direction. */
  function RebuildTlsWrap(s: Store): Store {
    match (s.tlsWrapKeyData, s.tlsWrapStrategy)
    case (Some(data), Some(strategy)) =>
      s.(session := s.session.(tlsWrap := Some(TlsWrap(strategy, StaticKey(data, s.tlsWrapKeyDirection)))))
    case _ => s
  }

  /** `setEndpointProtocol`: once both the socket type and the port are
      known, the builder's endpoint list becomes that single endpoint. */
  function RebuildEndpoint(s: Store): Store {
    match (s.socketType, s.port)
    case (Some(t), Some(p)) => s.(session := s.session.(endpointProtocols := Some([EndpointProtocol(t, p)])))
    case _ => s
  }

  // ---------------------------------------------------------------------------
  // setParam

  /** The `Credentials` and `TunnelExtension` cases: plain strings kept
      by the module itself. Other keys do not reach this function. */
  function ApplyAccount(s: Store, k: Keys.Key, v: string): Store {
    match k
    case Username => s.(username := Some(v))
    case Password => s.(password := Some(v))
    case AppGroup => s.(appGroup := Some(v))
    case TunnelIdentifier => s.(tunnelIdentifier := Some(v))
    case _ => s
  }

  /** The `SessionConfiguration` cases that write one builder field from
      the value alone: text, the enumerated values (an unknown spelling
      clears the field), numbers, booleans (an unknown spelling keeps the
      field) and the URL. Other keys do not reach this function. */
  function ApplySession(c: Configuration, k: Keys.Key, v: string, d: Decoders): Configuration {
    match k
    case Hostname => c.(hostname := Some(v))
    case CipherAlgorithm => c.(cipher := ParseCipher(v))
    case DigestAlgorithm => c.(digest := ParseDigest(v))
    case CompressionFraming => c.(compressionFraming := ParseFraming(v))
    case CompressionAlgorithm => c.(compressionAlgorithm := ParseAlgorithm(v))
    case CA => c.(ca := Some(CryptoContainer(v)))
    case ClientCertificate => c.(clientCertificate := Some(CryptoContainer(v)))
    case ClientKey => c.(clientKey := Some(CryptoContainer(v)))
    case TLSSecurityLevel => c.(tlsSecurityLevel := Some(ParseInt(v).OrElse(0)))
    case KeepAliveInterval => c.(keepAliveInterval := d.double(v))
    case KeepAliveTimeout => c.(keepAliveTimeout := d.double(v))
    case RenegotiatesAfter => c.(renegotiatesAfter := d.double(v))
    case ChecksEKU => (match ParseFlag(v) case Some(b) => c.(checksEKU := Some(b)) case None => c)
    case RandomizeEndpoint => (match ParseFlag(v) case Some(b) => c.(randomizeEndpoint := Some(b)) case None => c)
    case UsesPIAPatches => (match ParseFlag(v) case Some(b) => c.(usesPIAPatches := Some(b)) case None => c)
    case AuthToken => c.(authToken := Some(v))
    case PeerID => c.(peerId := ParseUInt32(v))
    case ProxyAutoConfigurationURL => c.(proxyAutoConfigurationURL := d.url(v))
    case _ => c
  }

  /** The `SessionConfiguration` cases whose value is JSON: `None` when
      the decoder throws. Other keys do not reach this function. */
  function ApplyJson(c: Configuration, k: Keys.Key, v: string, d: Decoders): Option<Configuration> {
    match k
    case IPv4Settings => (match d.ipv4(v) case Some(x) => Some(c.(ipv4 := Some(x))) case None => None)
    case IPv6Settings => (match d.ipv6(v) case Some(x) => Some(c.(ipv6 := Some(x))) case None => None)
    case DNSServers => (match d.strings(v) case Some(x) => Some(c.(dnsServers := Some(x))) case None => None)
    case SearchDomains => (match d.strings(v) case Some(x) => Some(c.(searchDomains := Some(x))) case None => None)
    case HTTPProxy => (match d.proxy(v) case Some(x) => Some(c.(httpProxy := Some(x))) case None => None)
    case HTTPSProxy => (match d.proxy(v) case Some(x) => Some(c.(httpsProxy := Some(x))) case None => None)
    case ProxyBypassDomains => (match d.strings(v) case Some(x) => Some(c.(proxyBypassDomains := Some(x))) case None => None)
    case RoutingPolicies => (match d.policies(v) case Some(x) => Some(c.(routingPolicies := Some(x))) case None => None)
    case _ => Some(c)
  }

  /** The shadow inputs of `tlsWrap`: an unknown strategy keeps the old
      one, an unknown direction clears it. Other keys do not reach this
      function. */
  function ApplyTlsWrapInput(s: Store, k: Keys.Key, v: string): Store {
    match k
    case TLSWrapStrategy => (match ParseStrategy(v) case Some(x) => s.(tlsWrapStrategy := Some(x)) case None => s)
    case TLSWrapKeyData => s.(tlsWrapKeyData := Some(v))
    case TLSWrapKeyDirection => s.(tlsWrapKeyDirection := ParseDirection(v))
    case _ => s
  }

  /** The shadow inputs of the endpoint: an unknown socket type keeps the
      old one, an unparsable port clears it. Other keys do not reach this
      function. */
  function ApplyEndpointInput(s: Store, k: Keys.Key, v: string): Store {
    match k
    case SocketType => (match ParseSocketType(v) case Some(t) => s.(socketType := Some(t)) case None => s)
    case Port => s.(port := ParseUInt16(v))
    case _ => s
  }

  /** The `Customization` and `Debugging` cases, written to the provider
      settings. Other keys do not reach this function. */
  function ApplyProvider(p: ProviderSettings, k: Keys.Key, v: string, d: Decoders): Option<ProviderSettings> {
    match k
    case PrefersResolvedAddresses =>
      Some(match ParseFlag(v) case Some(b) => p.(prefersResolvedAddresses := Some(b)) case None => p)
    case ResolvedAddresses => (match d.strings(v) case Some(x) => Some(p.(resolvedAddresses := Some(x))) case None => None)
    case MTU => Some(p.(mtu := ParseInt(v)))
    case Debug => Some(match ParseFlag(v) case Some(b) => p.(shouldDebug := Some(b)) case None => p)
    case DebugLogFormat => Some(p.(debugLogFormat := Some(v)))
    case MasksPrivateData => Some(match ParseFlag(v) case Some(b) => p.(masksPrivateData := Some(b)) case None => p)
    case _ => Some(p)
  }

  /** The body of one `case` of `setParam`'s `switch key`. */
  /** The case of the `setParam` switch for a known key. Only a JSON value
      that does not decode is refused. */
  function ApplyKey(s: Store, k: Keys.Key, v: string, d: Decoders): (r: Result<Store, Rejection>)
    ensures r.Err? ==> r == Err(DecodeFailure) && k in JsonKeys
  {
    match k
    case Username | Password | AppGroup | TunnelIdentifier => Ok(ApplyAccount(s, k, v))
    case TLSWrapStrategy | TLSWrapKeyData | TLSWrapKeyDirection => Ok(RebuildTlsWrap(ApplyTlsWrapInput(s, k, v)))
    case SocketType | Port => Ok(RebuildEndpoint(ApplyEndpointInput(s, k, v)))
    case IPv4Settings | IPv6Settings | DNSServers | SearchDomains | HTTPProxy | HTTPSProxy | ProxyBypassDomains | RoutingPolicies =>
      (match ApplyJson(s.session, k, v, d) case Some(c) => Ok(s.(session := c)) case None => Err(DecodeFailure))
    case PrefersResolvedAddresses | ResolvedAddresses | MTU | Debug | DebugLogFormat | MasksPrivateData =>
      (match ApplyProvider(s.providerSettings, k, v, d) case Some(p) => Ok(s.(providerSettings := p)) case None => Err(DecodeFailure))
    case DataCountInterval => Ok(s.(dataCountInterval := ParseInt(v).OrElse(DefaultDataCountInterval)))
    case _ => Ok(s.(session := ApplySession(s.session, k, v, d)))
  }

  /** `setParam(key, value)`. A key outside the closed list is refused
      (the function returns `false`) and nothing is written; a JSON value
      that does not decode is refused (the function throws) and nothing is
      written either. */
  function SetParam(s: Store, key: string, v: string, d: Decoders): (r: Result<Store, Rejection>)
    ensures r == Err(UnknownParameter) <==> forall k :: Keys.KeyName(k) != Keys.Canonical(key)
    ensures r != Err(UnknownParameter) ==> Keys.ParseKey(key).Some? && r == ApplyKey(s, Keys.ParseKey(key).value, v, d)
    ensures r == Err(DecodeFailure) ==> Keys.ParseKey(key).Some? && Keys.ParseKey(key).value in JsonKeys
  {
    Keys.UnknownKeyIffNoName(key);
    match Keys.ParseKey(key)
    case Some(k) =>
      DecodeFailureOnlyForJson(s, k, v, d);
      ApplyKey(s, k, v, d)
    case None => Err(UnknownParameter)
  }

  /** The keys whose value is JSON text for `JSONDecoder`. */
  const JsonKeys: set<Keys.Key> := {
    Keys.IPv4Settings, Keys.IPv6Settings, Keys.DNSServers, Keys.SearchDomains,
    Keys.HTTPProxy, Keys.HTTPSProxy, Keys.ProxyBypassDomains, Keys.RoutingPolicies,
    Keys.ResolvedAddresses }

  /** Only a JSON key can throw, and a JSON key throws exactly when its
      decoder fails. */
  lemma DecodeFailureOnlyForJson(s: Store, k: Keys.Key, v: string, d: Decoders)
    ensures ApplyKey(s, k, v, d).Err? ==> k in JsonKeys
    ensures ApplyKey(s, k, v, d) != Err(UnknownParameter)
  {
  }

  // ---------------------------------------------------------------------------
  // Which parts of the store an operation writes

  /** One field of the store: a session-builder field, one of the module's
      own fields, or a provider setting. */
  datatype Slot =
    | HostnameSlot | CipherSlot | DigestSlot | CompressionFramingSlot
    | CompressionAlgorithmSlot | CaSlot | ClientCertificateSlot | ClientKeySlot
    | TlsWrapSlot | TlsSecurityLevelSlot | KeepAliveIntervalSlot | KeepAliveTimeoutSlot
    | RenegotiatesAfterSlot | EndpointProtocolsSlot | ChecksEKUSlot | RandomizeEndpointSlot
    | UsesPIAPatchesSlot | AuthTokenSlot | PeerIdSlot | Ipv4Slot
    | Ipv6Slot | DnsServersSlot | SearchDomainsSlot | HttpProxySlot
    | HttpsProxySlot | ProxyAutoConfigurationURLSlot | ProxyBypassDomainsSlot | RoutingPoliciesSlot
    | BuiltSessionSlot | AppGroupSlot | TunnelIdentifierSlot | UsernameSlot
    | PasswordSlot | TlsWrapStrategySlot | TlsWrapKeyDataSlot | TlsWrapKeyDirectionSlot
    | SocketTypeSlot | PortSlot | PrefersResolvedAddressesSlot | ResolvedAddressesSlot
    | MtuSlot | ShouldDebugSlot | DebugLogFormatSlot | MasksPrivateDataSlot
    | DataCountIntervalSlot
  {
    /** A field of the session builder, the part an import overwrites. */
    predicate InSession() {
      HostnameSlot? || CipherSlot? || DigestSlot? || CompressionFramingSlot?
      || CompressionAlgorithmSlot? || CaSlot? || ClientCertificateSlot? || ClientKeySlot?
      || TlsWrapSlot? || TlsSecurityLevelSlot? || KeepAliveIntervalSlot? || KeepAliveTimeoutSlot?
      || RenegotiatesAfterSlot? || EndpointProtocolsSlot? || ChecksEKUSlot? || RandomizeEndpointSlot?
      || UsesPIAPatchesSlot? || AuthTokenSlot? || PeerIdSlot? || Ipv4Slot?
      || Ipv6Slot? || DnsServersSlot? || SearchDomainsSlot? || HttpProxySlot?
      || HttpsProxySlot? || ProxyAutoConfigurationURLSlot? || ProxyBypassDomainsSlot? || RoutingPoliciesSlot?
    }
  }

  /** `a` and `b` hold the same value in `slot`. */
  predicate Agree(a: Store, b: Store, slot: Slot) {
    match slot
    case HostnameSlot => a.session.hostname == b.session.hostname
    case CipherSlot => a.session.cipher == b.session.cipher
    case DigestSlot => a.session.digest == b.session.digest
    case CompressionFramingSlot => a.session.compressionFraming == b.session.compressionFraming
    case CompressionAlgorithmSlot => a.session.compressionAlgorithm == b.session.compressionAlgorithm
    case CaSlot => a.session.ca == b.session.ca
    case ClientCertificateSlot => a.session.clientCertificate == b.session.clientCertificate
    case ClientKeySlot => a.session.clientKey == b.session.clientKey
    case TlsWrapSlot => a.session.tlsWrap == b.session.tlsWrap
    case TlsSecurityLevelSlot => a.session.tlsSecurityLevel == b.session.tlsSecurityLevel
    case KeepAliveIntervalSlot => a.session.keepAliveInterval == b.session.keepAliveInterval
    case KeepAliveTimeoutSlot => a.session.keepAliveTimeout == b.session.keepAliveTimeout
    case RenegotiatesAfterSlot => a.session.renegotiatesAfter == b.session.renegotiatesAfter
    case EndpointProtocolsSlot => a.session.endpointProtocols == b.session.endpointProtocols
    case ChecksEKUSlot => a.session.checksEKU == b.session.checksEKU
    case RandomizeEndpointSlot => a.session.randomizeEndpoint == b.session.randomizeEndpoint
    case UsesPIAPatchesSlot => a.session.usesPIAPatches == b.session.usesPIAPatches
    case AuthTokenSlot => a.session.authToken == b.session.authToken
    case PeerIdSlot => a.session.peerId == b.session.peerId
    case Ipv4Slot => a.session.ipv4 == b.session.ipv4
    case Ipv6Slot => a.session.ipv6 == b.session.ipv6
    case DnsServersSlot => a.session.dnsServers == b.session.dnsServers
    case SearchDomainsSlot => a.session.searchDomains == b.session.searchDomains
    case HttpProxySlot => a.session.httpProxy == b.session.httpProxy
    case HttpsProxySlot => a.session.httpsProxy == b.session.httpsProxy
    case ProxyAutoConfigurationURLSlot => a.session.proxyAutoConfigurationURL == b.session.proxyAutoConfigurationURL
    case ProxyBypassDomainsSlot => a.session.proxyBypassDomains == b.session.proxyBypassDomains
    case RoutingPoliciesSlot => a.session.routingPolicies == b.session.routingPolicies
    case BuiltSessionSlot => a.builtSession == b.builtSession
    case AppGroupSlot => a.appGroup == b.appGroup
    case TunnelIdentifierSlot => a.tunnelIdentifier == b.tunnelIdentifier
    case UsernameSlot => a.username == b.username
    case PasswordSlot => a.password == b.password
    case TlsWrapStrategySlot => a.tlsWrapStrategy == b.tlsWrapStrategy
    case TlsWrapKeyDataSlot => a.tlsWrapKeyData == b.tlsWrapKeyData
    case TlsWrapKeyDirectionSlot => a.tlsWrapKeyDirection == b.tlsWrapKeyDirection
    case SocketTypeSlot => a.socketType == b.socketType
    case PortSlot => a.port == b.port
    case PrefersResolvedAddressesSlot => a.providerSettings.prefersResolvedAddresses == b.providerSettings.prefersResolvedAddresses
    case ResolvedAddressesSlot => a.providerSettings.resolvedAddresses == b.providerSettings.resolvedAddresses
    case MtuSlot => a.providerSettings.mtu == b.providerSettings.mtu
    case ShouldDebugSlot => a.providerSettings.shouldDebug == b.providerSettings.shouldDebug
    case DebugLogFormatSlot => a.providerSettings.debugLogFormat == b.providerSettings.debugLogFormat
    case MasksPrivateDataSlot => a.providerSettings.masksPrivateData == b.providerSettings.masksPrivateData
    case DataCountIntervalSlot => a.dataCountInterval == b.dataCountInterval
  }

  /** The field each key's value is stored in. */
  function Target(k: Keys.Key): Slot {
    match k
    case Username => UsernameSlot
    case Password => PasswordSlot
    case AppGroup => AppGroupSlot
    case TunnelIdentifier => TunnelIdentifierSlot
    case Hostname => HostnameSlot
    case CipherAlgorithm => CipherSlot
    case DigestAlgorithm => DigestSlot
    case CompressionFraming => CompressionFramingSlot
    case CompressionAlgorithm => CompressionAlgorithmSlot
    case CA => CaSlot
    case ClientCertificate => ClientCertificateSlot
    case ClientKey => ClientKeySlot
    case TLSWrapStrategy => TlsWrapStrategySlot
    case TLSWrapKeyData => TlsWrapKeyDataSlot
    case TLSWrapKeyDirection => TlsWrapKeyDirectionSlot
    case TLSSecurityLevel => TlsSecurityLevelSlot
    case KeepAliveInterval => KeepAliveIntervalSlot
    case KeepAliveTimeout => KeepAliveTimeoutSlot
    case RenegotiatesAfter => RenegotiatesAfterSlot
    case SocketType => SocketTypeSlot
    case Port => PortSlot
    case ChecksEKU => ChecksEKUSlot
    case RandomizeEndpoint => RandomizeEndpointSlot
    case UsesPIAPatches => UsesPIAPatchesSlot
    case AuthToken => AuthTokenSlot
    case PeerID => PeerIdSlot
    case IPv4Settings => Ipv4Slot
    case IPv6Settings => Ipv6Slot
    case DNSServers => DnsServersSlot
    case SearchDomains => SearchDomainsSlot
    case HTTPProxy => HttpProxySlot
    case HTTPSProxy => HttpsProxySlot
    case ProxyAutoConfigurationURL => ProxyAutoConfigurationURLSlot
    case ProxyBypassDomains => ProxyBypassDomainsSlot
    case RoutingPolicies => RoutingPoliciesSlot
    case PrefersResolvedAddresses => PrefersResolvedAddressesSlot
    case ResolvedAddresses => ResolvedAddressesSlot
    case MTU => MtuSlot
    case Debug => ShouldDebugSlot
    case DebugLogFormat => DebugLogFormatSlot
    case MasksPrivateData => MasksPrivateDataSlot
    case DataCountInterval => DataCountIntervalSlot
  }

  /** The keys whose value feeds `tlsWrap`, and those that feed the endpoint. */
  const TlsWrapKeys: set<Keys.Key> := {Keys.TLSWrapStrategy, Keys.TLSWrapKeyData, Keys.TLSWrapKeyDirection}
  const EndpointKeys: set<Keys.Key> := {Keys.SocketType, Keys.Port}

  /** Every field a key may write: its own, and the derived field it feeds. */
  function Writes(k: Keys.Key): set<Slot> {
    {Target(k)}
      + (if k in TlsWrapKeys then {TlsWrapSlot} else {})
      + (if k in EndpointKeys then {EndpointProtocolsSlot} else {})
  }

  /** Nothing else changes: an accepted `setParam` leaves every field
      outside the key's own and its derived field as it was. */
  lemma {:induction false} SetParamFrame(s: Store, k: Keys.Key, v: string, d: Decoders)
    ensures ApplyKey(s, k, v, d).Ok? ==> forall slot :: slot !in Writes(k) ==> Agree(s, ApplyKey(s, k, v, d).value, slot)
  {
    match k
    case Username => FrameOf1(s, k, v, d);
    case Password => FrameOf1(s, k, v, d);
    case AppGroup => FrameOf1(s, k, v, d);
    case TunnelIdentifier => FrameOf2(s, k, v, d);
    case Hostname => FrameOf2(s, k, v, d);
    case CipherAlgorithm => FrameOf2(s, k, v, d);
    case DigestAlgorithm => FrameOf3(s, k, v, d);
    case CompressionFraming => FrameOf3(s, k, v, d);
    case CompressionAlgorithm => FrameOf3(s, k, v, d);
    case CA => FrameOf4(s, k, v, d);
    case ClientCertificate => FrameOf4(s, k, v, d);
    case ClientKey => FrameOf4(s, k, v, d);
    case TLSWrapStrategy => FrameOf5(s, k, v, d);
    case TLSWrapKeyData => FrameOf5(s, k, v, d);
    case TLSWrapKeyDirection => FrameOf5(s, k, v, d);
    case TLSSecurityLevel => FrameOf6(s, k, v, d);
    case KeepAliveInterval => FrameOf6(s, k, v, d);
    case KeepAliveTimeout => FrameOf6(s, k, v, d);
    case RenegotiatesAfter => FrameOf7(s, k, v, d);
    case SocketType => FrameOf7(s, k, v, d);
    case Port => FrameOf7(s, k, v, d);
    case ChecksEKU => FrameOf8(s, k, v, d);
    case RandomizeEndpoint => FrameOf8(s, k, v, d);
    case UsesPIAPatches => FrameOf8(s, k, v, d);
    case AuthToken => FrameOf9(s, k, v, d);
    case PeerID => FrameOf9(s, k, v, d);
    case IPv4Settings => FrameOf9(s, k, v, d);
    case IPv6Settings => FrameOf10(s, k, v, d);
    case DNSServers => FrameOf10(s, k, v, d);
    case SearchDomains => FrameOf10(s, k, v, d);
    case HTTPProxy => FrameOf11(s, k, v, d);
    case HTTPSProxy => FrameOf11(s, k, v, d);
    case ProxyAutoConfigurationURL => FrameOf11(s, k, v, d);
    case ProxyBypassDomains => FrameOf12(s, k, v, d);
    case RoutingPolicies => FrameOf12(s, k, v, d);
    case PrefersResolvedAddresses => FrameOf12(s, k, v, d);
    case ResolvedAddresses => FrameOf13(s, k, v, d);
    case MTU => FrameOf13(s, k, v, d);
    case Debug => FrameOf13(s, k, v, d);
    case DebugLogFormat => FrameOf14(s, k, v, d);
    case MasksPrivateData => FrameOf14(s, k, v, d);
    case DataCountInterval => FrameOf14(s, k, v, d);
  }

  // The frame of each key, a few keys at a time to keep each proof small.

  lemma FrameOf1(s: Store, k: Keys.Key, v: string, d: Decoders)
    requires k == Keys.Username || k == Keys.Password || k == Keys.AppGroup
    ensures ApplyKey(s, k, v, d).Ok? ==> forall slot :: slot !in Writes(k) ==> Agree(s, ApplyKey(s, k, v, d).value, slot)
  {
    match k
    case Username =>
    case Password =>
    case AppGroup =>
  }

  lemma FrameOf2(s: Store, k: Keys.Key, v: string, d: Decoders)
    requires k == Keys.TunnelIdentifier || k == Keys.Hostname || k == Keys.CipherAlgorithm
    ensures ApplyKey(s, k, v, d).Ok? ==> forall slot :: slot !in Writes(k) ==> Agree(s, ApplyKey(s, k, v, d).value, slot)
  {
    match k
    case TunnelIdentifier =>
    case Hostname =>
    case CipherAlgorithm =>
  }

  lemma FrameOf3(s: Store, k: Keys.Key, v: string, d: Decoders)
    requires k == Keys.DigestAlgorithm || k == Keys.CompressionFraming || k == Keys.CompressionAlgorithm
    ensures ApplyKey(s, k, v, d).Ok? ==> forall slot :: slot !in Writes(k) ==> Agree(s, ApplyKey(s, k, v, d).value, slot)
  {
    match k
    case DigestAlgorithm =>
    case CompressionFraming =>
    case CompressionAlgorithm =>
  }

  lemma FrameOf4(s: Store, k: Keys.Key, v: string, d: Decoders)
    requires k == Keys.CA || k == Keys.ClientCertificate || k == Keys.ClientKey
    ensures ApplyKey(s, k, v, d).Ok? ==> forall slot :: slot !in Writes(k) ==> Agree(s, ApplyKey(s, k, v, d).value, slot)
  {
    match k
    case CA =>
    case ClientCertificate =>
    case ClientKey =>
  }

  lemma FrameOf5(s: Store, k: Keys.Key, v: string, d: Decoders)
    requires k == Keys.TLSWrapStrategy || k == Keys.TLSWrapKeyData || k == Keys.TLSWrapKeyDirection
    ensures ApplyKey(s, k, v, d).Ok? ==> forall slot :: slot !in Writes(k) ==> Agree(s, ApplyKey(s, k, v, d).value, slot)
  {
    match k
    case TLSWrapStrategy =>
    case TLSWrapKeyData =>
    case TLSWrapKeyDirection =>
  }

  lemma FrameOf6(s: Store, k: Keys.Key, v: string, d: Decoders)
    requires k == Keys.TLSSecurityLevel || k == Keys.KeepAliveInterval || k == Keys.KeepAliveTimeout
    ensures ApplyKey(s, k, v, d).Ok? ==> forall slot :: slot !in Writes(k) ==> Agree(s, ApplyKey(s, k, v, d).value, slot)
  {
    match k
    case TLSSecurityLevel =>
    case KeepAliveInterval =>
    case KeepAliveTimeout =>
  }

  lemma FrameOf7(s: Store, k: Keys.Key, v: string, d: Decoders)
    requires k == Keys.RenegotiatesAfter || k == Keys.SocketType || k == Keys.Port
    ensures ApplyKey(s, k, v, d).Ok? ==> forall slot :: slot !in Writes(k) ==> Agree(s, ApplyKey(s, k, v, d).value, slot)
  {
    match k
    case RenegotiatesAfter =>
    case SocketType =>
    case Port =>
  }

  lemma FrameOf8(s: Store, k: Keys.Key, v: string, d: Decoders)
    requires k == Keys.ChecksEKU || k == Keys.RandomizeEndpoint || k == Keys.UsesPIAPatches
    ensures ApplyKey(s, k, v, d).Ok? ==> forall slot :: slot !in Writes(k) ==> Agree(s, ApplyKey(s, k, v, d).value, slot)
  {
    match k
    case ChecksEKU =>
    case RandomizeEndpoint =>
    case UsesPIAPatches =>
  }

  lemma FrameOf9(s: Store, k: Keys.Key, v: string, d: Decoders)
    requires k == Keys.AuthToken || k == Keys.PeerID || k == Keys.IPv4Settings
    ensures ApplyKey(s, k, v, d).Ok? ==> forall slot :: slot !in Writes(k) ==> Agree(s, ApplyKey(s, k, v, d).value, slot)
  {
    match k
    case AuthToken =>
    case PeerID =>
    case IPv4Settings =>
  }

  lemma FrameOf10(s: Store, k: Keys.Key, v: string, d: Decoders)
    requires k == Keys.IPv6Settings || k == Keys.DNSServers || k == Keys.SearchDomains
    ensures ApplyKey(s, k, v, d).Ok? ==> forall slot :: slot !in Writes(k) ==> Agree(s, ApplyKey(s, k, v, d).value, slot)
  {
    match k
    case IPv6Settings =>
    case DNSServers =>
    case SearchDomains =>
  }

  lemma FrameOf11(s: Store, k: Keys.Key, v: string, d: Decoders)
    requires k == Keys.HTTPProxy || k == Keys.HTTPSProxy || k == Keys.ProxyAutoConfigurationURL
    ensures ApplyKey(s, k, v, d).Ok? ==> forall slot :: slot !in Writes(k) ==> Agree(s, ApplyKey(s, k, v, d).value, slot)
  {
    match k
    case HTTPProxy =>
    case HTTPSProxy =>
    case ProxyAutoConfigurationURL =>
  }

  lemma FrameOf12(s: Store, k: Keys.Key, v: string, d: Decoders)
    requires k == Keys.ProxyBypassDomains || k == Keys.RoutingPolicies || k == Keys.PrefersResolvedAddresses
    ensures ApplyKey(s, k, v, d).Ok? ==> forall slot :: slot !in Writes(k) ==> Agree(s, ApplyKey(s, k, v, d).value, slot)
  {
    match k
    case ProxyBypassDomains =>
    case RoutingPolicies =>
    case PrefersResolvedAddresses =>
  }

  lemma FrameOf13(s: Store, k: Keys.Key, v: string, d: Decoders)
    requires k == Keys.ResolvedAddresses || k == Keys.MTU || k == Keys.Debug
    ensures ApplyKey(s, k, v, d).Ok? ==> forall slot :: slot !in Writes(k) ==> Agree(s, ApplyKey(s, k, v, d).value, slot)
  {
    match k
    case ResolvedAddresses =>
    case MTU =>
    case Debug =>
  }

  lemma FrameOf14(s: Store, k: Keys.Key, v: string, d: Decoders)
    requires k == Keys.DebugLogFormat || k == Keys.MasksPrivateData || k == Keys.DataCountInterval
    ensures ApplyKey(s, k, v, d).Ok? ==> forall slot :: slot !in Writes(k) ==> Agree(s, ApplyKey(s, k, v, d).value, slot)
  {
    match k
    case DebugLogFormat =>
    case MasksPrivateData =>
    case DataCountInterval =>
  }

  // ---------------------------------------------------------------------------
  // Other writers of the store

  /** `setup(appGroup, tunnelIdentifier)`. */
  function Setup(s: Store, appGroup: string, tunnelIdentifier: string): (r: Store)
    ensures r.appGroup == Some(appGroup) && r.tunnelIdentifier == Some(tunnelIdentifier)
    ensures forall slot: Slot :: slot !in {AppGroupSlot, TunnelIdentifierSlot} ==> Agree(s, r, slot)
  {
    s.(appGroup := Some(appGroup), tunnelIdentifier := Some(tunnelIdentifier))
  }

  /** `setCredentials(username, password)`. */
  function SetCredentials(s: Store, username: string, password: string): (r: Store)
    ensures r.username == Some(username) && r.password == Some(password)
    ensures forall slot: Slot :: slot !in {UsernameSlot, PasswordSlot} ==> Agree(s, r, slot)
  {
    s.(username := Some(username), password := Some(password))
  }

  /** `assignConfigurationParams` together with the `builtSession`
      assignment before it: the 28 session fields are copied from the parsed
      configuration and the configuration is kept as the built session. */
  function Import(s: Store, c: Configuration): (r: Store)
    ensures r.session == c && r.builtSession == Some(c)
  {
    s.(session := c, builtSession := Some(c))
  }

  /** `build`: the built session becomes the current builder contents. */
  function Build(s: Store): (r: Store)
    ensures r.builtSession == Some(s.session)
    ensures forall slot: Slot :: slot != BuiltSessionSlot ==> Agree(s, r, slot)
  {
    s.(builtSession := Some(s.session))
  }

  /** `configFromString(str, passphrase)`: the text is cut into its
      non-empty lines, at line feeds that do not follow a carriage
      return (Swift keeps CR LF together as one character), and handed to
      the configuration parser, which is a parameter here (its passphrase
      is part of it). A parse error is reported with its description and
      changes nothing. */
  function ConfigFromString(s: Store, str: string, parse: seq<string> -> Result<Configuration, string>)
    : (r: Result<Store, string>)
    ensures parse(SwiftLines(str)).Ok? <==> r.Ok?
    ensures r.Ok? ==> r.value == Import(s, parse(SwiftLines(str)).value)
    ensures r.Err? ==> r.error == "Error parsing configuration: " + parse(SwiftLines(str)).error
  {
    match parse(SwiftLines(str))
    case Ok(c) => Ok(Import(s, c))
    case Err(e) => Err("Error parsing configuration: " + e)
  }

  /** `configFromUrl(url, passphrase)`: as `configFromString`, but the
      configuration is read from a URL, and a string that is not a URL is
      refused first. */
  function ConfigFromUrl(s: Store, url: string, toUrl: string -> Option<Url>, parse: Url -> Result<Configuration, string>)
    : (r: Result<Store, string>)
    ensures toUrl(url).None? ==> r == Err("Invalid URL")
    ensures r.Ok? <==> toUrl(url).Some? && parse(toUrl(url).value).Ok?
    ensures r.Ok? ==> r.value == Import(s, parse(toUrl(url).value).value)
    ensures toUrl(url).Some? && parse(toUrl(url).value).Err? ==>
      r == Err("Error parsing configuration: " + parse(toUrl(url).value).error)
  {
    match toUrl(url)
    case None => Err("Invalid URL")
    case Some(u) =>
      match parse(u)
      case Ok(c) => Ok(Import(s, c))
      case Err(e) => Err("Error parsing configuration: " + e)
  }
}

=== FILE: plugin.dfy ===
/** The entitlement patches of the build-time plugin: each of its three
    capability plugins makes sure an entitlement array exists and holds one
    entry, so that running the plugin again adds nothing. */
module Entitlements {
  import opened Base
  import Facade

  const NetworkExtensionKey: string := "com.apple.developer.networking.networkextension"
  const AppGroupsKey: string := "com.apple.security.application-groups"
  const KeychainGroupsKey: string := "keychain-access-groups"
  const PacketTunnelProvider: string := "packet-tunnel-provider"

  /** An element of an entitlement array: a string or any other value. */
  datatype Item = StringItem(text: string) | OtherItem(id: nat)

  /** An entitlement value: an array, or a value of any other kind. */
  datatype PlistValue = ArrayValue(items: seq<Item>) | OtherValue(id: nat)

  type Plist = map<string, PlistValue>

  /** The array under `key`, where anything that is not an array counts as
      the empty array it is replaced by. */
  function ArrayOrEmpty(e: Plist, key: string): seq<Item> {
    if key in e && e[key].ArrayValue? then e[key].items else []
  }

  /** One capability plugin: replace a missing or non-array value by `[]`,
      then append `entry` unless the array already includes it. */
  function Upsert(e: Plist, key: string, entry: string): (r: Plist)
    ensures r.Keys == e.Keys + {key}
    ensures forall k :: k in e && k != key ==> r[k] == e[k]
    ensures r[key].ArrayValue?
    ensures var before, after := ArrayOrEmpty(e, key), r[key].items;
      && before <= after
      && StringItem(entry) in after
      && |after| == |before| + (if StringItem(entry) in before then 0 else 1)
  {
    var items := ArrayOrEmpty(e, key);
    var items' := if StringItem(entry) in items then items else items + [StringItem(entry)];
    e[key := ArrayValue(items')]
  }

  /** The plugin never duplicates its entry: the array holds it as often as
      before, or once when it was missing. */
  lemma UpsertAddsOneCopy(e: Plist, key: string, entry: string)
    ensures var before, after := ArrayOrEmpty(e, key), Upsert(e, key, entry)[key].items;
      multiset(after)[StringItem(entry)] ==
        (if StringItem(entry) in before then multiset(before)[StringItem(entry)] else 1)
  {
    var before := ArrayOrEmpty(e, key);
    if StringItem(entry) !in before {
      assert Upsert(e, key, entry)[key].items == before + [StringItem(entry)];
      assert multiset(before + [StringItem(entry)]) == multiset(before) + multiset{StringItem(entry)};
    }
  }

  /** A second run of a capability plugin changes nothing. */
  lemma UpsertIdempotent(e: Plist, key: string, entry: string)
    ensures Upsert(Upsert(e, key, entry), key, entry) == Upsert(e, key, entry)
  {
  }

  /** `bundleIdentifier || ''`: an undefined (or empty) bundle identifier
      becomes the empty string. */
  function BundleText(bundle: Option<string>): string {
    bundle.OrElse("")
  }

  /** The app-group entitlement, `group.<bundle>.TunnelKitNetworkExtension`. */
  function AppGroupEntitlement(bundle: Option<string>): string {
    "group." + BundleText(bundle) + "." + Facade.ExtensionTarget
  }

  /** The keychain access group, the app group behind the app identifier
      prefix. */
  function KeychainEntitlement(bundle: Option<string>): string {
    "$(AppIdentifierPrefix)" + AppGroupEntitlement(bundle)
  }

  /** With a bundle identifier, the plugin's app group is the one the
      facade's `setup` defaults to, so the app and the extension share it. */
  lemma AppGroupMatchesSetupDefault(bundle: string)
    ensures AppGroupEntitlement(Some(bundle)) == Facade.DefaultAppGroup(Facade.Defined(bundle))
  {
  }

  /** Without one they differ: the facade interpolates `undefined`. */
  lemma AppGroupWithoutBundle()
    ensures AppGroupEntitlement(None) != Facade.DefaultAppGroup(Facade.Undefined)
  {
    assert |AppGroupEntitlement(None)| + 9 == |Facade.DefaultAppGroup(Facade.Undefined)|;
  }

  lemma KeysDistinct()
    ensures NetworkExtensionKey != AppGroupsKey && NetworkExtensionKey != KeychainGroupsKey
    ensures AppGroupsKey != KeychainGroupsKey
  {
    assert |NetworkExtensionKey| == 47 && |AppGroupsKey| == 37 && |KeychainGroupsKey| == 22;
  }

  /** The three capability plugins in the order the plugin runs them. */
  function WithCapabilities(e: Plist, bundle: Option<string>): (r: Plist)
    ensures r.Keys == e.Keys + {NetworkExtensionKey, AppGroupsKey, KeychainGroupsKey}
    ensures forall k :: k in e && k !in {NetworkExtensionKey, AppGroupsKey, KeychainGroupsKey} ==> r[k] == e[k]
    ensures r[NetworkExtensionKey].ArrayValue? && StringItem(PacketTunnelProvider) in r[NetworkExtensionKey].items
    ensures r[AppGroupsKey].ArrayValue? && StringItem(AppGroupEntitlement(bundle)) in r[AppGroupsKey].items
    ensures r[KeychainGroupsKey].ArrayValue? && StringItem(KeychainEntitlement(bundle)) in r[KeychainGroupsKey].items
  {
    KeysDistinct();
    var e1 := Upsert(e, NetworkExtensionKey, PacketTunnelProvider);
    var e2 := Upsert(e1, AppGroupsKey, AppGroupEntitlement(bundle));
    Upsert(e2, KeychainGroupsKey, KeychainEntitlement(bundle))
  }

  /** Running the three plugins again changes nothing. */
  lemma WithCapabilitiesIdempotent(e: Plist, bundle: Option<string>)
    ensures WithCapabilities(WithCapabilities(e, bundle), bundle) == WithCapabilities(e, bundle)
  {
    var r := WithCapabilities(e, bundle);
    var e1 := Upsert(r, NetworkExtensionKey, PacketTunnelProvider);
    assert e1 == r;
    var e2 := Upsert(e1, AppGroupsKey, AppGroupEntitlement(bundle));
    assert e2 == r;
    assert Upsert(e2, KeychainGroupsKey, KeychainEntitlement(bundle)) == r;
  }
}

/** The `{{GROUP_NAME}}` substitution applied to each extension file the
    plugin copies. */
module Placeholder {
  import opened Base
  import opened Text
  import Entitlements

  const GroupNamePlaceholder: string := "{{GROUP_NAME}}"

  /** `content.replace(/{{GROUP_NAME}}/gm, group)`: every occurrence of the
      placeholder becomes the app-group entitlement. */
  function FillGroupName(content: string, bundle: Option<string>): (r: string)
    ensures !Contains(content, GroupNamePlaceholder) ==> r == content
  {
    var group := Entitlements.AppGroupEntitlement(bundle);
    if Contains(content, GroupNamePlaceholder) then ReplaceAll(content, GroupNamePlaceholder, group)
    else ReplaceAbsent(content, GroupNamePlaceholder, group); ReplaceAll(content, GroupNamePlaceholder, group)
  }

  /** Two occurrences of the placeholder can never overlap. */
  lemma PlaceholderBorderFree()
    ensures BorderFree(GroupNamePlaceholder)
  {
    var p := GroupNamePlaceholder;
    forall k | 0 < k < |p|
      ensures p[k..] != p[..|p| - k]
    {
      if k == 1 {
        assert p[k..][1] != p[..|p| - k][1];
      } else {
        assert p[k..][0] != p[..|p| - k][0];
      }
    }
  }

  /** A file made of pieces separated by placeholders becomes the same
      pieces separated by the app group: each placeholder is replaced, and
      nothing else changes. */
  lemma FillReplacesEach(pieces: seq<string>, bundle: Option<string>)
    requires forall k :: 0 <= k < |pieces| ==> !Contains(pieces[k], GroupNamePlaceholder)
    ensures FillGroupName(Join(pieces, GroupNamePlaceholder), bundle)
         == Join(pieces, Entitlements.AppGroupEntitlement(bundle))
  {
    PlaceholderBorderFree();
    ReplaceJoin(pieces, GroupNamePlaceholder, Entitlements.AppGroupEntitlement(bundle));
  }

  /** A file without the placeholder is copied unchanged. */
  lemma FillWithoutPlaceholder(content: string, bundle: Option<string>)
    requires !Contains(content, GroupNamePlaceholder)
    ensures FillGroupName(content, bundle) == content
  {
    ReplaceAbsent(content, GroupNamePlaceholder, Entitlements.AppGroupEntitlement(bundle));
  }
}

/** The Podfile transform: insert the TunnelKit pod line into the main
    target before its `use_react_native!` line, and append a target block
    for the network extension. Both steps are guarded by a search for what
    they would add. */
module Podfile {
  import opened Base
  import opened Text
  import Facade

  /** The main target's name, fixed in the plugin. */
  const MainTarget: string := "expotunnelkitexample"
  const ReactNativeLine: string := "use_react_native!"
  const TargetLine: string := "target '" + MainTarget + "' do"

  /** `pod 'TunnelKit', :path => '<podPath>'`; the path is worked out from
      where the package is installed. */
  function PodLine(podPath: string): string {
    "pod 'TunnelKit', :path => '" + podPath + "'"
  }

  const SnippetHead: string := "target '" + Facade.ExtensionTarget + "' do"
  const UseFrameworksLine: string :=
    "  use_frameworks! :linkage => podfile_properties['ios.useFrameworks'].to_sym if podfile_properties['ios.useFrameworks']"

  /** The lines of the extension's target block after its first. */
  function SnippetBody(podPath: string): string {
    "  " + PodLine(podPath) + "\n" + UseFrameworksLine + "\nend"
  }

  /** The extension's target block. */
  function Snippet(podPath: string): string {
    SnippetHead + "\n" + SnippetBody(podPath)
  }

  /** The block's first line, the one the transform searches for. */
  function SnippetFirstLine(podPath: string): (r: string)
    ensures r == SnippetHead
  {
    assert '\n' !in SnippetHead;
    assert Snippet(podPath) == SnippetHead + ['\n'] + SnippetBody(podPath);
    SplitHead(SnippetHead, '\n', SnippetBody(podPath));
    Split(Snippet(podPath), '\n')[0]
  }

  /** `lines.findIndex(line => line.includes(needle))`. */
  function FirstContaining(lines: seq<string>, needle: string): (r: Option<nat>)
    ensures r.Some? ==> r.value < |lines| && Contains(lines[r.value], needle)
    ensures r.Some? ==> forall j :: 0 <= j < r.value ==> !Contains(lines[j], needle)
    ensures r.None? <==> forall j :: 0 <= j < |lines| ==> !Contains(lines[j], needle)
    decreases |lines|
  {
    if |lines| == 0 then None
    else if Contains(lines[0], needle) then Some(0)
    else match FirstContaining(lines[1..], needle)
      case Some(i) => Some(i + 1)
      case None => None
  }

  /** Where the pod line goes: the first `use_react_native!` line at or
      after the first main-target line. */
  function InsertionPoint(lines: seq<string>): (r: Option<nat>)
    ensures FirstContaining(lines, TargetLine).None? ==> r.None?
    ensures var t := FirstContaining(lines, TargetLine);
      t.Some? ==> (r.None? <==> forall j :: t.value <= j < |lines| ==> !Contains(lines[j], ReactNativeLine))
    ensures r.Some? ==>
      var t := FirstContaining(lines, TargetLine).value;
      && t <= r.value < |lines|
      && Contains(lines[r.value], ReactNativeLine)
      && forall j :: t <= j < r.value ==> !Contains(lines[j], ReactNativeLine)
  {
    match FirstContaining(lines, TargetLine)
    case None => None
    case Some(t) =>
      var rest := lines[t..];
      match FirstContaining(rest, ReactNativeLine)
      case None =>
        assert forall j :: t <= j < |lines| ==> lines[j] == rest[j - t];
        None
      case Some(k) =>
        assert forall j :: t <= j < t + k ==> lines[j] == rest[j - t];
        Some(t + k)
  }

  /** The lines with the pod line inserted at the insertion point, carrying
      the indentation of the line it goes before (and, as written, a line
      break of its own); `None` when there is no insertion point. */
  function InsertedLines(lines: seq<string>, podPath: string): (r: Option<seq<string>>)
    ensures r.Some? <==> InsertionPoint(lines).Some?
    ensures r.Some? ==>
      var a := InsertionPoint(lines).value;
      && |r.value| == |lines| + 1
      && r.value[..a] == lines[..a]
      && r.value[a] == LeadingWhitespace(lines[a]) + PodLine(podPath) + "\n"
      && r.value[a + 1..] == lines[a..]
  {
    match InsertionPoint(lines)
    case None => None
    case Some(a) =>
      Some(lines[..a] + [LeadingWhitespace(lines[a]) + PodLine(podPath) + "\n"] + lines[a..])
  }

  /** The transform of the Podfile contents. When the pod line is missing
      and there is nowhere to put it, the contents are returned unchanged,
      and the target block is not appended either. */
  function Transform(contents: string, podPath: string): (r: string)
    ensures !Contains(contents, PodLine(podPath)) && InsertionPoint(Split(contents, '\n')).None? ==> r == contents
    ensures Contains(contents, PodLine(podPath)) && Contains(contents, SnippetHead) ==> r == contents
  {
    if !Contains(contents, PodLine(podPath)) then
      match InsertedLines(Split(contents, '\n'), podPath)
      case None => contents
      case Some(lines) => AppendSnippet(Join(lines, "\n"), podPath)
    else AppendSnippet(contents, podPath)
  }

  /** Append the target block unless its first line is already there. */
  function AppendSnippet(contents: string, podPath: string): (r: string)
    ensures Contains(contents, SnippetHead) ==> r == contents
    ensures !Contains(contents, SnippetHead) ==> r == contents + "\n" + Snippet(podPath) + "\n"
  {
    if Contains(contents, SnippetFirstLine(podPath)) then contents
    else contents + "\n" + Snippet(podPath) + "\n"
  }

  /** After appending, the target block is found by the next search for
      it, and whatever the contents held is still there. */
  lemma AppendSnippetKeeps(contents: string, podPath: string, needle: string)
    ensures Contains(AppendSnippet(contents, podPath), SnippetHead)
    ensures Contains(contents, needle) ==> Contains(AppendSnippet(contents, podPath), needle)
  {
    if !Contains(contents, SnippetHead) {
      SnippetStartsWithHead(podPath);
      AppendedLineKeeps(contents, Snippet(podPath), SnippetHead, needle);
    }
  }

  lemma SnippetStartsWithHead(podPath: string)
    ensures StartsWith(Snippet(podPath), SnippetHead)
  {
    assert Snippet(podPath)[..|SnippetHead|] == SnippetHead;
  }

  /** The inserted pod line is found by the next search for it. */
  lemma InsertedLinesContainPodLine(lines: seq<string>, podPath: string)
    requires InsertedLines(lines, podPath).Some?
    ensures Contains(Join(InsertedLines(lines, podPath).value, "\n"), PodLine(podPath))
  {
    var a := InsertionPoint(lines).value;
    var inserted := InsertedLines(lines, podPath).value;
    ContainsSelf(PodLine(podPath));
    ContainsInConcat(LeadingWhitespace(lines[a]), PodLine(podPath), "\n", PodLine(podPath));
    JoinContainsPiece(inserted, "\n", a);
    ContainsTransitive(Join(inserted, "\n"), inserted[a], PodLine(podPath));
  }

  /** What the transform does: nothing without the pod line and a place for
      it; otherwise the result holds both the pod line and the target
      block, and contents that already hold both are left alone. */
  lemma TransformEffect(contents: string, podPath: string)
    ensures var r := Transform(contents, podPath);
      && (!Contains(contents, PodLine(podPath)) && InsertionPoint(Split(contents, '\n')).None? ==> r == contents)
      && (r != contents ==> Contains(r, PodLine(podPath)) && Contains(r, SnippetHead))
      && (Contains(contents, PodLine(podPath)) && Contains(contents, SnippetHead) ==> r == contents)
      && (Contains(contents, PodLine(podPath)) && !Contains(contents, SnippetHead) ==>
            r == contents + "\n" + Snippet(podPath) + "\n")
  {
    var lines := Split(contents, '\n');
    if !Contains(contents, PodLine(podPath)) {
      if InsertionPoint(lines).Some? {
        var joined := Join(InsertedLines(lines, podPath).value, "\n");
        InsertedLinesContainPodLine(lines, podPath);
        AppendSnippetKeeps(joined, podPath, PodLine(podPath));
      }
    } else {
      AppendSnippetKeeps(contents, podPath, PodLine(podPath));
    }
  }

  /** Running the transform twice is the same as running it once. */
  lemma TransformIdempotent(contents: string, podPath: string)
    ensures Transform(Transform(contents, podPath), podPath) == Transform(contents, podPath)
  {
    var r := Transform(contents, podPath);
    TransformEffect(contents, podPath);
    if r != contents {
      TransformEffect(r, podPath);
    }
  }
}

=== FILE: provisioning.dfy ===
/** `makeProtocol`: the tunnel-provider configuration built from the store,
    with the defaults the module fills in, and the request for a tunnel
    protocol handed to TunnelKit. Generating the protocol is TunnelKit's
    business and may fail; here it is a predicate supplied by the caller. */
module Provisioning {
  import opened Base
  import opened Session
  import Decimal
  import Keys
  import Params

  /** The MTU used when none was set. */
  const DefaultMtu: int := 1250

  /** The shared-defaults key the sampling interval is published under. */
  const DataCountIntervalKey: string := "dataCountInterval"

  /** The tunnel-provider configuration: a fresh build of the session
      builder (not the stored built session) and the provider settings,
      with the three defaulted settings no longer optional. */
  datatype ProviderConfiguration = ProviderConfiguration(
    sessionConfiguration: Configuration,
    prefersResolvedAddresses: bool,
    resolvedAddresses: Option<seq<string>>,
    mtu: int,
    shouldDebug: bool,
    debugLogFormat: Option<string>,
    masksPrivateData: Option<bool>)

  datatype Credentials = Credentials(username: string, password: string)

  /** The arguments of `generatedTunnelProtocol`: the provider bundle, the
      app group, the credentials and the configuration. */
  datatype ProtocolRequest = ProtocolRequest(
    bundleIdentifier: string,
    appGroup: string,
    credentials: Credentials,
    configuration: ProviderConfiguration)

  /** A value written to the shared defaults of an app group. */
  datatype SharedWrite = SharedWrite(suite: string, key: string, value: int)

  /** What one call of `makeProtocol` does: the shared-defaults write, the
      configuration it keeps in the module, and the protocol it returns. */
  datatype Provisioned = Provisioned(
    shared: Option<SharedWrite>,
    configuration: Option<ProviderConfiguration>,
    protocol: Option<ProtocolRequest>)

  /** The provider configuration of a store: an unset MTU becomes 1250, an
      unset address preference or debug switch becomes `false`, and the other
      settings are passed on as they are, set or not. */
  function ConfigurationOf(s: Store): (c: ProviderConfiguration)
    ensures c.sessionConfiguration == s.session
    ensures c.mtu == DefaultMtu <==> s.providerSettings.mtu.None? || s.providerSettings.mtu == Some(DefaultMtu)
    ensures s.providerSettings.mtu.Some? ==> c.mtu == s.providerSettings.mtu.value
    ensures c.prefersResolvedAddresses <==> s.providerSettings.prefersResolvedAddresses == Some(true)
    ensures c.shouldDebug <==> s.providerSettings.shouldDebug == Some(true)
    ensures c.resolvedAddresses == s.providerSettings.resolvedAddresses
    ensures c.debugLogFormat == s.providerSettings.debugLogFormat
    ensures c.masksPrivateData == s.providerSettings.masksPrivateData
  {
    var p := s.providerSettings;
    ProviderConfiguration(
      s.session,
      p.prefersResolvedAddresses.OrElse(false),
      p.resolvedAddresses,
      p.mtu.OrElse(DefaultMtu),
      p.shouldDebug.OrElse(false),
      p.debugLogFormat,
      p.masksPrivateData)
  }

  /** The credentials handed over: an unset username or password is empty. */
  function CredentialsOf(s: Store): (c: Credentials)
    ensures s.username.Some? ==> c.username == s.username.value
    ensures s.password.Some? ==> c.password == s.password.value
    ensures s.username.None? ==> c.username == ""
    ensures s.password.None? ==> c.password == ""
  {
    Credentials(s.username.OrElse(""), s.password.OrElse(""))
  }

  /** `makeProtocol`. Without an app group or a tunnel identifier nothing
      happens and there is no protocol. Otherwise the sampling interval is
      published to the app group's shared defaults, the provider
      configuration is kept, and a protocol is returned when TunnelKit
      (`generates`) accepts the request. */
  function MakeProtocol(s: Store, generates: ProtocolRequest -> bool): (r: Provisioned)
    ensures r.shared.None? <==> s.appGroup.None? || s.tunnelIdentifier.None?
    ensures r.shared.None? ==> r.configuration.None? && r.protocol.None?
    ensures r.shared.Some? ==>
      && r.shared.value == SharedWrite(s.appGroup.value, DataCountIntervalKey, s.dataCountInterval)
      && r.configuration == Some(ConfigurationOf(s))
    ensures r.protocol.Some? ==>
      && r.shared.Some?
      && generates(r.protocol.value)
      && r.protocol.value == ProtocolRequest(s.tunnelIdentifier.value, s.appGroup.value, CredentialsOf(s), ConfigurationOf(s))
    ensures r.shared.Some? && r.protocol.None? ==>
      !generates(ProtocolRequest(s.tunnelIdentifier.value, s.appGroup.value, CredentialsOf(s), ConfigurationOf(s)))
  {
    match (s.appGroup, s.tunnelIdentifier)
    case (Some(appGroup), Some(tunnelIdentifier)) =>
      var configuration := ConfigurationOf(s);
      var request := ProtocolRequest(tunnelIdentifier, appGroup, CredentialsOf(s), configuration);
      Provisioned(
        Some(SharedWrite(appGroup, DataCountIntervalKey, s.dataCountInterval)),
        Some(configuration),
        if generates(request) then Some(request) else None)
    case _ => Provisioned(None, None, None)
  }

  // ---------------------------------------------------------------------------
  // What `setParam` values become once provisioned

  /** The MTU provisioned after `setParam("MTU", v)` is the number `v`
      spells when it is a 64-bit integer, and 1250 otherwise: an unparsable
      value clears the setting, which the default then replaces. */
  lemma ProvisionedMtu(s: Store, v: string, d: Params.Decoders)
    ensures Params.ApplyKey(s, Keys.MTU, v, d).Ok?
    ensures var c := ConfigurationOf(Params.ApplyKey(s, Keys.MTU, v, d).value);
      c.mtu == (if Decimal.ParseInt(v).Some? then Decimal.ParseInt(v).value else DefaultMtu)
  {
  }

  /** The debug switch provisioned after `setParam("Debug", v)`: the flag
      `v` spells, or, for any other spelling, the switch as it was, which is
      off when it was never set. */
  lemma ProvisionedDebug(s: Store, v: string, d: Params.Decoders)
    ensures Params.ApplyKey(s, Keys.Debug, v, d).Ok?
    ensures var c := ConfigurationOf(Params.ApplyKey(s, Keys.Debug, v, d).value);
      && (v == FlagName(true) ==> c.shouldDebug)
      && (v == FlagName(false) ==> !c.shouldDebug)
      && (v != FlagName(true) && v != FlagName(false) ==> c.shouldDebug == ConfigurationOf(s).shouldDebug)
  {
    NameTablesRoundTrip(Aes128Cbc, Sha1, FramingDisabled, AlgorithmDisabled, Auth, DirectionZero, Tcp, true);
    NameTablesRoundTrip(Aes128Cbc, Sha1, FramingDisabled, AlgorithmDisabled, Auth, DirectionZero, Tcp, false);
    ParsedAreNames(v);
  }

  /** The credentials `setCredentials` stores are the ones provisioned. */
  lemma ProvisionedCredentials(s: Store, username: string, password: string, generates: ProtocolRequest -> bool)
    ensures var r := MakeProtocol(Params.SetCredentials(s, username, password), generates);
      r.protocol.Some? ==> r.protocol.value.credentials == Credentials(username, password)
  {
  }

  /** After `setup`, provisioning always publishes the interval and keeps a
      configuration, whatever else was set. */
  lemma SetupEnablesProvisioning(s: Store, appGroup: string, tunnelIdentifier: string, generates: ProtocolRequest -> bool)
    ensures var r := MakeProtocol(Params.Setup(s, appGroup, tunnelIdentifier), generates);
      && r.shared == Some(SharedWrite(appGroup, DataCountIntervalKey, s.dataCountInterval))
      && r.configuration.Some?
      && (r.protocol.Some? ==> r.protocol.value.bundleIdentifier == tunnelIdentifier && r.protocol.value.appGroup == appGroup)
  {
  }
}

=== FILE: report.dfy ===
/** `getCurrentConfig`: the dictionary reported to JavaScript, a projection
    of the session builder keyed by the parameter names `setParam` accepts.
    A field that is `nil` is absent from the dictionary. */
module Report {
  import opened Base
  import opened Session
  import Keys
  import Params
  import ParamLaws

  /** A value in the reported dictionary, tagged by its type. Enumerated
      values are reported as the value itself. */
  datatype Reported =
    | AsText(text: string)
    | AsCipher(cipher: Cipher)
    | AsDigest(digest: Digest)
    | AsFraming(framing: CompressionFraming)
    | AsAlgorithm(algorithm: CompressionAlgorithm)
    | AsStrategy(strategy: TlsWrapStrategy)
    | AsStaticKey(key: StaticKey)
    | AsInt(n: int)
    | AsDouble(x: Double)
    | AsSocketType(socketType: SocketType)
    | AsFlag(flag: bool)
    | AsIPv4(ipv4: IPv4Settings)
    | AsIPv6(ipv6: IPv6Settings)
    | AsStrings(strings: seq<string>)
    | AsProxy(proxy: Proxy)
    | AsPolicies(policies: seq<RoutingPolicy>)

  /** The builder field each reported key is read from; `None` for the keys
      the dictionary never holds (credentials, identifiers, the key
      direction and the provider settings). */
  function Source(k: Keys.Key): Option<Params.Slot> {
    match k
    case Hostname => Some(Params.HostnameSlot)
    case CipherAlgorithm => Some(Params.CipherSlot)
    case DigestAlgorithm => Some(Params.DigestSlot)
    case CompressionFraming => Some(Params.CompressionFramingSlot)
    case CompressionAlgorithm => Some(Params.CompressionAlgorithmSlot)
    case CA => Some(Params.CaSlot)
    case ClientCertificate => Some(Params.ClientCertificateSlot)
    case ClientKey => Some(Params.ClientKeySlot)
    case TLSWrapStrategy => Some(Params.TlsWrapSlot)
    case TLSWrapKeyData => Some(Params.TlsWrapSlot)
    case TLSSecurityLevel => Some(Params.TlsSecurityLevelSlot)
    case KeepAliveInterval => Some(Params.KeepAliveIntervalSlot)
    case KeepAliveTimeout => Some(Params.KeepAliveTimeoutSlot)
    case RenegotiatesAfter => Some(Params.RenegotiatesAfterSlot)
    case SocketType => Some(Params.EndpointProtocolsSlot)
    case Port => Some(Params.EndpointProtocolsSlot)
    case ChecksEKU => Some(Params.ChecksEKUSlot)
    case RandomizeEndpoint => Some(Params.RandomizeEndpointSlot)
    case UsesPIAPatches => Some(Params.UsesPIAPatchesSlot)
    case AuthToken => Some(Params.AuthTokenSlot)
    case PeerID => Some(Params.PeerIdSlot)
    case IPv4Settings => Some(Params.Ipv4Slot)
    case IPv6Settings => Some(Params.Ipv6Slot)
    case DNSServers => Some(Params.DnsServersSlot)
    case SearchDomains => Some(Params.SearchDomainsSlot)
    case HTTPProxy => Some(Params.HttpProxySlot)
    case HTTPSProxy => Some(Params.HttpsProxySlot)
    case ProxyAutoConfigurationURL => Some(Params.ProxyAutoConfigurationURLSlot)
    case ProxyBypassDomains => Some(Params.ProxyBypassDomainsSlot)
    case RoutingPolicies => Some(Params.RoutingPoliciesSlot)
    case _ => None
  }

  /** The value reported under key `k`, `None` when the entry is absent.
      The TLS-wrap keys read the rebuilt `tlsWrap`, and the endpoint keys
      read the first endpoint protocol, if there is one. */
  function Reading(c: Configuration, k: Keys.Key): (r: Option<Reported>)
    ensures Source(k).None? ==> r.None?
  {
    match k
    case Hostname => if c.hostname.Some? then Some(AsText(c.hostname.value)) else None
    case CipherAlgorithm => if c.cipher.Some? then Some(AsCipher(c.cipher.value)) else None
    case DigestAlgorithm => if c.digest.Some? then Some(AsDigest(c.digest.value)) else None
    case CompressionFraming =>
      if c.compressionFraming.Some? then Some(AsFraming(c.compressionFraming.value)) else None
    case CompressionAlgorithm =>
      if c.compressionAlgorithm.Some? then Some(AsAlgorithm(c.compressionAlgorithm.value)) else None
    case CA => if c.ca.Some? then Some(AsText(c.ca.value.pem)) else None
    case ClientCertificate =>
      if c.clientCertificate.Some? then Some(AsText(c.clientCertificate.value.pem)) else None
    case ClientKey => if c.clientKey.Some? then Some(AsText(c.clientKey.value.pem)) else None
    case TLSWrapStrategy => if c.tlsWrap.Some? then Some(AsStrategy(c.tlsWrap.value.strategy)) else None
    case TLSWrapKeyData => if c.tlsWrap.Some? then Some(AsStaticKey(c.tlsWrap.value.key)) else None
    case TLSSecurityLevel => if c.tlsSecurityLevel.Some? then Some(AsInt(c.tlsSecurityLevel.value)) else None
    case KeepAliveInterval =>
      if c.keepAliveInterval.Some? then Some(AsDouble(c.keepAliveInterval.value)) else None
    case KeepAliveTimeout =>
      if c.keepAliveTimeout.Some? then Some(AsDouble(c.keepAliveTimeout.value)) else None
    case RenegotiatesAfter =>
      if c.renegotiatesAfter.Some? then Some(AsDouble(c.renegotiatesAfter.value)) else None
    case SocketType =>
      if c.endpointProtocols.Some? && |c.endpointProtocols.value| > 0
      then Some(AsSocketType(c.endpointProtocols.value[0].socketType)) else None
    case Port =>
      if c.endpointProtocols.Some? && |c.endpointProtocols.value| > 0
      then Some(AsInt(c.endpointProtocols.value[0].port)) else None
    case ChecksEKU => if c.checksEKU.Some? then Some(AsFlag(c.checksEKU.value)) else None
    case RandomizeEndpoint => if c.randomizeEndpoint.Some? then Some(AsFlag(c.randomizeEndpoint.value)) else None
    case UsesPIAPatches => if c.usesPIAPatches.Some? then Some(AsFlag(c.usesPIAPatches.value)) else None
    case AuthToken => if c.authToken.Some? then Some(AsText(c.authToken.value)) else None
    case PeerID => if c.peerId.Some? then Some(AsInt(c.peerId.value)) else None
    case IPv4Settings => if c.ipv4.Some? then Some(AsIPv4(c.ipv4.value)) else None
    case IPv6Settings => if c.ipv6.Some? then Some(AsIPv6(c.ipv6.value)) else None
    case DNSServers => if c.dnsServers.Some? then Some(AsStrings(c.dnsServers.value)) else None
    case SearchDomains => if c.searchDomains.Some? then Some(AsStrings(c.searchDomains.value)) else None
    case HTTPProxy => if c.httpProxy.Some? then Some(AsProxy(c.httpProxy.value)) else None
    case HTTPSProxy => if c.httpsProxy.Some? then Some(AsProxy(c.httpsProxy.value)) else None
    case ProxyAutoConfigurationURL =>
      if c.proxyAutoConfigurationURL.Some? then Some(AsText(c.proxyAutoConfigurationURL.value.absoluteString)) else None
    case ProxyBypassDomains =>
      if c.proxyBypassDomains.Some? then Some(AsStrings(c.proxyBypassDomains.value)) else None
    case RoutingPolicies =>
      if c.routingPolicies.Some? then Some(AsPolicies(c.routingPolicies.value)) else None
    case _ => None
  }

  /** The keys assigned into the dictionary, in the order of assignment. */
  const ReportedKeys: seq<Keys.Key> := [
    Keys.Hostname, Keys.CipherAlgorithm, Keys.DigestAlgorithm, Keys.CompressionFraming,
    Keys.CompressionAlgorithm, Keys.CA, Keys.ClientCertificate, Keys.ClientKey,
    Keys.TLSWrapStrategy, Keys.TLSWrapKeyData, Keys.TLSSecurityLevel, Keys.KeepAliveInterval,
    Keys.KeepAliveTimeout, Keys.RenegotiatesAfter, Keys.SocketType, Keys.Port,
    Keys.ChecksEKU, Keys.RandomizeEndpoint, Keys.UsesPIAPatches, Keys.AuthToken,
    Keys.PeerID, Keys.IPv4Settings, Keys.IPv6Settings, Keys.DNSServers,
    Keys.SearchDomains, Keys.HTTPProxy, Keys.HTTPSProxy, Keys.ProxyAutoConfigurationURL,
    Keys.ProxyBypassDomains, Keys.RoutingPolicies]

  /** A Swift dictionary assignment: a value stores the entry, `nil`
      removes it. */
  function Assign(m: map<string, Reported>, name: string, v: Option<Reported>): map<string, Reported> {
    match v
    case Some(x) => m[name := x]
    case None => m - {name}
  }

  /** The readings of one configuration, as a function of the key. */
  function Readings(c: Configuration): Keys.Key -> Option<Reported> {
    k => Reading(c, k)
  }

  /** The dictionary after assigning `read(k)` under `name(k)` for each
      `k` of `ks` in order. */
  function Collect<K>(ks: seq<K>, name: K -> string, read: K -> Option<Reported>): map<string, Reported>
    decreases |ks|
  {
    if |ks| == 0 then map[]
    else
      var k := ks[|ks| - 1];
      Assign(Collect(ks[..|ks| - 1], name, read), name(k), read(k))
  }

  /** Each assigned key holds its reading, and nothing else is in the
      dictionary; this relies on the names being distinct. */
  lemma {:induction false} CollectHoldsReadings<K>(ks: seq<K>, name: K -> string, read: K -> Option<Reported>)
    requires forall a, b :: name(a) == name(b) ==> a == b
    ensures forall k :: k in ks ==> (name(k) in Collect(ks, name, read) <==> read(k).Some?)
    ensures forall k :: k in ks && read(k).Some? ==> Collect(ks, name, read)[name(k)] == read(k).value
    ensures forall n :: n in Collect(ks, name, read) ==> exists k :: k in ks && name(k) == n
    decreases |ks|
  {
    if |ks| > 0 {
      var init := ks[..|ks| - 1];
      CollectHoldsReadings(init, name, read);
      assert forall k :: k in ks ==> k in init || k == ks[|ks| - 1];
    }
  }

  /** The keys with a builder field are exactly the keys assigned. */
  lemma SourcedAreReported(k: Keys.Key)
    ensures Source(k).Some? <==> k in ReportedKeys
  {
    ReportedAreSourced();
  }

  lemma ReportedAreSourced()
    ensures forall i :: 0 <= i < |ReportedKeys| ==> Source(ReportedKeys[i]).Some?
  {
  }

  /** A key without a builder field has no reading. */
  lemma UnsourcedUnread(c: Configuration, k: Keys.Key)
    ensures Source(k).None? ==> Reading(c, k).None?
  {
  }

  /** The dictionary of all assigned keys holds every reading, and no entry
      under a key without a builder field. */
  lemma {:induction false} CollectAll(c: Configuration)
    ensures forall k: Keys.Key :: Keys.KeyName(k) in Collect(ReportedKeys, Keys.KeyName, Readings(c)) <==> Reading(c, k).Some?
    ensures forall k: Keys.Key :: Source(k).None? ==> Keys.KeyName(k) !in Collect(ReportedKeys, Keys.KeyName, Readings(c))
  {
    Keys.KeyNameInjective();
    CollectHoldsReadings(ReportedKeys, Keys.KeyName, Readings(c));
    forall k: Keys.Key
      ensures Source(k).Some? <==> k in ReportedKeys
      ensures Source(k).None? ==> Reading(c, k).None?
    {
      SourcedAreReported(k);
      UnsourcedUnread(c, k);
    }
  }

  /** Every entry of the dictionary is named after a parameter. */
  lemma {:induction false} CollectNames(c: Configuration)
    ensures forall name :: name in Collect(ReportedKeys, Keys.KeyName, Readings(c)) ==> Keys.ParseKey(name).Some?
  {
    Keys.KeyNameInjective();
    CollectHoldsReadings(ReportedKeys, Keys.KeyName, Readings(c));
    forall k: Keys.Key
      ensures Keys.ParseKey(Keys.KeyName(k)) == Some(k)
    {
      Keys.KeyRoundTrip(k);
    }
  }

  /** `getCurrentConfig`: the entry of a key is present exactly when the
      builder holds a value for it, and then holds that value. Only keys
      with a builder field are ever reported. */
  function CurrentConfig(s: Store): (r: map<string, Reported>)
    ensures forall k: Keys.Key :: Keys.KeyName(k) in r <==> Reading(s.session, k).Some?
    ensures forall k: Keys.Key :: Keys.KeyName(k) in r ==> r[Keys.KeyName(k)] == Reading(s.session, k).value
    ensures forall k: Keys.Key :: Source(k).None? ==> Keys.KeyName(k) !in r
    ensures forall name :: name in r ==> Keys.ParseKey(name).Some?
  {
    Keys.KeyNameInjective();
    CollectHoldsReadings(ReportedKeys, Keys.KeyName, Readings(s.session));
    CollectAll(s.session);
    CollectNames(s.session);
    forall k: Keys.Key
      ensures Reading(s.session, k).Some? ==> k in ReportedKeys
    {
      SourcedAreReported(k);
      UnsourcedUnread(s.session, k);
    }
    Collect(ReportedKeys, Keys.KeyName, Readings(s.session))
  }

  /** A reading depends only on the builder field the key is read from. */
  lemma ReadingFromSource(a: Store, b: Store, k: Keys.Key)
    requires Source(k).None? || Params.Agree(a, b, Source(k).value)
    ensures Reading(a.session, k) == Reading(b.session, k)
  {
    if k in FirstHalf {
      if k in Group1 {
        ReadingFromGroup1(a, b, k);
      } else if k in Group2 {
        ReadingFromGroup2(a, b, k);
      } else {
        ReadingFromGroup3(a, b, k);
      }
    } else if k in SecondHalf {
      if k in Group4 {
        ReadingFromGroup4(a, b, k);
      } else if k in Group5 {
        ReadingFromGroup5(a, b, k);
      } else {
        ReadingFromGroup6(a, b, k);
      }
    } else {
      UnsourcedUnread(a.session, k);
      UnsourcedUnread(b.session, k);
    }
  }

  // The same, a few keys at a time to keep each proof small.

  const Group1: set<Keys.Key> := {Keys.Hostname, Keys.CipherAlgorithm, Keys.DigestAlgorithm, Keys.CompressionFraming, Keys.CompressionAlgorithm}
  const Group2: set<Keys.Key> := {Keys.CA, Keys.ClientCertificate, Keys.ClientKey, Keys.TLSWrapStrategy, Keys.TLSWrapKeyData}
  const Group3: set<Keys.Key> := {Keys.TLSSecurityLevel, Keys.KeepAliveInterval, Keys.KeepAliveTimeout, Keys.RenegotiatesAfter, Keys.SocketType}
  const Group4: set<Keys.Key> := {Keys.Port, Keys.ChecksEKU, Keys.RandomizeEndpoint, Keys.UsesPIAPatches, Keys.AuthToken}
  const Group5: set<Keys.Key> := {Keys.PeerID, Keys.IPv4Settings, Keys.IPv6Settings, Keys.DNSServers, Keys.SearchDomains}
  const Group6: set<Keys.Key> := {Keys.HTTPProxy, Keys.HTTPSProxy, Keys.ProxyAutoConfigurationURL, Keys.ProxyBypassDomains, Keys.RoutingPolicies}
  const FirstHalf: set<Keys.Key> := Group1 + Group2 + Group3
  const SecondHalf: set<Keys.Key> := Group4 + Group5 + Group6

  lemma ReadingFromGroup1(a: Store, b: Store, k: Keys.Key)
    requires k in Group1
    requires Source(k).None? || Params.Agree(a, b, Source(k).value)
    ensures Reading(a.session, k) == Reading(b.session, k)
  {
    match k
    case Hostname =>
    case CipherAlgorithm =>
    case DigestAlgorithm =>
    case CompressionFraming =>
    case CompressionAlgorithm =>
  }

  lemma ReadingFromGroup2(a: Store, b: Store, k: Keys.Key)
    requires k in Group2
    requires Source(k).None? || Params.Agree(a, b, Source(k).value)
    ensures Reading(a.session, k) == Reading(b.session, k)
  {
    match k
    case CA =>
    case ClientCertificate =>
    case ClientKey =>
    case TLSWrapStrategy =>
    case TLSWrapKeyData =>
  }

  lemma ReadingFromGroup3(a: Store, b: Store, k: Keys.Key)
    requires k in Group3
    requires Source(k).None? || Params.Agree(a, b, Source(k).value)
    ensures Reading(a.session, k) == Reading(b.session, k)
  {
    match k
    case TLSSecurityLevel =>
    case KeepAliveInterval =>
    case KeepAliveTimeout =>
    case RenegotiatesAfter =>
    case SocketType =>
  }

  lemma ReadingFromGroup4(a: Store, b: Store, k: Keys.Key)
    requires k in Group4
    requires Source(k).None? || Params.Agree(a, b, Source(k).value)
    ensures Reading(a.session, k) == Reading(b.session, k)
  {
    match k
    case Port =>
    case ChecksEKU =>
    case RandomizeEndpoint =>
    case UsesPIAPatches =>
    case AuthToken =>
  }

  lemma ReadingFromGroup5(a: Store, b: Store, k: Keys.Key)
    requires k in Group5
    requires Source(k).None? || Params.Agree(a, b, Source(k).value)
    ensures Reading(a.session, k) == Reading(b.session, k)
  {
    match k
    case PeerID =>
    case IPv4Settings =>
    case IPv6Settings =>
    case DNSServers =>
    case SearchDomains =>
  }

  lemma ReadingFromGroup6(a: Store, b: Store, k: Keys.Key)
    requires k in Group6
    requires Source(k).None? || Params.Agree(a, b, Source(k).value)
    ensures Reading(a.session, k) == Reading(b.session, k)
  {
    match k
    case HTTPProxy =>
    case HTTPSProxy =>
    case ProxyAutoConfigurationURL =>
    case ProxyBypassDomains =>
    case RoutingPolicies =>
  }

  /** An accepted `setParam` changes no reported entry except those read
      from the fields the key writes. */
  lemma SetParamReportFrame(s: Store, k: Keys.Key, j: Keys.Key, v: string, d: Params.Decoders)
    requires Params.ApplyKey(s, k, v, d).Ok?
    requires Source(j).None? || Source(j).value !in Params.Writes(k)
    ensures var before, after := CurrentConfig(s), CurrentConfig(Params.ApplyKey(s, k, v, d).value);
      && (Keys.KeyName(j) in after <==> Keys.KeyName(j) in before)
      && (Keys.KeyName(j) in after ==> after[Keys.KeyName(j)] == before[Keys.KeyName(j)])
  {
    Params.SetParamFrame(s, k, v, d);
    UnwrittenEntryKept(s, Params.ApplyKey(s, k, v, d).value, k, j);
  }

  /** A store that differs only in the fields `k` writes reports the same
      entry for every key read from another field. */
  lemma UnwrittenEntryKept(s: Store, t: Store, k: Keys.Key, j: Keys.Key)
    requires forall slot :: slot !in Params.Writes(k) ==> Params.Agree(s, t, slot)
    requires Source(j).None? || Source(j).value !in Params.Writes(k)
    ensures var before, after := CurrentConfig(s), CurrentConfig(t);
      && (Keys.KeyName(j) in after <==> Keys.KeyName(j) in before)
      && (Keys.KeyName(j) in after ==> after[Keys.KeyName(j)] == before[Keys.KeyName(j)])
  {
    ReadingFromSource(s, t, j);
    SameReadingSameEntry(s, t, j);
  }

  /** Two stores with the same reading of a key report the same entry. */
  lemma SameReadingSameEntry(s: Store, t: Store, j: Keys.Key)
    requires Reading(s.session, j) == Reading(t.session, j)
    ensures var before, after := CurrentConfig(s), CurrentConfig(t);
      && (Keys.KeyName(j) in after <==> Keys.KeyName(j) in before)
      && (Keys.KeyName(j) in after ==> after[Keys.KeyName(j)] == before[Keys.KeyName(j)])
  {
  }

  /** A text key set through `setParam` is reported as the text given. */
  lemma ReportsTextWritten(s: Store, k: Keys.Key, v: string, d: Params.Decoders)
    requires k in {Keys.Hostname, Keys.CA, Keys.ClientCertificate, Keys.ClientKey, Keys.AuthToken}
    ensures Params.ApplyKey(s, k, v, d).Ok?
    ensures var r := CurrentConfig(Params.ApplyKey(s, k, v, d).value);
      Keys.KeyName(k) in r && r[Keys.KeyName(k)] == AsText(v)
  {
  }

  /** A cipher set by its spelling is reported as that cipher. */
  lemma ReportsCipherWritten(s: Store, c: Cipher, d: Params.Decoders)
    ensures Params.ApplyKey(s, Keys.CipherAlgorithm, CipherName(c), d).Ok?
    ensures var r := CurrentConfig(Params.ApplyKey(s, Keys.CipherAlgorithm, CipherName(c), d).value);
      Keys.KeyName(Keys.CipherAlgorithm) in r && r[Keys.KeyName(Keys.CipherAlgorithm)] == AsCipher(c)
  {
    NameTablesRoundTrip(c, Sha1, FramingDisabled, AlgorithmDisabled, Auth, DirectionZero, Tcp, true);
  }

  /** Once both endpoint inputs are set, the reported socket type and port
      are those inputs, whichever of the two was set last. */
  lemma ReportsEndpointWritten(s: Store, k: Keys.Key, v: string, d: Params.Decoders)
    requires k in Params.EndpointKeys
    ensures Params.ApplyKey(s, k, v, d).Ok?
    ensures var t := Params.ApplyKey(s, k, v, d).value;
      var r := CurrentConfig(t);
      t.socketType.Some? && t.port.Some? ==>
        && Keys.KeyName(Keys.SocketType) in r && r[Keys.KeyName(Keys.SocketType)] == AsSocketType(t.socketType.value)
        && Keys.KeyName(Keys.Port) in r && r[Keys.KeyName(Keys.Port)] == AsInt(t.port.value)
  {
    ParamLaws.EndpointRebuilt(s, k, v, d);
    var t := Params.ApplyKey(s, k, v, d).value;
    if t.socketType.Some? && t.port.Some? {
      SingleEndpointReported(t, t.socketType.value, t.port.value);
    }
  }

  /** A store with one endpoint protocol reports its socket type and port. */
  lemma SingleEndpointReported(t: Store, socketType: SocketType, port: int)
    requires t.session.endpointProtocols == Some([EndpointProtocol(socketType, port)])
    ensures var r := CurrentConfig(t);
      && Keys.KeyName(Keys.SocketType) in r && r[Keys.KeyName(Keys.SocketType)] == AsSocketType(socketType)
      && Keys.KeyName(Keys.Port) in r && r[Keys.KeyName(Keys.Port)] == AsInt(port)
  {
    assert Reading(t.session, Keys.SocketType) == Some(AsSocketType(socketType));
    assert Reading(t.session, Keys.Port) == Some(AsInt(port));
  }
}

=== FILE: session.dfy ===
/** The data the native module holds: the TunnelKit session-builder fields,
    the provider settings, and the module's own optional inputs. Values that
    come from libraries outside this model (floating-point numbers, decoded
    JSON structures, URLs) are plain carriers here. */
module Session {
  import opened Base

  datatype Cipher = Aes128Cbc | Aes192Cbc | Aes256Cbc | Aes128Gcm | Aes192Gcm | Aes256Gcm
  datatype Digest = Sha1 | Sha256 | Sha384 | Sha512
  datatype CompressionFraming = FramingDisabled | CompLzo | Compress
  datatype CompressionAlgorithm = AlgorithmDisabled | Lzo | OtherAlgorithm
  datatype TlsWrapStrategy = Auth | Crypt
  /** The static key direction, by its raw value 0 or 1. */
  datatype KeyDirection = DirectionZero | DirectionOne
  datatype SocketType = Tcp | Udp
  datatype RoutingPolicy = IPv4Policy | IPv6Policy | BlockLocal

  datatype Route = Route(destination: string, mask: string, gateway: string)
  datatype IPv4Settings = IPv4Settings(address: string, addressMask: string, defaultGateway: string, routes: seq<Route>)
  datatype IPv6Settings = IPv6Settings(address: string, addressPrefixLength: int, defaultGateway: string, routes: seq<Route>)
  datatype Proxy = Proxy(address: string, port: int)
  /** A URL as Foundation's `URL(string:)` accepted it. */
  datatype Url = Url(absoluteString: string)
  /** A Swift `Double`, carried by its bit pattern and never computed with. */
  datatype Double = Double(bits: bv64)
  /** PEM text wrapped as a crypto container. */
  datatype CryptoContainer = CryptoContainer(pem: string)
  /** TLS-wrap key material: the UTF-8 text given, and an optional direction. */
  datatype StaticKey = StaticKey(data: string, direction: Option<KeyDirection>)
  datatype TlsWrap = TlsWrap(strategy: TlsWrapStrategy, key: StaticKey)
  datatype EndpointProtocol = EndpointProtocol(socketType: SocketType, port: int)

  /** The 28 session fields this module writes, each optional: exactly
      those `assignConfigurationParams` copies from a parsed configuration.
      The builder and a parsed or built configuration share this shape. */
  datatype Configuration = Configuration(
    hostname: Option<string>,
    cipher: Option<Cipher>,
    digest: Option<Digest>,
    compressionFraming: Option<CompressionFraming>,
    compressionAlgorithm: Option<CompressionAlgorithm>,
    ca: Option<CryptoContainer>,
    clientCertificate: Option<CryptoContainer>,
    clientKey: Option<CryptoContainer>,
    tlsWrap: Option<TlsWrap>,
    tlsSecurityLevel: Option<int>,
    keepAliveInterval: Option<Double>,
    keepAliveTimeout: Option<Double>,
    renegotiatesAfter: Option<Double>,
    endpointProtocols: Option<seq<EndpointProtocol>>,
    checksEKU: Option<bool>,
    randomizeEndpoint: Option<bool>,
    usesPIAPatches: Option<bool>,
    authToken: Option<string>,
    peerId: Option<int>,
    ipv4: Option<IPv4Settings>,
    ipv6: Option<IPv6Settings>,
    dnsServers: Option<seq<string>>,
    searchDomains: Option<seq<string>>,
    httpProxy: Option<Proxy>,
    httpsProxy: Option<Proxy>,
    proxyAutoConfigurationURL: Option<Url>,
    proxyBypassDomains: Option<seq<string>>,
    routingPolicies: Option<seq<RoutingPolicy>>)

  const EmptyConfiguration := Configuration(
    None, None, None, None, None, None, None, None, None, None, None, None, None, None,
    None, None, None, None, None, None, None, None, None, None, None, None, None, None)

  /** Settings of the tunnel provider that are not part of the session. */
  datatype ProviderSettings = ProviderSettings(
    prefersResolvedAddresses: Option<bool>,
    resolvedAddresses: Option<seq<string>>,
    mtu: Option<int>,
    shouldDebug: Option<bool>,
    debugLogFormat: Option<string>,
    masksPrivateData: Option<bool>)

  const EmptyProviderSettings := ProviderSettings(None, None, None, None, None, None)

  /** Everything `setParam` and the configuration import can write. The
      shadow inputs (`tlsWrap*`, `socketType`, `port`) are kept apart from the
      builder, which only receives the values derived from them. */
  datatype Store = Store(
    session: Configuration,
    builtSession: Option<Configuration>,
    appGroup: Option<string>,
    tunnelIdentifier: Option<string>,
    username: Option<string>,
    password: Option<string>,
    tlsWrapStrategy: Option<TlsWrapStrategy>,
    tlsWrapKeyData: Option<string>,
    tlsWrapKeyDirection: Option<KeyDirection>,
    socketType: Option<SocketType>,
    port: Option<int>,
    providerSettings: ProviderSettings,
    dataCountInterval: int)

  /** Default sampling interval of the data counters, in milliseconds. */
  const DefaultDataCountInterval: int := 1000

  /** The state of a freshly loaded module. */
  const InitialStore := Store(
    EmptyConfiguration, None, None, None, None, None, None, None, None, None, None,
    EmptyProviderSettings, DefaultDataCountInterval)

  // ---------------------------------------------------------------------------
  // Accepted spellings of the enumerated values

  function CipherName(c: Cipher): string {
    match c
    case Aes128Cbc => "AES-128-CBC"
    case Aes192Cbc => "AES-192-CBC"
    case Aes256Cbc => "AES-256-CBC"
    case Aes128Gcm => "AES-128-GCM"
    case Aes192Gcm => "AES-192-GCM"
    case Aes256Gcm => "AES-256-GCM"
  }

  function ParseCipher(v: string): Option<Cipher> {
    if v == "AES-128-CBC" then Some(Aes128Cbc)
    else if v == "AES-192-CBC" then Some(Aes192Cbc)
    else if v == "AES-256-CBC" then Some(Aes256Cbc)
    else if v == "AES-128-GCM" then Some(Aes128Gcm)
    else if v == "AES-192-GCM" then Some(Aes192Gcm)
    else if v == "AES-256-GCM" then Some(Aes256Gcm)
    else None
  }

  function DigestName(d: Digest): string {
    match d
    case Sha1 => "SHA1"
    case Sha256 => "SHA256"
    case Sha384 => "SHA384"
    case Sha512 => "SHA512"
  }

  function ParseDigest(v: string): Option<Digest> {
    if v == "SHA1" then Some(Sha1)
    else if v == "SHA256" then Some(Sha256)
    else if v == "SHA384" then Some(Sha384)
    else if v == "SHA512" then Some(Sha512)
    else None
  }

  function FramingName(f: CompressionFraming): string {
    match f
    case FramingDisabled => "disabled"
    case CompLzo => "compLZO"
    case Compress => "compress"
  }

  function ParseFraming(v: string): Option<CompressionFraming> {
    if v == "disabled" then Some(FramingDisabled)
    else if v == "compLZO" then Some(CompLzo)
    else if v == "compress" then Some(Compress)
    else None
  }

  function AlgorithmName(a: CompressionAlgorithm): string {
    match a
    case AlgorithmDisabled => "disabled"
    case Lzo => "LZO"
    case OtherAlgorithm => "other"
  }

  function ParseAlgorithm(v: string): Option<CompressionAlgorithm> {
    if v == "disabled" then Some(AlgorithmDisabled)
    else if v == "LZO" then Some(Lzo)
    else if v == "other" then Some(OtherAlgorithm)
    else None
  }

  function StrategyName(s: TlsWrapStrategy): string {
    match s
    case Auth => "auth"
    case Crypt => "crypt"
  }

  function ParseStrategy(v: string): Option<TlsWrapStrategy> {
    if v == "auth" then Some(Auth) else if v == "crypt" then Some(Crypt) else None
  }

  function DirectionName(d: KeyDirection): string {
    match d
    case DirectionZero => "0"
    case DirectionOne => "1"
  }

  function ParseDirection(v: string): Option<KeyDirection> {
    if v == "0" then Some(DirectionZero) else if v == "1" then Some(DirectionOne) else None
  }

  function SocketTypeName(t: SocketType): string {
    match t
    case Tcp => "TCP"
    case Udp => "UDP"
  }

  function ParseSocketType(v: string): Option<SocketType> {
    if v == "TCP" then Some(Tcp) else if v == "UDP" then Some(Udp) else None
  }

  function FlagName(b: bool): string {
    if b then "true" else "false"
  }

  /** The boolean keys accept exactly `"true"` and `"false"`. */
  function ParseFlag(v: string): Option<bool> {
    if v == "true" then Some(true) else if v == "false" then Some(false) else None
  }

  /** Each value table reads back exactly the spellings it writes: the
      accepted spelling of a value is parsed to that value, and a parsed
      string is the spelling of its value. */
  lemma NameTablesRoundTrip(c: Cipher, d: Digest, f: CompressionFraming, a: CompressionAlgorithm,
                            s: TlsWrapStrategy, k: KeyDirection, t: SocketType, b: bool)
    ensures ParseCipher(CipherName(c)) == Some(c)
    ensures ParseDigest(DigestName(d)) == Some(d)
    ensures ParseFraming(FramingName(f)) == Some(f)
    ensures ParseAlgorithm(AlgorithmName(a)) == Some(a)
    ensures ParseStrategy(StrategyName(s)) == Some(s)
    ensures ParseDirection(DirectionName(k)) == Some(k)
    ensures ParseSocketType(SocketTypeName(t)) == Some(t)
    ensures ParseFlag(FlagName(b)) == Some(b)
  {
  }

  lemma ParsedAreNames(v: string)
    ensures ParseCipher(v).Some? ==> CipherName(ParseCipher(v).value) == v
    ensures ParseDigest(v).Some? ==> DigestName(ParseDigest(v).value) == v
    ensures ParseFraming(v).Some? ==> FramingName(ParseFraming(v).value) == v
    ensures ParseAlgorithm(v).Some? ==> AlgorithmName(ParseAlgorithm(v).value) == v
    ensures ParseStrategy(v).Some? ==> StrategyName(ParseStrategy(v).value) == v
    ensures ParseDirection(v).Some? ==> DirectionName(ParseDirection(v).value) == v
    ensures ParseSocketType(v).Some? ==> SocketTypeName(ParseSocketType(v).value) == v
    ensures ParseFlag(v).Some? ==> FlagName(ParseFlag(v).value) == v
  {
  }
}

=== FILE: status.dfy ===
/** Connection status: the platform's VPN status, the eight readable names
    reported to JavaScript, and the mapping between them. */
module Status {
  import opened Base

  /** The platform's status of a tunnel connection. `Future` stands for any
      value a later platform release may add (the `@unknown default` case). */
  datatype PlatformStatus =
    | Invalid | Disconnected | Connecting | Connected | Reasserting | Disconnecting
    | Future(code: int)
  {
    predicate IsKnown() { !Future? }
  }

  /** The readable status reported to JavaScript. */
  datatype Readable =
    | InvalidStatus | DisconnectedStatus | ConnectingStatus | ConnectedStatus
    | ReassertingStatus | DisconnectingStatus | NoneStatus | UnknownStatus

  /** The raw string of each readable status. */
  function RawValue(r: Readable): string {
    match r
    case InvalidStatus => "Invalid"
    case DisconnectedStatus => "Disconnected"
    case ConnectingStatus => "Connecting"
    case ConnectedStatus => "Connected"
    case ReassertingStatus => "Reasserting"
    case DisconnectingStatus => "Disconnecting"
    case NoneStatus => "None"
    case UnknownStatus => "Unknown"
  }

  /** The JavaScript side's reading of a status string (`VpnStatus`). */
  function ParseRaw(s: string): Option<Readable> {
    if s == "Invalid" then Some(InvalidStatus)
    else if s == "Disconnected" then Some(DisconnectedStatus)
    else if s == "Connecting" then Some(ConnectingStatus)
    else if s == "Connected" then Some(ConnectedStatus)
    else if s == "Reasserting" then Some(ReassertingStatus)
    else if s == "Disconnecting" then Some(DisconnectingStatus)
    else if s == "None" then Some(NoneStatus)
    else if s == "Unknown" then Some(UnknownStatus)
    else None
  }

  /** `readableStatus`: each known platform status maps to the readable
      status of the same name; any other value reads as `Unknown`. */
  function ToReadable(p: PlatformStatus): (r: Readable)
    ensures r != NoneStatus
    ensures r == UnknownStatus <==> !p.IsKnown()
  {
    match p
    case Invalid => InvalidStatus
    case Disconnected => DisconnectedStatus
    case Connecting => ConnectingStatus
    case Connected => ConnectedStatus
    case Reasserting => ReassertingStatus
    case Disconnecting => DisconnectingStatus
    case Future(_) => UnknownStatus
  }

  /** Distinct known platform states are reported distinctly. */
  lemma ToReadableInjective(p: PlatformStatus, q: PlatformStatus)
    requires p.IsKnown() && q.IsKnown() && ToReadable(p) == ToReadable(q)
    ensures p == q
  {
  }

  /** The raw strings are read back to the status they came from, so no two
      statuses share a string. */
  lemma {:induction false} RawValueRoundTrip(r: Readable)
    ensures ParseRaw(RawValue(r)) == Some(r)
  {
    match r
    case InvalidStatus =>
    case DisconnectedStatus =>
    case ConnectingStatus =>
    case ConnectedStatus =>
    case ReassertingStatus =>
    case DisconnectingStatus =>
    case NoneStatus =>
    case UnknownStatus =>
  }

  /** Only the eight raw strings are read as a status. */
  lemma ParseRawOnlyNames(s: string)
    ensures ParseRaw(s).Some? ==> RawValue(ParseRaw(s).value) == s
  {
  }
}

=== FILE: text.dfy ===
/** String operations the build-time patches rely on: substring search
    (`includes`), splitting on and joining with a separator (`split`/`join`),
    global literal replacement, and JavaScript's `\s` whitespace class. */
module Text {
  import opened Base

  /** `s` occurs in `t` starting at index `i`. */
  predicate OccursAt(t: string, s: string, i: nat) {
    i + |s| <= |t| && t[i..i + |s|] == s
  }

  /** JavaScript `t.includes(s)`. */
  predicate Contains(t: string, s: string) {
    exists i: nat | i <= |t| :: OccursAt(t, s, i)
  }

  /** `t` begins with `p`. */
  predicate StartsWith(t: string, p: string) {
    |p| <= |t| && t[..|p|] == p
  }

  lemma ContainsSelf(s: string)
    ensures Contains(s, s)
  {
    assert OccursAt(s, s, 0);
  }

  /** Text found in `a` is still found after anything is added around `a`. */
  lemma ContainsInConcat(pre: string, a: string, post: string, s: string)
    requires Contains(a, s)
    ensures Contains(pre + a + post, s)
  {
    var i: nat :| i <= |a| && OccursAt(a, s, i);
    assert i + |s| <= |a|;
    var t := pre + a + post;
    assert t[|pre| + i..|pre| + i + |s|] == a[i..i + |s|];
    assert OccursAt(t, s, |pre| + i);
  }

  /** `includes` is transitive. */
  lemma ContainsTransitive(t: string, u: string, s: string)
    requires Contains(t, u) && Contains(u, s)
    ensures Contains(t, s)
  {
    var i: nat :| i <= |t| && OccursAt(t, u, i);
    var j: nat :| j <= |u| && OccursAt(u, s, j);
    assert i + |u| <= |t| && j + |s| <= |u|;
    forall m | 0 <= m < |s|
      ensures t[i + j..i + j + |s|][m] == s[m]
    {
      assert s[m] == u[j + m] == t[i + j + m];
    }
    assert t[i + j..i + j + |s|] == s;
    assert OccursAt(t, s, i + j);
  }

  /** A text contains each of its parts. */
  lemma ContainsPart(pre: string, s: string, post: string)
    ensures Contains(pre + s + post, s)
  {
    ContainsSelf(s);
    ContainsInConcat(pre, s, post, s);
  }

  /** Whatever a text contains, it still contains with more after it. */
  lemma ContainsInPrefix(a: string, b: string, s: string)
    requires Contains(a, s)
    ensures Contains(a + b, s)
  {
    ContainsInConcat([], a, b, s);
    assert [] + a + b == a + b;
  }

  lemma StartsWithContains(t: string, p: string)
    requires StartsWith(t, p)
    ensures Contains(t, p)
  {
    assert OccursAt(t, p, 0);
  }

  /** Appending a block as a line of its own keeps what the text
      contained and adds what the block begins with. */
  lemma AppendedLineKeeps(contents: string, block: string, head: string, needle: string)
    requires StartsWith(block, head)
    ensures Contains(contents + "\n" + block + "\n", head)
    ensures Contains(contents, needle) ==> Contains(contents + "\n" + block + "\n", needle)
  {
    StartsWithContains(block, head);
    ContainsInConcat(contents + "\n", block, "\n", head);
    if Contains(contents, needle) {
      ContainsInPrefix(contents, "\n" + block + "\n", needle);
      assert contents + ("\n" + block + "\n") == contents + "\n" + block + "\n";
    }
  }

  // ---------------------------------------------------------------------------
  // Splitting and joining

  /** JavaScript `xs.join(sep)`. */
  function Join(xs: seq<string>, sep: string): string
    decreases |xs|
  {
    if |xs| == 0 then ""
    else if |xs| == 1 then xs[0]
    else xs[0] + sep + Join(xs[1..], sep)
  }

  /** The first index of `c` in `s`. */
  function IndexOf(s: string, c: char): (i: nat)
    requires c in s
    ensures i < |s| && s[i] == c
    ensures c !in s[..i]
  {
    if s[0] == c then 0
    else
      var j := IndexOf(s[1..], c);
      assert s[..j + 1] == [s[0]] + s[1..][..j];
      j + 1
  }

  /** JavaScript `s.split(c)` for a one-character separator: empty pieces
      are kept, so a string with n separators has n + 1 pieces. */
  function Split(s: string, c: char): (parts: seq<string>)
    ensures |parts| >= 1
    ensures forall k :: 0 <= k < |parts| ==> c !in parts[k]
    ensures Join(parts, [c]) == s
    decreases |s|
  {
    if c !in s then [s]
    else
      var i := IndexOf(s, c);
      var rest := Split(s[i + 1..], c);
      var parts := [s[..i]] + rest;
      assert parts[1..] == rest;
      assert s == s[..i] + [c] + s[i + 1..];
      parts
  }

  /** The first piece of a split is the text before the first separator. */
  lemma SplitHead(a: string, c: char, b: string)
    requires c !in a
    ensures Split(a + [c] + b, c)[0] == a
  {
    var s := a + [c] + b;
    var i := IndexOf(s, c);
    assert s[|a|] == c;
    assert s[..|a|] == a;
  }

  /** Every piece of a join occurs in the joined text. */
  lemma {:induction false} JoinContainsPiece(xs: seq<string>, sep: string, k: nat)
    requires k < |xs|
    ensures Contains(Join(xs, sep), xs[k])
    decreases |xs|
  {
    if |xs| == 1 {
      ContainsSelf(xs[0]);
    } else if k == 0 {
      ContainsSelf(xs[0]);
      ContainsInConcat("", xs[0], sep + Join(xs[1..], sep), xs[0]);
      assert "" + xs[0] + (sep + Join(xs[1..], sep)) == Join(xs, sep);
    } else {
      JoinContainsPiece(xs[1..], sep, k - 1);
      ContainsInConcat(xs[0] + sep, Join(xs[1..], sep), "", xs[k]);
      assert xs[0] + sep + Join(xs[1..], sep) + "" == Join(xs, sep);
    }
  }

  /** The pieces of `xs` that are not empty, in order (Swift's `split`,
      which omits empty subsequences). */
  function NonEmpty(xs: seq<string>): (r: seq<string>)
    ensures forall k :: 0 <= k < |r| ==> r[k] != ""
    ensures forall k :: 0 <= k < |r| ==> r[k] in xs
    ensures |r| <= |xs|
  {
    if |xs| == 0 then []
    else if xs[0] == "" then NonEmpty(xs[1..])
    else [xs[0]] + NonEmpty(xs[1..])
  }

  /** Position `i` of `s` holds a line feed that is a Swift `Character` of
      its own. Swift compares extended grapheme clusters, and a line feed
      right after a carriage return belongs to the single cluster CR LF; a
      line feed anywhere else is a cluster by itself. */
  predicate LineBreakAt(s: string, i: nat) {
    i < |s| && s[i] == '\n' && (i == 0 || s[i - 1] != '\r')
  }

  /** `t` holds no line feed that is a character of its own. */
  predicate NoLineBreak(t: string) {
    forall i :: 0 <= i < |t| ==> !LineBreakAt(t, i)
  }

  /** `t` ends with a carriage return. */
  predicate EndsWithReturn(t: string) {
    |t| > 0 && t[|t| - 1] == '\r'
  }

  /** The first line break at or after `from`. */
  function FirstLineBreak(s: string, from: nat): (r: Option<nat>)
    requires from <= |s|
    ensures r.Some? ==> from <= r.value < |s| && LineBreakAt(s, r.value)
    ensures r.Some? ==> forall i :: from <= i < r.value ==> !LineBreakAt(s, i)
    ensures r.None? <==> forall i :: from <= i < |s| ==> !LineBreakAt(s, i)
    decreases |s| - from
  {
    if from == |s| then None
    else if LineBreakAt(s, from) then Some(from)
    else FirstLineBreak(s, from + 1)
  }

  /** The pieces Swift's `split(separator: "\n", omittingEmptySubsequences:
      false)` makes: `s` cut at each line feed that is a character of its
      own, so a CR LF pair stays inside its piece. The pieces joined with
      line feeds give back `s`, none holds a line break, and none but the
      last ends with a carriage return (which would have made the following
      line feed part of a CR LF pair). */
  function SwiftPieces(s: string): (parts: seq<string>)
    ensures |parts| >= 1
    ensures Join(parts, "\n") == s
    ensures forall k :: 0 <= k < |parts| ==> NoLineBreak(parts[k])
    ensures forall k :: 0 <= k < |parts| - 1 ==> !EndsWithReturn(parts[k])
    decreases |s|
  {
    match FirstLineBreak(s, 0)
    case None => [s]
    case Some(i) =>
      var head := s[..i];
      var rest := SwiftPieces(s[i + 1..]);
      var parts := [head] + rest;
      assert parts[1..] == rest;
      assert s == head + "\n" + s[i + 1..];
      assert NoLineBreak(head) by {
        forall j | 0 <= j < |head|
          ensures !LineBreakAt(head, j)
        {
          assert !LineBreakAt(s, j);
        }
      }
      parts
  }

  /** Without carriage returns every line feed is a character of its own,
      and Swift's pieces are JavaScript's. */
  lemma {:induction false} SwiftPiecesWithoutReturns(s: string)
    requires '\r' !in s
    ensures SwiftPieces(s) == Split(s, '\n')
    decreases |s|
  {
    if '\n' in s {
      var i := IndexOf(s, '\n');
      assert LineBreakAt(s, i);
      forall k | 0 <= k < i
        ensures !LineBreakAt(s, k)
      {
        assert s[..i][k] == s[k];
      }
      assert FirstLineBreak(s, 0) == Some(i);
      var tail := s[i + 1..];
      assert '\r' !in tail by {
        forall k | 0 <= k < |tail|
          ensures tail[k] != '\r'
        {
          assert tail[k] == s[i + 1 + k];
        }
      }
      SwiftPiecesWithoutReturns(tail);
    } else {
      forall k | 0 <= k < |s|
        ensures !LineBreakAt(s, k)
      {
        assert s[k] in s;
      }
    }
  }

  /** A carriage return before a line feed keeps the two in one line. */
  lemma CrLfKeptTogether()
    ensures SwiftPieces("a\r\nb") == ["a\r\nb"]
    ensures SwiftPieces("a\nb") == ["a", "b"]
  {
    assert !LineBreakAt("a\r\nb", 2);
    assert FirstLineBreak("a\r\nb", 0) == None;
    assert LineBreakAt("a\nb", 1);
    assert FirstLineBreak("a\nb", 0) == Some(1);
    assert "a\nb"[..1] == "a";
    assert "a\nb"[2..] == "b";
    assert FirstLineBreak("b", 0) == None;
    assert SwiftPieces("b") == ["b"];
  }

  /** Swift `str.split(separator: "\n")`: the lines of `s`, empty ones
      dropped, a CR LF pair kept inside its line. */
  function SwiftLines(s: string): (lines: seq<string>)
    ensures forall k :: 0 <= k < |lines| ==> lines[k] != "" && NoLineBreak(lines[k])
    ensures forall k :: 0 <= k < |lines| ==> lines[k] in SwiftPieces(s)
  {
    NonEmpty(SwiftPieces(s))
  }

  // ---------------------------------------------------------------------------
  // Global literal replacement

  /** JavaScript `s.replace(/p/g, rep)` for a pattern made of literal
      characters: scans left to right, replacing each match and resuming
      after it. */
  function ReplaceAll(s: string, p: string, rep: string): string
    requires |p| > 0
    decreases |s|
  {
    if |s| < |p| then s
    else if s[..|p|] == p then rep + ReplaceAll(s[|p|..], p, rep)
    else [s[0]] + ReplaceAll(s[1..], p, rep)
  }

  /** No proper suffix of `p` is also a prefix of it, so two occurrences of
      `p` can never overlap. */
  predicate BorderFree(p: string) {
    forall k :: 0 < k < |p| ==> p[k..] != p[..|p| - k]
  }

  /** A pattern absent from `s` is absent from its tail. */
  lemma AbsentFromTail(s: string, p: string)
    requires |s| > 0 && !Contains(s, p)
    ensures !Contains(s[1..], p)
  {
    if Contains(s[1..], p) {
      var i: nat :| i <= |s[1..]| && OccursAt(s[1..], p, i);
      assert i + |p| <= |s[1..]|;
      assert s[i + 1..i + 1 + |p|] == s[1..][i..i + |p|];
      assert OccursAt(s, p, i + 1);
    }
  }

  /** Where no match starts, the first character is copied. */
  lemma ReplaceSkip(s: string, p: string, rep: string)
    requires |p| > 0 && |s| >= |p| && s[..|p|] != p
    ensures ReplaceAll(s, p, rep) == [s[0]] + ReplaceAll(s[1..], p, rep)
  {
  }

  /** Text without the pattern is left as it is. */
  lemma {:induction false} ReplaceAbsent(s: string, p: string, rep: string)
    requires |p| > 0 && !Contains(s, p)
    ensures ReplaceAll(s, p, rep) == s
    decreases |s|
  {
    if |s| >= |p| {
      assert !OccursAt(s, p, 0);
      ReplaceSkip(s, p, rep);
      AbsentFromTail(s, p);
      ReplaceAbsent(s[1..], p, rep);
      assert [s[0]] + s[1..] == s;
    }
  }

  /** When the pattern does not occur in `a`, no match of the pattern in
      `a + p + b` can start inside `a`. */
  lemma NoMatchInside(a: string, p: string, b: string, i: nat)
    requires |p| > 0 && BorderFree(p) && !Contains(a, p) && i < |a|
    ensures !StartsWith((a + p + b)[i..], p)
  {
    var t := a + p + b;
    var k := |a| - i;
    if k >= |p| {
      assert !OccursAt(a, p, i);
      assert t[i..][..|p|] == a[i..i + |p|];
    } else {
      var w := t[i..][..|p|];
      assert w == a[i..] + p[..|p| - k];
      assert w[k..] == p[..|p| - k];
      assert p[k..] != p[..|p| - k];
    }
  }

  /** The first occurrence of the pattern is replaced and the text before
      it is kept. */
  lemma {:induction false} ReplaceFirst(a: string, p: string, b: string, rep: string)
    requires |p| > 0 && BorderFree(p) && !Contains(a, p)
    ensures ReplaceAll(a + p + b, p, rep) == a + rep + ReplaceAll(b, p, rep)
    decreases |a|
  {
    var t := a + p + b;
    if |a| == 0 {
      assert t == p + b;
      assert t[..|p|] == p;
      assert t[|p|..] == b;
    } else {
      NoMatchInside(a, p, b, 0);
      assert t[0..] == t;
      ReplaceSkip(t, p, rep);
      assert t[1..] == a[1..] + p + b;
      AbsentFromTail(a, p);
      ReplaceFirst(a[1..], p, b, rep);
      assert [a[0]] + a[1..] == a;
    }
  }

  /** Every occurrence is replaced: text made of pattern-free pieces joined
      by the pattern becomes the same pieces joined by the replacement. */
  lemma {:induction false} ReplaceJoin(pieces: seq<string>, p: string, rep: string)
    requires |p| > 0 && BorderFree(p)
    requires forall k :: 0 <= k < |pieces| ==> !Contains(pieces[k], p)
    ensures ReplaceAll(Join(pieces, p), p, rep) == Join(pieces, rep)
    decreases |pieces|
  {
    if |pieces| == 0 {
    } else if |pieces| == 1 {
      ReplaceAbsent(pieces[0], p, rep);
    } else {
      ReplaceFirst(pieces[0], p, Join(pieces[1..], p), rep);
      ReplaceJoin(pieces[1..], p, rep);
    }
  }

  // ---------------------------------------------------------------------------
  // Whitespace

  /** JavaScript's `\s` class: the ASCII blanks, line terminators and the
      Unicode space separators. */
  predicate IsWhitespace(c: char) {
    || c == ' ' || c == '\t' || c == '\n' || c == '\r'
    || c == '\U{000B}' || c == '\U{000C}' || c == '\U{00A0}' || c == '\U{1680}'
    || ('\U{2000}' <= c <= '\U{200A}')
    || c == '\U{2028}' || c == '\U{2029}' || c == '\U{202F}' || c == '\U{205F}'
    || c == '\U{3000}' || c == '\U{FEFF}'
  }

  /** `line.match(/^\s*\/)[0]`: the longest whitespace prefix of `line`. */
  function LeadingWhitespace(line: string): (w: string)
    ensures StartsWith(line, w)
    ensures forall k :: 0 <= k < |w| ==> IsWhitespace(w[k])
    ensures |w| < |line| ==> !IsWhitespace(line[|w|])
  {
    if |line| > 0 && IsWhitespace(line[0]) then
      var w := LeadingWhitespace(line[1..]);
      assert line[..|w| + 1] == [line[0]] + line[1..][..|w|];
      [line[0]] + w
    else ""
  }
}
